=== FILE: README.md ===
# WasmEdge yolo-rs in Dafny

A model of the object-detection and video pipeline of yolo-rs. It covers two sides:

- **The WebAssembly guest.** This is the YOLOv8 detection library (`yolo-rs-wasm`). It pre-processes an RGB image into a `[1, 3, 640, 640]` tensor. It decodes the network's `8400 x (4 + classes)` output into detections, with a confidence threshold, class choice and box scaling. It then removes overlapping detections of the same class by non-maximum suppression. `infer_video` runs the image pipeline over every frame of a video held by the host plugin.
- **The WasmEdge host plugin.** This is `yolo-rs-video-plugin`. It keeps the decoded frames in a mutex-protected store and hands them to the guest. It takes the processed frames back and re-encodes them with ffmpeg. Frame timestamps are computed with ffmpeg time bases.

There is one Dafny module per component:

| module | file | component |
|---|---|---|
| `Wrappers` | wrappers.dfy | `Option` and `Result` |
| `Machine` | machine.dfy | the `u32`, `i32` and `u8` ranges shared by both sides, the `u32` wrap-around, and the bounds of unsigned division |
| `Tensor` | tensor.dfy | `transpose`, `process_output_buffer_to_tensor` |
| `Detection` | detection.dfy | `apply_confidence_and_scale` |
| `LegacyDecode` | legacy.dfy | the earlier `post_process_results` |
| `Iou` | iou.dfy | scalar `iou`, `bboxes_to_ndarray`, `vectorized_iou` |
| `ConfidenceSort` | sorting.dfy | the stable descending sort of `non_maximum_supression` |
| `Nms` | nms.dfy | `non_maximum_supression` |
| `Prepare` | prepare.dfy | `pre_process_image` and the flattening in `infer_image` |
| `MediaTime` | mediatime.dfy | `Time` and `Aligned` |
| `FrameStore` | framestore.dfy | the plugin's host functions over `FramesMap` |
| `Encoder` | encoder.dfy | `VideoEncoder`, over a trace of ffmpeg calls |
| `Yolo` | yolo.dfy | `YoloBuilder::build_from_*`, `infer_image`, `infer_video` |

Values are modelled as follows:

- Scores, IOU values and image planes are `real`.
- Box coordinates and sizes are integers.
- Rounding (`f32::round() as u32`), ffmpeg's `rescale`, the image library's resize, the neural network and ffmpeg's answers are all function-valued parameters.
- Integer widths are modelled where they matter:
  - the `u32` product in the resize arithmetic wraps;
  - the `u32` bit rate wraps;
  - the `u32` areas, area sum and union of the scalar IOU wrap, in a variant beside the exact one;
  - `u32 as i32` is reinterpreted for box corners;
  - the guest's `i32` buffer size wraps;
  - `usize` frame indices come from `i32`.
- The matrix IOU divides in f64. Its quotient is a `Finite | PosInf | NegInf | NaN` value, and a comparison `> threshold` is false on NaN and on negative infinity.
- The order in which suppression returns its survivors comes from iterating a `HashSet`, so suppression is specified as a multiset.

Where the code disagrees with the evident intent, the model follows the code. The intended behaviour is stated alongside it, and both are listed under Findings.

The wasm crate imports its own `prepare` module. yolo-rs-wasm/src/prepare.rs is not part of this model. Pre-processing is modelled from src/prepare.rs. Its `pre_process_image` returns no error, so the model's `infer_image` never returns `ImageError`. It does panic on a 0 x 0 image, because it divides by the longer side, which is 0. The model leaves that image out (see Left out).

## Model

| member | source | states |
|---|---|---|
| Tensor.Columns | yolo-rs-wasm/src/process.rs:18-22 | `chunks_exact(8400)`: as many full 8400-long chunks as fit, each holding consecutive buffer values; a trailing partial chunk is dropped |
| Tensor.Transpose | yolo-rs-wasm/src/process.rs:75-90 | an empty input stays empty; otherwise one output row per element of the first row, each as long as the input has rows, with `out[i][j] == in[j][i]` |
| Tensor.TransposeRectangular | yolo-rs-wasm/src/process.rs:75-90 | rows of equal length transpose into rows of equal length |
| Tensor.TransposeTwice | yolo-rs-wasm/src/process.rs:75-90 | for R > 0 rows of equal length C > 0, transposing twice gives back the input |
| Tensor.TransposeLosesEmptyRows | yolo-rs-wasm/src/process.rs:76-89 | rows that are all empty transpose to nothing, so transposing twice does not restore them |
| Tensor.ProcessOutputBuffer | yolo-rs-wasm/src/process.rs:14-27 | a buffer shorter than 8400 gives no rows; otherwise 8400 rows, each with one field per full chunk, and field k of row i is `buffer[k * 8400 + i]` |
| Tensor.TrailingPartialColumnIgnored | yolo-rs-wasm/src/process.rs:19 | appending fewer than 8400 values to a whole number of chunks changes nothing |
| Tensor.AllocatedBufferRowsHave80Fields | yolo-rs-wasm/src/lib.rs:325 | through the 8400 * 80 buffer the caller allocates, each of the 8400 rows has 80 fields: 4 box fields and only 76 class scores |
| Tensor.FullBufferRowsCarryAllScores | yolo-rs-wasm/src/process.rs:14-27 | a buffer of 8400 * (4 + 80) floats gives rows of 4 box fields and all 80 class scores |
| Detection.AsI32 | yolo-rs-wasm/src/process.rs:67 | `u32 as i32`: a value in the `i32` range congruent to its input modulo 2^32 |
| Detection.SeqMax | yolo-rs-wasm/src/process.rs:46 | `reduce(max)` of the class scores is one of them and no score exceeds it |
| Detection.FirstIndexOf | yolo-rs-wasm/src/process.rs:52 | `position(== max)` is the first index holding the maximum |
| Detection.DecodeRow | yolo-rs-wasm/src/process.rs:45-70 | the detection's confidence is one of the row's class scores and no class score exceeds it; its class is `classes[k]` for the first k attaining that score; its box has width and height `round(w * scale)` and `round(h * scale)` and corner `round((cx - 0.5 w) * scale)`, `round((cy - 0.5 h) * scale)` taken `as i32` |
| Detection.KeptIndices | yolo-rs-wasm/src/process.rs:42-50 | exactly the positions of rows whose best score is not below the threshold, in increasing order |
| Detection.ApplyConfidenceAndScale | yolo-rs-wasm/src/process.rs:35-73 | one detection per kept row, in row order, never more than the rows; each is the decoding of its row and reaches the threshold |
| Detection.KeptIndicesLength | yolo-rs-wasm/src/process.rs:41-72 | the filter never yields more detections than rows |
| Detection.RowYieldsDetectionIff | yolo-rs-wasm/src/process.rs:46-50 | a row yields a detection if and only if its best class score is at least the threshold |
| Detection.DecodedBoxNearScaledBox | yolo-rs-wasm/src/process.rs:59-67 | when the four scaled values round to nearest and the corner stays below 2^31, the box's corner and size are each within half a pixel of the scaled centre-to-corner box, and its centre is within three quarters of a pixel of the scaled centre |
| LegacyDecode.LegacyRow | src/process.rs:21-41 | one row's result: its first four fields rounded with no centre shift or scaling, the best class score, and the class at the first index attaining it |
| LegacyDecode.DecodeRows | src/process.rs:19-43 | one result per row, in row order, with no confidence filtering |
| LegacyDecode.PostProcessResults | src/process.rs:2-44 | the buffer is cut into 8400-long chunks and transposed first; each result holds the rounded raw x, y, width and height with no centre shift or scaling, the best class score and the class at its first index |
| LegacyDecode.LegacyRowFromBuffer | src/process.rs:5-32 | each result, read back through the buffer: its fields are `buffer[k * 8400 + i]`, its probability is the largest score in the buffer column, and no earlier score equals it |
| Iou.Intersect | yolo-rs-wasm/src/process.rs:174 | `Rect::intersect`: a rectangle exactly when the rectangles overlap on both axes, as wide and high as the overlap and never larger than either |
| Iou.IntersectionAreaBounded | yolo-rs-wasm/src/process.rs:167-175 | the intersection is no larger than either rectangle |
| Iou.ScalarIou | yolo-rs-wasm/src/process.rs:166-178 | 1.0 when the rectangles do not intersect; otherwise intersection over union |
| Iou.ScalarIouIntersecting | yolo-rs-wasm/src/process.rs:175 | for intersecting rectangles the union is positive and the IOU lies in (0, 1] |
| Iou.ScalarIouU32 | yolo-rs-wasm/src/process.rs:166-178 | the `u32` areas, their sum and the union wrap modulo 2^32: 1.0 when the rectangles do not intersect, and equal to the exact `ScalarIou` whenever the two areas sum to less than 2^32 |
| Iou.ScalarIouU32HugeSquares | yolo-rs-wasm/src/process.rs:167-175 | two equal 65536 x 65536 rectangles wrap every area to 0 and give NaN, where the exact IOU is 1 |
| Iou.ScalarIouTestValues | yolo-rs-wasm/src/process.rs:283-300 | the unit test's pairs give 0.25 and 4/14 |
| Iou.ScalarIouDisjointIsOne | yolo-rs-wasm/src/process.rs:176 | rectangles apart on the x axis, for instance (0,0,1,1) and (5,5,1,1), score the maximum 1.0 |
| Iou.ScalarIouIntendedBounds | yolo-rs-wasm/src/process.rs:166-178 | the corrected scalar IOU lies in [0, 1], is 0 exactly when the rectangles do not intersect, and is 1 for a rectangle with itself |
| Iou.ScalarIouIntended | yolo-rs-wasm/src/process.rs:166-178 | the corrected scalar IOU is 0 for rectangles that do not intersect and agrees with `iou` for those that do |
| Iou.SelfScalarIouIsOne | yolo-rs-wasm/src/process.rs:166-178 | a rectangle has IOU 1 with itself |
| Iou.VectorizedIou | yolo-rs-wasm/src/process.rs:195-236 | an N x N matrix whose entry (i, j) is the IOU of box i of the first set with box j of the second, by the as-written formula |
| Iou.IouEntryIsRatio | yolo-rs-wasm/src/process.rs:201-234 | one entry of the as-written matrix: finite, and times the union `area_a + area_b - inter` equal to the raw intersection, when that union is not 0; an infinity or NaN when it is 0 |
| Iou.IouEntrySymmetric | yolo-rs-wasm/src/process.rs:201-234 | the entry formula is symmetric in its two boxes |
| Iou.VectorizedIouSymmetric | yolo-rs-wasm/src/process.rs:195-236 | the IOU matrix of a box set with itself is symmetric |
| Iou.VectorizedIouDiagonal | yolo-rs-wasm/src/process.rs:195-236 | its diagonal is exactly 1 for boxes of positive area |
| Iou.VectorizedIouTestValues | yolo-rs-wasm/src/process.rs:304-330 | the unit tests' matrices `[[1, 0.25], [0.25, 1]]` and `[[1, 0.25, 0], [0.25, 1, 0], [0, 0, 1]]` |
| Iou.UnclampedDisjointCounterexample | yolo-rs-wasm/src/process.rs:232-233 | `[0,0,1,1]` against `[2,2,3,3]` gets raw intersection 1 and IOU 1.0; the clamped form gives 0 |
| Iou.ClampedAgreesWhenOverlapping | yolo-rs-wasm/src/process.rs:232-233 | when both differences are non-negative, the as-written and clamped entries agree |
| Iou.ClampedEntryBounds | yolo-rs-wasm/src/process.rs:232-234 | for boxes with ordered corners the clamped entry is finite and in [0, 1], is 0 for boxes apart on either axis, and is 1 for a box with itself |
| Iou.MatrixDisagreesWithScalarOnRects | yolo-rs-wasm/src/process.rs:105-114 | on the scalar test's rectangles the matrix, built from imageproc's inclusive right/bottom, gives 0 where the scalar IOU gives 0.25 |
| Iou.ScenarioOverlapping | yolo-rs-wasm/src/process.rs:232-234 | a 10 x 10 box and the same box shifted by 2 along x have IOU 2/3 |
| Iou.ScenarioCorner | yolo-rs-wasm/src/process.rs:232-234 | a 2 x 2 corner overlap of two 10 x 10 boxes has IOU 4/196 |
| Iou.ScenarioShiftedCorner | yolo-rs-wasm/src/process.rs:232-234 | the shifted box against the corner box has IOU 8/192 |
| Iou.ScenarioDistant | yolo-rs-wasm/src/process.rs:232-234 | boxes 10 apart on both axes have IOU 1.0 as written and 0 clamped |
| ConfidenceSort.Insert | yolo-rs-wasm/src/process.rs:97 | inserting into a descending sequence keeps it descending and adds exactly the one element |
| ConfidenceSort.InsertStable | yolo-rs-wasm/src/process.rs:97 | the inserted element goes first among those of equal confidence, and no other confidence group is reordered |
| ConfidenceSort.SortByConfidence | yolo-rs-wasm/src/process.rs:97 | `sort_by(total_cmp)` reversed: confidences descending, a permutation of the input, and stable (elements of equal confidence keep their input order) |
| ConfidenceSort.SortedSequenceUnchanged | yolo-rs-wasm/src/process.rs:97 | an already descending sequence is left as it is |
| ConfidenceSort.SortHeadIsMaximal | yolo-rs-wasm/src/process.rs:97 | the first sorted element is at least as confident as every input element |
| Nms.Boxes | yolo-rs-wasm/src/process.rs:105-114 | one `[left, top, right, bottom]` row per detection, in order |
| Nms.NonMaximumSuppression | yolo-rs-wasm/src/process.rs:93-163 | as a multiset, the output is the independent reference: the sorted detections no earlier detection of the same class exceeds in IOU; an empty input gives an empty output |
| Nms.SuppressionPass | yolo-rs-wasm/src/process.rs:135-154 | the loop over all pairs `i < j` leaves exactly the indices not suppressed by an earlier index of the same class |
| Nms.CollectKept | yolo-rs-wasm/src/process.rs:156-159 | visiting the keep set in any order collects exactly the kept detections, one per kept index |
| Nms.NmsWithinInput | yolo-rs-wasm/src/process.rs:93-163 | suppression only removes detections |
| Nms.NmsKeepsMostConfident | yolo-rs-wasm/src/process.rs:97-154 | the most confident detection always survives |
| Nms.NmsSurvivorsCompatible | yolo-rs-wasm/src/process.rs:138-154 | any two survivors differ in class or have IOU not above the threshold (for a symmetric IOU) |
| Nms.NmsKeepsAllCompatible | yolo-rs-wasm/src/process.rs:138-154 | if every two inputs are compatible, nothing is removed |
| Nms.NmsKeepsDistinctClasses | yolo-rs-wasm/src/process.rs:145-147 | detections of pairwise different classes never suppress each other |
| Nms.NmsIdempotent | yolo-rs-wasm/src/process.rs:93-163 | suppressing the output again removes nothing |
| Nms.IouEntryIsSymmetric | yolo-rs-wasm/src/process.rs:201-234 | the as-written entry satisfies the symmetry the survivor lemmas need |
| Nms.ClampedApartCompatible | yolo-rs-wasm/src/process.rs:232-233 | with the clamped entry, boxes apart on either axis never remove each other |
| Nms.NmsThreeBoxScenario | yolo-rs-wasm/src/process.rs:97-159 | of three same-class boxes where only the first pair overlaps above the threshold, the first and third survive |
| Nms.NmsDistantBoxScenario | yolo-rs-wasm/src/process.rs:232-233 | two same-class boxes far apart: the as-written IOU removes the less confident one, the clamped IOU keeps both |
| Machine.Wrap32 | src/prepare.rs:22 | `u32` wrap-around: the value below 2^32 congruent to the input modulo 2^32, so not above the input and the identity below 2^32 |
| Prepare.ResizedDims | src/prepare.rs:20-41 | the longer side becomes 640 and the shorter one is `ShortSide` of the two; both sides are at most 640, with or without wrap-around, so the paste at (0, 0) fits |
| Prepare.ShortSide | src/prepare.rs:22-26 | `640 * short / long` with the product wrapped in `u32`: the largest side whose product with the long side does not exceed the wrapped product (division rounding down), and at most 640 when the short side is not the longer one |
| Prepare.ResizeScale | src/prepare.rs:16-17 | the scale times 640 is the longer side |
| Prepare.Plane | src/prepare.rs:44-57 | a 640 x 640 plane indexed `[y][x]`, each value the canvas byte of that channel divided by 255 |
| Prepare.PreProcess | src/prepare.rs:11-63 | three 640 x 640 planes and the resize scale |
| Prepare.ResizedDimsKeepAspect | src/prepare.rs:20-28 | without wrap-around the shorter side is the floor of `640 * short / long` |
| Prepare.SquareBecomesFull | src/prepare.rs:20-28 | a square input becomes 640 x 640 |
| Prepare.HugeSquareWraps | src/prepare.rs:26 | a square of side 6710887 wraps the `u32` product and gets width 0 |
| Prepare.CanvasRegions | src/prepare.rs:40-41 | inside the pasted region the canvas shows the resized image; elsewhere it is black |
| Prepare.PlanesNormalised | src/prepare.rs:44-60 | the planes are red, green, blue, in that order, each value the byte over 255, in [0, 1] |
| Prepare.PlanesZeroOutsideImage | src/prepare.rs:40-57 | outside the pasted region every plane holds 0 |
| Prepare.Flatten | yolo-rs-wasm/src/lib.rs:307-313 | the flattened tensor has 3 * 640 * 640 values |
| Prepare.FlattenIndex | yolo-rs-wasm/src/lib.rs:307-313 | value (c, y, x) lands at offset `c * 640 * 640 + y * 640 + x` |
| MediaTime.Zero | yolo-rs-video-plugin/src/time.rs:20-25 | `Time::zero()` is the value 0 in the base 1/90000 |
| MediaTime.IntoValue | yolo-rs-video-plugin/src/time.rs:37-39 | the tick count, present exactly when the time holds one |
| MediaTime.RescaleOption | yolo-rs-video-plugin/src/time.rs:41-48 | `Option::map` of a rescale: a value is rescaled and an absent value stays absent |
| MediaTime.AlignedWith | yolo-rs-video-plugin/src/time.rs:27-35 | keeps the left value and base, and rescales the right value into the left base; an absent right value stays absent |
| MediaTime.AlignedWithRational | yolo-rs-video-plugin/src/time.rs:41-48 | the given base becomes the base; the value is rescaled into it, and an absent value stays absent |
| MediaTime.Add | yolo-rs-video-plugin/src/time.rs:66-78 | the sum in the aligned base when both values are present, no value otherwise |
| MediaTime.AlignToOwnBase | yolo-rs-video-plugin/src/time.rs:41-48 | with a rescale that fixes equal bases, aligning to one's own base changes nothing |
| MediaTime.AddSameBase | yolo-rs-video-plugin/src/time.rs:66-78 | two times in one base add to the plain sum, in either order |
| MediaTime.AddToZeroIsAlignment | yolo-rs-video-plugin/src/time.rs:20-35 | adding to `Time::zero()`, which is 0 in base 1/90000, is aligning to that base |
| MediaTime.MissingValueAbsorbs | yolo-rs-video-plugin/src/time.rs:66-78 | a missing value on either side makes the sum missing |
| FrameStore.LogLevel | yolo-rs-video-plugin/src/lib.rs:120-127 | codes 0 to 4 name Off, Error, Warn, Info, Debug; every other code means Trace |
| FrameStore.LevelCode | yolo-rs-video-plugin/src/lib.rs:120-127 | the code that asks for each level |
| FrameStore.LogLevelRoundTrip | yolo-rs-video-plugin/src/lib.rs:120-127 | every level can be asked for, and codes 0 to 4 round-trip |
| FrameStore.InitPluginLogging | yolo-rs-video-plugin/src/lib.rs:109-139 | returns 0 and installs the mapped level when guest memory is reachable, `User(1)` and no level otherwise |
| FrameStore.Load | yolo-rs-video-plugin/src/lib.rs:158-230 | `Runtime(1)` exactly on a poisoned store; `User(1)` exactly when memory is not reachable, decoding failed or the decode has frames; a panic poisons the store, every other outcome leaves it unchanged, and no sizes are written back |
| FrameStore.LoadNeverSucceeds | yolo-rs-video-plugin/src/lib.rs:158-230 | as written no load returns a status: the frames and video information are never replaced, and it panics exactly for an empty decode |
| FrameStore.LoadIntended | yolo-rs-video-plugin/src/lib.rs:200-220 | the corrected load returns 0 exactly for a non-empty decode on an unpoisoned store with reachable memory; it then stores the frames and information and reports width, height and frame count; otherwise nothing changes |
| FrameStore.GetFrame | yolo-rs-video-plugin/src/lib.rs:233-276 | the frames and video information never change; status 0 copies the frame's input pixels for an index in range and leaves the buffer alone for one out of range; a panic poisons the store |
| FrameStore.WriteFrame | yolo-rs-video-plugin/src/lib.rs:279-346 | status 0 sets only that frame's output; status 1 for an index out of range leaves the store unchanged; it panics without video information or on a buffer of the wrong size |
| FrameStore.Partition | yolo-rs-video-plugin/src/lib.rs:392-404 | the fold puts every frame in exactly one of its two lists, so their lengths add up to the frame count |
| FrameStore.WrittenInOrderAppend | yolo-rs-video-plugin/src/lib.rs:392-404 | the processed frames of a concatenation are those of each part, in order |
| FrameStore.PartitionSplitsFrames | yolo-rs-video-plugin/src/lib.rs:392-404 | the fold's two lists together are as long as the frames; the missing indices are exactly the unwritten frames, increasing; the outputs are the written ones in order |
| FrameStore.PartitionAllWritten | yolo-rs-video-plugin/src/lib.rs:392-404 | with every frame written nothing is missing and every frame goes to the encoder in order |
| FrameStore.Assemble | yolo-rs-video-plugin/src/lib.rs:349-421 | `Runtime(1)` exactly for a poisoned store or missing memory; `User(1)` for an unreachable file name, missing video info or an encoder that does not open, on a usable store; a panic poisons the store and nothing else changes it; on status 0 the encoder gets exactly the processed frames in index order, otherwise none |
| FrameStore.AssembleNeedsMissingFrame | yolo-rs-video-plugin/src/lib.rs:392-416 | as written assembling returns 0 exactly for a store that is not poisoned, with reachable memory and video info, with some frame missing, whose encoder opens and whose frame rate is not 0; the same store with frame rate 0 panics, and nothing else does; `User(1)` when the encoder does not open or every frame was written |
| FrameStore.AssembleIntended | yolo-rs-video-plugin/src/lib.rs:349-421 | the corrected assemble has the same outcomes for a poisoned store and missing memory, `User(1)` for an unreachable file name, missing video info or an encoder that does not open, and on status 0 hands the encoder exactly the processed frames in index order |
| FrameStore.AssembleIntendedEncodesEveryFrame | yolo-rs-video-plugin/src/lib.rs:349-421 | the corrected assemble returns 0 exactly when the store is usable, every frame was written, the encoder opens and the frame rate is not 0, and then hands every frame to the encoder in order; the same store with frame rate 0 panics, and nothing else does; `User(1)` when the encoder does not open; encoder errors are only logged |
| FrameStore.PoisonIsPermanent | yolo-rs-video-plugin/src/lib.rs:165-171 | once the mutex is poisoned every host function fails with `Runtime(1)` and leaves the store alone |
| FrameStore.WriteKeepsInputs | yolo-rs-video-plugin/src/lib.rs:335-336 | writing a frame never changes what `get_frame` hands out |
| FrameStore.LoadThenGetFrame | yolo-rs-video-plugin/src/lib.rs:200-220 | after a corrected load, `get_frame(i)` returns frame i's pixels, and every frame is still missing |
| Encoder.BitRate | yolo-rs-video-plugin/src/encode_video.rs:66-67 | `(3 * 8 * h * w) / 2`, with the product wrapping in `u32`: twice the rate is below 2^32 and congruent to `24 * w * h` modulo 2^32; without wrap it is 12 bits per pixel, with no frame-rate factor |
| Encoder.StoredFrameRate | yolo-rs-video-plugin/src/encode_video.rs:117-131 | the stored `frame_rate` is the numerator of the decoder's rate, or 30 when there is none |
| Encoder.BitRateWrapsForHugeFrames | yolo-rs-video-plugin/src/encode_video.rs:66 | 16384 x 16384 wraps to 1073741824 rather than 3221225472 |
| Encoder.NanosPerFrame | yolo-rs-video-plugin/src/encode_video.rs:138 | `1_000_000_000 / rate as u64`: the floor of a second over the rate; no value (a division panic) for rate 0; a negative rate becomes a huge `u64` and gives 0 |
| Encoder.DefaultFrameDuration | yolo-rs-video-plugin/src/encode_video.rs:117-123 | with no rate from the decoder a frame lasts 33333333 ns |
| Encoder.NtscRateUsesNumeratorOnly | yolo-rs-video-plugin/src/encode_video.rs:125-138 | for 30000/1001 fps a frame is given 33333 ns instead of 33366666 ns |
| Encoder.IntendedNanosPerFrame | yolo-rs-video-plugin/src/encode_video.rs:117-138 | the corrected duration is the floor of `10^9 * den / num`, and is absent for a rate that is not positive |
| Encoder.IntendedAgreesOnWholeRates | yolo-rs-video-plugin/src/encode_video.rs:125-138 | for whole rates the as-written and the corrected durations agree |
| Encoder.PacketWrite | yolo-rs-video-plugin/src/encode_video.rs:234-254 | a packet write goes to stream 0 at position -1, rescaled from the encoder's base to the output stream's base, each defaulting to microseconds |
| Encoder.ReceiveOutcome | yolo-rs-video-plugin/src/encode_video.rs:224-232 | a packet when receive succeeds, none on an `Io` error, and any other error passed on |
| Encoder.Position | yolo-rs-video-plugin/src/encode_video.rs:140-174 | the loop's position stays in the 90 kHz base and starts at `Time::zero()` |
| Encoder.FramePts | yolo-rs-video-plugin/src/encode_video.rs:143-151 | frame k's PTS is present exactly when its position is, and is that position rescaled from 90 kHz to the encoder base |
| Encoder.PositionClosedForm | yolo-rs-video-plugin/src/encode_video.rs:140-174 | the position after k frames is k rescaled durations in base 1/90000, and absent once the duration is absent |
| Encoder.FramePtsSchedule | yolo-rs-video-plugin/src/encode_video.rs:138-174 | frame k's PTS is k frame durations taken to the 90 kHz base and then to the encoder base |
| Encoder.DrainOnce | yolo-rs-video-plugin/src/encode_video.rs:207-212 | one drain attempt: a receive, followed by a packet write exactly when the receive yields a packet |
| Encoder.Flush | yolo-rs-video-plugin/src/encode_video.rs:198-216 | sends EOF first; a failing EOF returns its error; otherwise at most 100 receive attempts, stopping at the first failure; one packet is written per receive that yields one, and no other; no frame is sent, no trailer is written, and every packet goes to stream 0 |
| Encoder.Finish | yolo-rs-video-plugin/src/encode_video.rs:218-222 | succeeds exactly when EOF and the trailer succeed; the trailer is written last, and only after a successful flush |
| Encoder.EncodeFrame | yolo-rs-video-plugin/src/encode_video.rs:143-171 | one loop step: scale, then send the frame marked intra with its PTS, then at most one receive; it fails with the first non-`Io` error; a packet is written exactly when the receive yields one |
| Encoder.ReceiveAndProcess | yolo-rs-video-plugin/src/encode_video.rs:134-186 | frames are sent in slice order, one send each, intra, with the scheduled PTS; at most one receive per send plus the drain; the number of packets written is the number of receives that yielded one; success exactly when every step and `finish` succeed, and then the trailer ends the trace; the first failing frame `k` gives its own error, with no frame after it sent and no trailer written; with every frame passing, a `send_eof` error comes first and a `write_trailer` error second |
| Yolo.Build | yolo-rs-wasm/src/lib.rs:419-447 | `MissingClasses` exactly when no class list was set; success exactly with classes and a graph, keeping the class list; a graph error is passed on |
| Yolo.BuildFromBytes | yolo-rs-wasm/src/lib.rs:419-432 | `MissingClasses` if and only if no class list was set |
| Yolo.BuildFromFiles | yolo-rs-wasm/src/lib.rs:435-447 | `MissingClasses` if and only if no class list was set |
| Yolo.MissingClassesBeforeGraph | yolo-rs-wasm/src/lib.rs:423-446 | without classes the graph is never consulted |
| Yolo.FillTo | yolo-rs-wasm/src/lib.rs:325-329 | the output buffer keeps its length, holds the network's values in a prefix, and keeps zeros after them |
| Yolo.InputTensor | yolo-rs-wasm/src/lib.rs:304-323 | the input tensor has 3 * 640 * 640 values |
| Yolo.InferImage | yolo-rs-wasm/src/lib.rs:297-343 | `GraphError` exactly when a graph call fails; otherwise the thresholded detections, empty as they are, or, as a multiset, their suppression; every reported detection reaches the threshold and names one of the first 76 classes |
| Yolo.SuppressionKeepsFirst76 | yolo-rs-wasm/src/lib.rs:340 | what holds of every detection before suppression holds of every survivor |
| Yolo.AllocatedBufferUsesFirst76Classes | yolo-rs-wasm/src/lib.rs:325-335 | through the 8400 * 80 buffer every detection names one of the first 76 classes |
| Yolo.LastFourClassesNeverReported | yolo-rs-wasm/src/lib.rs:325 | with 80 distinct class names, classes 76 to 79 are never reported |
| Yolo.UniqueBestScoreWins | yolo-rs-wasm/src/process.rs:46-53 | a row whose score for class c beats every other score is attributed to class c |
| Yolo.FullBufferReachesEveryClass | yolo-rs-wasm/src/process.rs:14-73 | through a buffer of 8400 * 84 floats, a row whose unique best score is class c (any of the 80) decodes to class c |
| Yolo.WrapI32 | yolo-rs-wasm/src/lib.rs:220 | the `i32` product: in range and congruent modulo 2^32 |
| Yolo.AsU32 | yolo-rs-wasm/src/lib.rs:239 | `i32 as u32`: below 2^32 and congruent modulo 2^32 |
| Yolo.FrameCalls | yolo-rs-wasm/src/lib.rs:224-262 | the reference call sequence: for each frame in order, `get_frame(i)` then `write_frame(i)` with the buffer size |
| Yolo.VisitFrames | yolo-rs-wasm/src/lib.rs:220-263 | frames in order, each fetched before it is written back; it passes exactly when the buffer fits and every frame infers, then with one result list per frame; a negative buffer size panics before any call; a buffer that does not fit gives `VideoPluginImageWriteError` after the first fetch; the first failing frame's error ends the loop after its fetch |
| Yolo.InferVideo | yolo-rs-wasm/src/lib.rs:154-283 | `FileNotFound` with no plugin call for a missing or non-UTF-8 path; logging at Info, then load, and `VideoLoad` with no frame fetched on a nonzero load status; success exactly when every step succeeds, with one result list per frame in order and assembly called once, last; `VideoAssemble` on a nonzero assemble status |
| Yolo.GuestAsksForInfo | yolo-rs-wasm/src/lib.rs:196 | the level the guest asks for is the one the plugin reads as Info |

## Left out

- Neural-network execution (wasi_nn graph building, execution contexts, `compute`, `get_output`): the network is a parameter that returns the output values or an error code.
- ffmpeg decoding (yolo-rs-video-plugin/src/decode_video.rs), scaling, encoding and container I/O: the decoder's result and ffmpeg's answers are parameters, and the encoder is modelled at the level of its call trace.
- ffmpeg's `rescale` rounding, `Time::from_secs_f64` and the `Duration` conversion: `rescale` is a parameter, and the frame duration enters the encoder as an arbitrary `Time`.
- f32 and f64 arithmetic: scores and IOU are reals, and `round() as u32` is a parameter; saturation and NaN scores are not modelled.
- Drawing and fonts (`draw_bounding_boxes_on_mut_image`, utils.rs, `load_font`, `draw_bounding_boxes` in `infer_video`): they are cosmetic and have no effect on results.
- Raw-pointer ABI plumbing (`from_raw_parts`, `mem::forget`, pointer lookup), plugin registration, and the extern declarations in video_proc.rs: guest memory is reduced to missing, out of bounds or available.
- Mutex concurrency: only poisoning by a panic while locked is kept, as a flag.
- The builder setters `execution_target` and `graph_encoding`, and `classes_file` I/O: they only store values the model does not use.
- `infer_file` and `load_image_from_file`: they are file I/O around `infer_image`.
- src/lib.rs and the example programs: an earlier builder revision and command-line front ends.
- `BroadcastArrayDims`: the broadcast of an N x 1 x 2 view to N x N x 2 always succeeds, so `vectorized_iou` is modelled as always returning a matrix.
- Yolo.InferImage: requires that every kept row decodes (a class name at its index and a box of positive size); the source panics on `classes.get(index).unwrap()` and on `Rect::of_size(0, _)` otherwise.
- Yolo.InferImage: never returns `ImageError`, because the pre-processing it composes (src/prepare.rs) returns no error; its panic on a 0 x 0 image is excluded by the same requirement as in `Prepare.PreProcess`.
- Prepare.PreProcess: requires a side above 0; on a 0 x 0 image the source computes `640 * 0 / 0` and panics with a division by zero, and that panic is not modelled as an outcome.
- Prepare.ResizedDims: requires a side above 0, for the same division by zero.
- Machine.Wrap32: models the release-build wrap of the `u32` product `640 * short`; a debug build panics on that overflow instead, which is not modelled.
- Encoder.BitRate: models the release-build wrap of the `u32` product `3 * 8 * h * w`; a debug build panics on that overflow instead, which is not modelled.
- Yolo.InferImage: a network answer longer than the 8400 * 80 buffer is read through its prefix; wasi_nn's own check on the output size is not modelled.
- Yolo.InferVideo: each frame's `infer_image` is a parameter, so the per-frame result is not tied to `InferImage`; the guest's `load` status is a parameter rather than the plugin's `Load`, because the two sides run in different address spaces.
- Yolo.InferVideo: the host functions' own traps (a `HostFuncError`) are not modelled; the guest's calls return status codes only.
- Yolo.VisitFrames: the debug-build overflow panic of `width * height * 3` is not modelled; the release-build wrap-around is.
- Iou.ScalarIou: computes the areas and their sum as unbounded integers; the release-build `u32` wrap is `Iou.ScalarIouU32`, which agrees with it while the two areas sum to less than 2^32, and the debug-build overflow panic is not modelled.
- LegacyDecode.PostProcessResults: requires, through `LegacyDecodable`, that every row has a class score and a class name at its first best index, and so do `LegacyRow` and `DecodeRows`; the source panics instead on a row of fewer than 4 fields (`row[0..3]`), on a row with no class score (`reduce(..).unwrap()`, for a buffer of fewer than 5 whole 8400-chunks) and on a class index past the table (`YOLO_CLASSES.get(index).unwrap()`), and those panics are not modelled as outcomes.
- MediaTime.Add: does not model `i64` overflow of the sum, because timestamps stay far below 2^63 for any video length.
- Detection.DecodeRow: the `u32` produced by `round() as u32` is whatever the rounding parameter gives, without saturation of negative or huge values.
- Nms.NonMaximumSuppression: the output order (from iterating a `HashSet`) is left unspecified; the contract is on the multiset of survivors.
- Encoder.ReceiveAndProcess: the packet order map is never used by the source and is left out; `write_interleaved` errors are only logged by the source and do not appear in the trace.
- FrameStore.Load: the sizes written back are `u32`; values of 2^31 and above read back negative in the guest's `i32` slots, which the guest side models separately.
- yolo-rs-wasm/src/prepare.rs is not part of this model.

## Findings

| source | as written | input that shows it | evidently intended | confidence | as-written member | corrected member |
|---|---|---|---|---|---|---|
| yolo-rs-wasm/src/process.rs:176 | `iou` returns 1.0 when the rectangles do not intersect | `Rect::at(0,0).of_size(1,1)` and `Rect::at(5,5).of_size(1,1)` give 1.0 | 0.0 for rectangles that do not intersect | not executed | Iou.ScalarIouDisjointIsOne | Iou.ScalarIouIntendedBounds |
| yolo-rs-wasm/src/process.rs:232-233 | the intersection is the product of the unclamped differences | `[0,0,1,1]` against `[2,2,3,3]`: both differences are -1, so the intersection is 1 and the IOU is 1.0, which makes NMS drop a distant box of the same class | clamp each difference at 0 before multiplying | not executed | Iou.UnclampedDisjointCounterexample | Iou.ClampedEntryBounds |
| yolo-rs-video-plugin/src/lib.rs:203-211 | the frame-count test is inverted: a non-empty decode is rejected, and an empty one indexes `frames[0]` | any video with at least one frame returns `User(1)`; an empty one panics | write the sizes for a non-empty decode and reject an empty one | not executed | FrameStore.LoadNeverSucceeds | FrameStore.LoadIntended |
| yolo-rs-video-plugin/src/lib.rs:406-409 | assembly fails when no frame is missing | every frame written back gives `User(1)` | fail when some frame is missing | not executed | FrameStore.AssembleNeedsMissingFrame | FrameStore.AssembleIntendedEncodesEveryFrame |
| yolo-rs-video-plugin/src/encode_video.rs:125-138 | the stored frame rate is the numerator of the rational | 30000/1001 fps gives frames of 33333 ns instead of 33366666 ns | divide by the full rate `num / den` | not executed | Encoder.NtscRateUsesNumeratorOnly | Encoder.IntendedNanosPerFrame |
| yolo-rs-wasm/src/lib.rs:325 | the output buffer holds 8400 * 80 floats where the network produces 8400 * 84 | with 80 distinct class names, no detection ever names classes 76 to 79 | a buffer of 8400 * (4 + 80) floats | not executed | Yolo.LastFourClassesNeverReported | Yolo.FullBufferReachesEveryClass |

=== FILE: detection.dfy ===
/**
  Confidence filtering and box decoding (`apply_confidence_and_scale` in
  yolo-rs-wasm/src/process.rs).

  A decoded row is `[cx, cy, w, h, p0, p1, ...]`: box centre and size in model
  input pixels, then one score per class. A row yields a detection when its best
  score reaches the confidence threshold; the box is moved from centre to top-left,
  scaled back to original-image pixels and rounded.
 */
module Detection {

  /** Values of Rust's `u32`. */
  type U32 = x: int | 0 <= x < 0x1_0000_0000

  /** Strictly positive sizes: `Rect::of_size` panics on a zero width or height. */
  type Pos = x: int | x > 0 witness 1

  /** An imageproc `Rect`: top-left corner and a positive size. */
  datatype Rect = Rect(left: int, top: int, width: Pos, height: Pos)

  /** `InferenceResult`: a box in original-image pixels, a class name and its score. */
  datatype InferenceResult = InferenceResult(bbox: Rect, className: string, confidence: real)

  /**
    The f32 step `v.round() as u32`, left uninterpreted: float rounding and the
    saturating cast are not part of this model.
   */
  type RoundFn = real -> U32

  /** `u as i32`: reinterprets the 32 bits, so values from 2^31 up wrap to negatives. */
  function AsI32(u: U32): (r: int)
    ensures -0x8000_0000 <= r < 0x8000_0000
    ensures (r - u) % 0x1_0000_0000 == 0
  {
    if u < 0x8000_0000 then u else u - 0x1_0000_0000
  }

  /** Largest element: the result of `reduce(|a, b| a.max(b))` on a non-empty sequence. */
  function SeqMax(s: seq<real>): (m: real)
    requires |s| > 0
    ensures m in s
    ensures forall x | x in s :: x <= m
  {
    if |s| == 1 then s[0]
    else
      var rest := SeqMax(s[1..]);
      assert forall x | x in s :: x == s[0] || x in s[1..];
      if s[0] >= rest then s[0] else rest
  }

  /** `position(|e| e == v)`: the first index holding `v`. */
  function FirstIndexOf(s: seq<real>, v: real): (k: nat)
    requires v in s
    ensures k < |s| && s[k] == v
    ensures forall j | 0 <= j < k :: s[j] != v
  {
    if s[0] == v then 0
    else
      assert v in s[1..];
      1 + FirstIndexOf(s[1..], v)
  }

  /** The class scores of a row: everything after the four box fields (`skip(4)`). */
  function Scores(row: seq<real>): seq<real>
    requires |row| > 4
  {
    row[4..]
  }

  /** The row's best class score. */
  function BestScore(row: seq<real>): real
    requires |row| > 4
  {
    SeqMax(Scores(row))
  }

  /** Index of the first class attaining the best score. */
  function ClassIndex(row: seq<real>): nat
    requires |row| > 4
  {
    FirstIndexOf(Scores(row), BestScore(row))
  }

  /** A row is kept unless its best score is below the threshold (`if max < conf_thresh { continue }`). */
  predicate Kept(row: seq<real>, thresh: real)
    requires |row| > 4
  {
    BestScore(row) >= thresh
  }

  /**
    What a row needs for `apply_confidence_and_scale` not to panic: at least one class
    score (otherwise `reduce` yields `None`), and, when kept, a class name at the
    chosen index and a box that rounds to a positive size.
   */
  predicate RowDecodable(row: seq<real>, thresh: real, classes: seq<string>, scale: real, round: RoundFn)
  {
    && |row| > 4
    && (Kept(row, thresh) ==> Decodable(row, classes, scale, round))
  }

  /** A kept row can be turned into a detection without panicking. */
  predicate Decodable(row: seq<real>, classes: seq<string>, scale: real, round: RoundFn)
  {
    && |row| > 4
    && ClassIndex(row) < |classes|
    && round(row[2] * scale) > 0
    && round(row[3] * scale) > 0
  }

  predicate AllDecodable(rows: seq<seq<real>>, thresh: real, classes: seq<string>, scale: real, round: RoundFn)
  {
    forall i | 0 <= i < |rows| :: RowDecodable(rows[i], thresh, classes, scale, round)
  }

  /**
    The detection a kept row produces: the top-left corner is `(cx - 0.5 w, cy - 0.5 h)`,
    every box field is multiplied by the resize scale and rounded, the class is the
    name at the first best index and the confidence is the best score.
   */
  function DecodeRow(row: seq<real>, classes: seq<string>, scale: real, round: RoundFn): (d: InferenceResult)
    requires Decodable(row, classes, scale, round)
    ensures d.confidence in Scores(row)
    ensures forall p | p in Scores(row) :: p <= d.confidence
    ensures exists k | 0 <= k < |Scores(row)| && k < |classes| ::
      && Scores(row)[k] == d.confidence
      && d.className == classes[k]
      && forall j | 0 <= j < k :: Scores(row)[j] < d.confidence
    ensures d.bbox.width == round(row[2] * scale) && d.bbox.height == round(row[3] * scale)
    ensures d.bbox.left == AsI32(round((row[0] - 0.5 * row[2]) * scale))
    ensures d.bbox.top == AsI32(round((row[1] - 0.5 * row[3]) * scale))
  {
    var x := round((row[0] - 0.5 * row[2]) * scale);
    var y := round((row[1] - 0.5 * row[3]) * scale);
    var w: Pos := round(row[2] * scale);
    var h: Pos := round(row[3] * scale);
    var k := ClassIndex(row);
    assert forall j | 0 <= j < k :: Scores(row)[j] < BestScore(row) by {
      forall j | 0 <= j < k ensures Scores(row)[j] < BestScore(row) {
        assert Scores(row)[j] in Scores(row);
      }
    }
    InferenceResult(Rect(AsI32(x), AsI32(y), w, h), classes[k], BestScore(row))
  }

  /** Positions of the kept rows, in increasing order. */
  function KeptIndices(rows: seq<seq<real>>, thresh: real): (ks: seq<nat>)
    requires forall i | 0 <= i < |rows| :: |rows[i]| > 4
    ensures forall a | 0 <= a < |ks| :: ks[a] < |rows| && Kept(rows[ks[a]], thresh)
    ensures forall a, b | 0 <= a < b < |ks| :: ks[a] < ks[b]
    ensures forall i | 0 <= i < |rows| && Kept(rows[i], thresh) :: i in ks
    decreases |rows|
  {
    if |rows| == 0 then []
    else
      var n := |rows| - 1;
      var front := KeptIndices(rows[..n], thresh);
      assert forall i | 0 <= i < n :: rows[..n][i] == rows[i];
      front + (if Kept(rows[n], thresh) then [n] else [])
  }

  /**
    `apply_confidence_and_scale`: one detection per kept row, in row order. Detection
    `k` is the decoding of the `k`-th kept row, so every confidence reaches the
    threshold and there are never more detections than rows.
   */
  function ApplyConfidenceAndScale(
    rows: seq<seq<real>>, thresh: real, classes: seq<string>, scale: real, round: RoundFn
  ): (results: seq<InferenceResult>)
    requires AllDecodable(rows, thresh, classes, scale, round)
    ensures |results| == |KeptIndices(rows, thresh)| <= |rows|
    ensures forall a | 0 <= a < |results| ::
      var i := KeptIndices(rows, thresh)[a];
      i < |rows| && Kept(rows[i], thresh) && Decodable(rows[i], classes, scale, round) &&
      results[a] == DecodeRow(rows[i], classes, scale, round)
    ensures forall d | d in results :: d.confidence >= thresh
    decreases |rows|
  {
    if |rows| == 0 then []
    else
      var n := |rows| - 1;
      var prefix := ApplyConfidenceAndScale(rows[..n], thresh, classes, scale, round);
      var results := if Kept(rows[n], thresh) then prefix + [DecodeRow(rows[n], classes, scale, round)] else prefix;
      ApplyStep(rows, thresh, classes, scale, round, prefix, results);
      results
  }

  /** A kept, decodable row gives a detection whose confidence reaches the threshold. */
  lemma DecodedReachesThreshold(row: seq<real>, thresh: real, classes: seq<string>, scale: real, round: RoundFn)
    requires Decodable(row, classes, scale, round) && Kept(row, thresh)
    ensures DecodeRow(row, classes, scale, round).confidence >= thresh
  {
    assert BestScore(row) in Scores(row);
  }

  /** One step of `ApplyConfidenceAndScale`: the last row's detection, if kept, extends the prefix's. */
  lemma ApplyStep(
    rows: seq<seq<real>>, thresh: real, classes: seq<string>, scale: real, round: RoundFn,
    prefix: seq<InferenceResult>, results: seq<InferenceResult>)
    requires |rows| > 0 && AllDecodable(rows, thresh, classes, scale, round)
    requires var front := rows[..|rows| - 1];
      && |prefix| == |KeptIndices(front, thresh)|
      && forall a | 0 <= a < |prefix| ::
        var i := KeptIndices(front, thresh)[a];
        i < |front| && Decodable(front[i], classes, scale, round) && prefix[a] == DecodeRow(front[i], classes, scale, round)
    requires var n := |rows| - 1;
      results == if Kept(rows[n], thresh) then prefix + [DecodeRow(rows[n], classes, scale, round)] else prefix
    ensures |results| == |KeptIndices(rows, thresh)| <= |rows|
    ensures forall a | 0 <= a < |results| ::
      var i := KeptIndices(rows, thresh)[a];
      i < |rows| && Kept(rows[i], thresh) && Decodable(rows[i], classes, scale, round) &&
      results[a] == DecodeRow(rows[i], classes, scale, round)
    ensures forall d | d in results :: d.confidence >= thresh
  {
    var n := |rows| - 1;
    var front := rows[..n];
    var ks := KeptIndices(rows, thresh);
    KeptIndicesPrefix(rows, thresh);
    KeptIndicesLength(rows, thresh);
    forall a | 0 <= a < |results|
      ensures ks[a] < |rows| && Kept(rows[ks[a]], thresh) && Decodable(rows[ks[a]], classes, scale, round)
      ensures results[a] == DecodeRow(rows[ks[a]], classes, scale, round)
      ensures results[a].confidence >= thresh
    {
      if a < |prefix| {
        assert ks[a] == KeptIndices(front, thresh)[a];
        assert front[ks[a]] == rows[ks[a]];
      } else {
        assert ks[a] == n;
      }
      DecodedReachesThreshold(rows[ks[a]], thresh, classes, scale, round);
    }
  }

  /** The kept indices of all rows but the last are a prefix of those of all rows. */
  lemma KeptIndicesPrefix(rows: seq<seq<real>>, thresh: real)
    requires |rows| > 0 && forall i | 0 <= i < |rows| :: |rows[i]| > 4
    ensures forall i | 0 <= i < |rows| - 1 :: rows[..|rows| - 1][i] == rows[i]
    ensures var ks := KeptIndices(rows[..|rows| - 1], thresh);
      |ks| <= |KeptIndices(rows, thresh)| && ks == KeptIndices(rows, thresh)[..|ks|]
  {
  }

  /** There are never more kept positions than rows. */
  lemma {:induction false} KeptIndicesLength(rows: seq<seq<real>>, thresh: real)
    requires forall i | 0 <= i < |rows| :: |rows[i]| > 4
    ensures |KeptIndices(rows, thresh)| <= |rows|
    decreases |rows|
  {
    if |rows| > 0 {
      KeptIndicesLength(rows[..|rows| - 1], thresh);
    }
  }

  /** A row yields a detection exactly when its best class score reaches the threshold. */
  lemma RowYieldsDetectionIff(rows: seq<seq<real>>, thresh: real, i: nat)
    requires forall j | 0 <= j < |rows| :: |rows[j]| > 4
    requires i < |rows|
    ensures i in KeptIndices(rows, thresh) <==> BestScore(rows[i]) >= thresh
  {}

  /** `round` takes `v` to a nearest whole number, as `f32::round` does for a value the cast does not saturate. */
  predicate RoundsToNearest(round: RoundFn, v: real)
  {
    -0.5 <= round(v) as real - v <= 0.5
  }

  /**
    When the four scaled values round to nearest and the corner stays below 2^31
    (so `as i32` keeps it), the decoded box lies within half a pixel of the
    scaled centre-to-corner box, and its centre within three quarters of a pixel
    of the scaled centre.
   */
  lemma DecodedBoxNearScaledBox(row: seq<real>, classes: seq<string>, scale: real, round: RoundFn)
    requires Decodable(row, classes, scale, round)
    requires RoundsToNearest(round, (row[0] - 0.5 * row[2]) * scale)
    requires RoundsToNearest(round, (row[1] - 0.5 * row[3]) * scale)
    requires RoundsToNearest(round, row[2] * scale)
    requires RoundsToNearest(round, row[3] * scale)
    requires (row[0] - 0.5 * row[2]) * scale < 2147483647.0
    requires (row[1] - 0.5 * row[3]) * scale < 2147483647.0
    ensures var b := DecodeRow(row, classes, scale, round).bbox;
      && -0.5 <= b.width as real - row[2] * scale <= 0.5
      && -0.5 <= b.height as real - row[3] * scale <= 0.5
      && -0.5 <= b.left as real - (row[0] - 0.5 * row[2]) * scale <= 0.5
      && -0.5 <= b.top as real - (row[1] - 0.5 * row[3]) * scale <= 0.5
      && -0.75 <= b.left as real + 0.5 * b.width as real - row[0] * scale <= 0.75
      && -0.75 <= b.top as real + 0.5 * b.height as real - row[1] * scale <= 0.75
  {
  }
}

=== FILE: encoder.dfy ===
// The H.264 encoder of the video plugin (`encode_video.rs`) at the level of
// the calls it makes into ffmpeg. What ffmpeg answers to each call is a
// parameter (`Library`); the pixels themselves are not modelled, only the
// order of the calls, the timestamps and picture types they carry, and the
// settings chosen when the encoder is created.

module Encoder {
  import opened Wrappers
  import opened MediaTime
  import opened Machine

  const NanosPerSecond: nat := 1_000_000_000

  /** ffmpeg's `TIME_BASE`: microseconds. */
  const TimeBase: Rational := Rational(1, 1000000)

  /** The frame rate used when the decoder reported none. */
  const DefaultFrameRate: Rational := Rational(30, 1)

  /** `MAX_DRAIN_ITERATIONS` of `flush`. */
  const MaxDrainIterations: nat := 100

  // ----- settings chosen by `VideoEncoder::new` -----

  /**
    `(3 * 8 * height * width) as usize / 2`: the product is taken in `u32`,
    so it wraps (as a release build does) before it is halved. There is no
    frame-rate factor: the rate is half the bits of one uncompressed frame.
   */
  function BitRate(width: nat, height: nat): (r: nat)
    requires width < TwoTo32 && height < TwoTo32
    ensures 2 * r < TwoTo32
    ensures (2 * r - 24 * width * height) % TwoTo32 == 0
    ensures 24 * width * height < TwoTo32 ==> r == 12 * width * height
  {
    var product := 24 * width * height;
    assert product == 2 * (12 * width * height);
    EvenWrap(12 * width * height);
    (product % TwoTo32) / 2
  }

  /** Wrapping an even number keeps it even, so halving it afterwards loses nothing. */
  lemma EvenWrap(half: nat)
    ensures (2 * half) % TwoTo32 == 2 * (((2 * half) % TwoTo32) / 2)
    ensures (2 * half - (2 * half) % TwoTo32) % TwoTo32 == 0
  {
    var q := (2 * half) / TwoTo32;
    var m := (2 * half) % TwoTo32;
    assert 2 * half == q * TwoTo32 + m;
    assert m == 2 * (half - q * (TwoTo32 / 2));
    assert 2 * half - m == q * TwoTo32;
  }

  /** Large frames wrap: for 16384x16384 the bit rate is a third of half the frame's bits. */
  lemma BitRateWrapsForHugeFrames()
    ensures BitRate(16384, 16384) == 1073741824
    ensures 12 * 16384 * 16384 == 3221225472
  {
    assert 3 * 8 * 16384 * 16384 == 6442450944;
  }

  /** The `frame_rate` field: the numerator of the decoder's rate, or of 30/1 when there is none. */
  function StoredFrameRate(rate: Option<Rational>): (r: I32)
    ensures rate.Some? ==> r == rate.value.num
    ensures rate.None? ==> r == 30
  {
    match rate
    case Some(r) => r.num
    case None => DefaultFrameRate.num
  }

  /**
    `1_000_000_000 / self.frame_rate as u64`, the frame duration in
    nanoseconds. The cast sign-extends a negative `i32`, which makes the
    quotient 0; a zero rate divides by zero and panics (`None`).
   */
  function NanosPerFrame(rate: I32): (r: Option<nat>)
    ensures r.None? <==> rate == 0
    ensures rate > 0 ==> r.Some? && r.value * rate <= NanosPerSecond < (r.value + 1) * rate
    ensures rate < 0 ==> r == Some(0)
  {
    var divisor := if rate >= 0 then rate else rate + TwoTo64;
    if divisor == 0 then None
    else
      DivisionBounds(NanosPerSecond, divisor);
      Some(NanosPerSecond / divisor)
  }

  /** With no rate from the decoder a frame lasts a thirtieth of a second. */
  lemma DefaultFrameDuration()
    ensures NanosPerFrame(StoredFrameRate(None)) == Some(33333333)
  {
  }

  /**
    Only the numerator of the rate is kept, so a rate of 30000/1001 (NTSC)
    gives frames of 33333 ns instead of the 33366666 ns they last.
   */
  lemma NtscRateUsesNumeratorOnly()
    ensures NanosPerFrame(StoredFrameRate(Some(Rational(30000, 1001)))) == Some(33333)
    ensures IntendedNanosPerFrame(Rational(30000, 1001)) == Some(33366666)
  {
    assert NanosPerSecond * 1001 == 1001000000000;
  }

  /** The frame duration the rate `num / den` frames per second calls for; `None` for a rate that is not positive. */
  function IntendedNanosPerFrame(rate: Rational): (r: Option<nat>)
    ensures r.Some? <==> rate.num > 0 && rate.den > 0
    ensures r.Some? ==> r.value * rate.num <= NanosPerSecond * rate.den < (r.value + 1) * rate.num
  {
    if rate.num > 0 && rate.den > 0 then Some(NanosPerSecond * rate.den / rate.num) else None
  }

  /** For whole rates (denominator 1) the source's duration is the intended one. */
  lemma IntendedAgreesOnWholeRates(num: I32)
    requires num > 0
    ensures IntendedNanosPerFrame(Rational(num, 1)) == NanosPerFrame(StoredFrameRate(Some(Rational(num, 1))))
  {
  }

  // ----- the calls into ffmpeg -----

  /** ffmpeg's picture types; only intra frames are ever sent to the encoder. */
  datatype PictureType = I | P | B | OtherType

  /** An ffmpeg error; `Io` is what `receive_packet` reports while it has no packet ready. */
  datatype FfmpegError = Io(errno: int) | Other(code: int)

  /** One call into ffmpeg. */
  datatype Call =
    | Scale(frame: nat)
    | SendFrame(frame: nat, pts: Option<int>, kind: PictureType)
    | ReceivePacket
    | WritePacket(stream: nat, position: int, from: Rational, to: Rational)
    | SendEof
    | WriteTrailer

  /**
    What ffmpeg answers: the encoder's and output stream's time bases, and
    the error (if any) of scaling or sending frame `k`, of the `n`-th
    `receive_packet` call counted from 0, of `send_eof` and of `write_trailer`.
   */
  datatype Library = Library(
    encoderBase: Option<Rational>,
    streamBase: Option<Rational>,
    scale: nat -> Option<FfmpegError>,
    send: nat -> Option<FfmpegError>,
    receive: nat -> Option<FfmpegError>,
    eof: Option<FfmpegError>,
    trailer: Option<FfmpegError>)

  /** `time_base().unwrap_or(TIME_BASE)` of the encoder. */
  function EncoderBase(lib: Library): Rational
  {
    match lib.encoderBase
    case Some(b) => b
    case None => TimeBase
  }

  /** `time_base().unwrap_or(TIME_BASE)` of output stream 0. */
  function StreamBase(lib: Library): Rational
  {
    match lib.streamBase
    case Some(b) => b
    case None => TimeBase
  }

  /** `write_encoded_packets(packet, 0)`: stream 0, position -1, timestamps from the encoder base to the stream base. */
  function PacketWrite(lib: Library): (c: Call)
    ensures c.WritePacket? && c.stream == 0 && c.position == -1
    ensures c.from == EncoderBase(lib) && c.to == StreamBase(lib)
  {
    WritePacket(0, -1, EncoderBase(lib), StreamBase(lib))
  }

  /**
    `encoder_receive_packet`: `Ok(true)` for a packet, `Ok(false)` when the
    encoder reports an `Io` error (no packet yet), and any other error passed on.
   */
  function ReceiveOutcome(e: Option<FfmpegError>): (r: Result<bool, FfmpegError>)
    ensures r == Ok(true) <==> e.None?
    ensures r == Ok(false) <==> e.Some? && e.value.Io?
    ensures r.Err? <==> e.Some? && e.value.Other?
    ensures r.Err? ==> e == Some(r.error)
  {
    match e
    case None => Ok(true)
    case Some(Io(_)) => Ok(false)
    case Some(err) => Err(err)
  }

  /** The `send_frame` calls of a trace, in order. */
  function Sends(t: seq<Call>): seq<Call>
  {
    if |t| == 0 then [] else Sends(t[..|t| - 1]) + (if t[|t| - 1].SendFrame? then [t[|t| - 1]] else [])
  }

  /** The number of `write_interleaved` packet writes in a trace. */
  function Writes(t: seq<Call>): nat
  {
    if |t| == 0 then 0 else Writes(t[..|t| - 1]) + (if t[|t| - 1].WritePacket? then 1 else 0)
  }

  /**
    How many of the `n` receive calls numbered from `from` on yield a packet:
    the number of packets that have to be written out.
   */
  function Successes(lib: Library, from: nat, n: nat): nat
  {
    if n == 0 then 0 else Successes(lib, from, n - 1) + (if lib.receive(from + n - 1).None? then 1 else 0)
  }

  lemma {:induction false} SuccessesSplit(lib: Library, from: nat, a: nat, b: nat)
    ensures Successes(lib, from, a + b) == Successes(lib, from, a) + Successes(lib, from + a, b)
    decreases b
  {
    if b > 0 {
      SuccessesSplit(lib, from, a, b - 1);
    }
  }

  /** The number of `receive_packet` calls in a trace. */
  function Receives(t: seq<Call>): nat
  {
    if |t| == 0 then 0 else Receives(t[..|t| - 1]) + (if t[|t| - 1].ReceivePacket? then 1 else 0)
  }

  /** Every packet written goes to stream 0 at position -1 with the same rescale. */
  predicate PacketsWellAddressed(lib: Library, t: seq<Call>)
  {
    forall i | 0 <= i < |t| && t[i].WritePacket? :: t[i] == PacketWrite(lib)
  }

  lemma TraceExtend(t: seq<Call>, c: Call)
    ensures Sends(t + [c]) == Sends(t) + (if c.SendFrame? then [c] else [])
    ensures Receives(t + [c]) == Receives(t) + (if c.ReceivePacket? then 1 else 0)
    ensures Writes(t + [c]) == Writes(t) + (if c.WritePacket? then 1 else 0)
  {
    assert (t + [c])[..|t|] == t;
  }

  /** What the methods below need to know after appending one call to their trace. */
  lemma AppendCall(lib: Library, t: seq<Call>, c: Call)
    ensures Sends(t + [c]) == Sends(t) + (if c.SendFrame? then [c] else [])
    ensures Receives(t + [c]) == Receives(t) + (if c.ReceivePacket? then 1 else 0)
    ensures Writes(t + [c]) == Writes(t) + (if c.WritePacket? then 1 else 0)
    ensures PacketsWellAddressed(lib, t) && (c.WritePacket? ==> c == PacketWrite(lib)) ==> PacketsWellAddressed(lib, t + [c])
    ensures c != WriteTrailer && WriteTrailer !in t ==> WriteTrailer !in t + [c]
  {
    TraceExtend(t, c);
  }

  lemma {:induction false} TraceConcat(a: seq<Call>, b: seq<Call>)
    ensures Sends(a + b) == Sends(a) + Sends(b)
    ensures Receives(a + b) == Receives(a) + Receives(b)
    ensures Writes(a + b) == Writes(a) + Writes(b)
    decreases |b|
  {
    if |b| == 0 {
      assert a + b == a;
    } else {
      var c := b[|b| - 1];
      var b' := b[..|b| - 1];
      assert b == b' + [c];
      assert a + b == (a + b') + [c];
      TraceConcat(a, b');
      TraceExtend(a + b', c);
      TraceExtend(b', c);
    }
  }

  // ----- the presentation timestamps -----

  /** The loop's `position` at frame `k`: `Time::zero()` advanced `k` times by `duration`. */
  function Position(rescale: RescaleFn, duration: Time, k: nat): (p: Time)
    ensures p.base == ZeroBase
    ensures k == 0 ==> p == Zero()
  {
    if k == 0 then Zero() else Add(AlignedWith(rescale, Position(rescale, duration, k - 1), duration))
  }

  /** The PTS set on frame `k`: its position rescaled into the encoder base. */
  function FramePts(lib: Library, rescale: RescaleFn, duration: Time, k: nat): (pts: Option<int>)
    ensures pts.Some? <==> Position(rescale, duration, k).value.Some?
    ensures pts.Some? ==> pts.value == rescale(Position(rescale, duration, k).value.value, ZeroBase, EncoderBase(lib))
  {
    IntoValue(AlignedWithRational(rescale, Position(rescale, duration, k), EncoderBase(lib)))
  }

  /**
    The position stays in the 90 kHz base and grows by one rescaled duration
    per frame; a duration without a value leaves every later position without one.
   */
  lemma {:induction false} PositionClosedForm(rescale: RescaleFn, duration: Time, k: nat)
    ensures Position(rescale, duration, k).base == ZeroBase
    ensures duration.value.Some? ==>
      Position(rescale, duration, k).value == Some(k * rescale(duration.value.value, duration.base, ZeroBase))
    ensures duration.value.None? && k > 0 ==> Position(rescale, duration, k).value == None
  {
    if k > 0 {
      PositionClosedForm(rescale, duration, k - 1);
    }
  }

  /** Frame `k` is stamped with `k` frame durations, taken to the 90 kHz base and then to the encoder base. */
  lemma FramePtsSchedule(lib: Library, rescale: RescaleFn, duration: Time, k: nat)
    ensures duration.value.Some? ==>
      FramePts(lib, rescale, duration, k)
      == Some(rescale(k * rescale(duration.value.value, duration.base, ZeroBase), ZeroBase, EncoderBase(lib)))
    ensures duration.value.None? ==> (FramePts(lib, rescale, duration, k).Some? <==> k == 0)
  {
    PositionClosedForm(rescale, duration, k);
  }

  // ----- draining and finishing -----

  /**
    `flush`: `send_eof`, then up to 100 `receive_packet` calls, each packet
    written out, stopping at the first error of any kind. `start` is the
    number of `receive_packet` calls made before; `drained` counts the calls
    made here.
   */
  method Flush(lib: Library, start: nat) returns (res: Result<(), FfmpegError>, trace: seq<Call>, drained: nat)
    ensures |trace| > 0 && trace[0] == SendEof
    ensures lib.eof.Some? ==> res == Err(lib.eof.value) && trace == [SendEof] && drained == 0
    ensures lib.eof.None? ==> res == Ok(())
    ensures Receives(trace) == drained <= MaxDrainIterations
    ensures lib.eof.None? ==> 1 <= drained
    ensures forall i | start <= i < start + drained - 1 :: lib.receive(i).None?
    ensures 0 < drained < MaxDrainIterations ==> lib.receive(start + drained - 1).Some?
    ensures Sends(trace) == []
    ensures WriteTrailer !in trace
    ensures PacketsWellAddressed(lib, trace)
    ensures Writes(trace) == Successes(lib, start, drained)
  {
    trace := [SendEof];
    assert trace[..0] == [];
    drained := 0;
    if lib.eof.Some? {
      res := Err(lib.eof.value);
      return;
    }
    res := Ok(());
    var stopped := false;
    while drained < MaxDrainIterations && !stopped
      invariant drained <= MaxDrainIterations
      invariant |trace| > 0 && trace[0] == SendEof
      invariant Receives(trace) == drained
      invariant Sends(trace) == []
      invariant WriteTrailer !in trace
      invariant PacketsWellAddressed(lib, trace)
      invariant forall i | start <= i < start + drained - 1 :: lib.receive(i).None?
      invariant stopped ==> 0 < drained && lib.receive(start + drained - 1).Some?
      invariant !stopped ==> forall i | start <= i < start + drained :: lib.receive(i).None?
      invariant Writes(trace) == Successes(lib, start, drained)
      decreases MaxDrainIterations - drained, !stopped
    {
      trace, stopped := DrainOnce(lib, trace, start + drained);
      drained := drained + 1;
    }
  }

  /** One receive attempt of the drain loop: a packet is written unless the receive failed. */
  method DrainOnce(lib: Library, trace: seq<Call>, attempt: nat) returns (next: seq<Call>, stopped: bool)
    requires PacketsWellAddressed(lib, trace) && WriteTrailer !in trace
    ensures stopped <==> lib.receive(attempt).Some?
    ensures !stopped ==> next == trace + [ReceivePacket, PacketWrite(lib)]
    ensures stopped ==> next == trace + [ReceivePacket]
    ensures Receives(next) == Receives(trace) + 1
    ensures Writes(next) == Writes(trace) + (if stopped then 0 else 1)
    ensures Sends(next) == Sends(trace)
    ensures WriteTrailer !in next
    ensures PacketsWellAddressed(lib, next)
  {
    AppendCall(lib, trace, ReceivePacket);
    next := trace + [ReceivePacket];
    stopped := lib.receive(attempt).Some?;
    if !stopped {
      AppendCall(lib, next, PacketWrite(lib));
      next := next + [PacketWrite(lib)];
    }
  }

  /** `finish`: flush, then `write_trailer`, which is reached only when flushing succeeded. */
  method Finish(lib: Library, start: nat) returns (res: Result<(), FfmpegError>, trace: seq<Call>, drained: nat)
    ensures res.Ok? <==> lib.eof.None? && lib.trailer.None?
    ensures lib.eof.Some? ==> res == Err(lib.eof.value)
    ensures lib.eof.None? && lib.trailer.Some? ==> res == Err(lib.trailer.value)
    ensures |trace| > 0 && trace[0] == SendEof
    ensures WriteTrailer in trace <==> lib.eof.None?
    ensures lib.eof.None? ==> trace[|trace| - 1] == WriteTrailer
    ensures Receives(trace) == drained <= MaxDrainIterations
    ensures forall i | start <= i < start + drained - 1 :: lib.receive(i).None?
    ensures 0 < drained < MaxDrainIterations ==> lib.receive(start + drained - 1).Some?
    ensures Sends(trace) == []
    ensures PacketsWellAddressed(lib, trace)
    ensures Writes(trace) == Successes(lib, start, drained)
  {
    var flushed;
    flushed, trace, drained := Flush(lib, start);
    if flushed.Err? {
      res := flushed;
      return;
    }
    AppendCall(lib, trace, WriteTrailer);
    trace := trace + [WriteTrailer];
    res := if lib.trailer.Some? then Err(lib.trailer.value) else Ok(());
  }

  // ----- the frame loop -----

  /** Frame `k` stops the loop: its scaling, its sending or its receive call fails with a non-`Io` error. */
  predicate FrameStepFails(lib: Library, k: nat)
  {
    lib.scale(k).Some? || lib.send(k).Some? || ReceiveOutcome(lib.receive(k)).Err?
  }

  /** The error that ends frame `k`: of scaling, else of sending, else of the receive call. */
  function FrameStepError(lib: Library, k: nat): FfmpegError
    requires FrameStepFails(lib, k)
  {
    if lib.scale(k).Some? then lib.scale(k).value
    else if lib.send(k).Some? then lib.send(k).value
    else ReceiveOutcome(lib.receive(k)).error
  }

  /** Frame `k`, one of the first `n`, is the first whose step fails. */
  predicate FirstFailure(lib: Library, n: nat, k: nat)
  {
    k < n && FrameStepFails(lib, k) && forall j | 0 <= j < k :: !FrameStepFails(lib, j)
  }

  lemma WellAddressedConcat(lib: Library, a: seq<Call>, b: seq<Call>)
    requires PacketsWellAddressed(lib, a) && PacketsWellAddressed(lib, b)
    ensures PacketsWellAddressed(lib, a + b)
  {
    forall i | 0 <= i < |a + b| && (a + b)[i].WritePacket?
      ensures (a + b)[i] == PacketWrite(lib)
    {
      if i >= |a| {
        assert (a + b)[i] == b[i - |a|];
      }
    }
  }

  /**
    One turn of the frame loop for frame `k` stamped `pts`: scale, send as an
    I-frame, one `encoder_receive_packet`, and a packet write when one came
    out. `calls` are the calls made, up to the first failing one.
   */
  method EncodeFrame(lib: Library, k: nat, pts: Option<int>) returns (err: Option<FfmpegError>, calls: seq<Call>)
    ensures err.None? <==> !FrameStepFails(lib, k)
    ensures err.Some? ==> err.value == FrameStepError(lib, k)
    ensures err.None? ==> Sends(calls) == [SendFrame(k, pts, I)] && Receives(calls) == 1
    ensures Receives(calls) <= |Sends(calls)| <= 1
    ensures |Sends(calls)| == 1 ==> Sends(calls)[0] == SendFrame(k, pts, I)
    ensures PacketsWellAddressed(lib, calls)
    ensures WriteTrailer !in calls
    ensures err.None? ==> (PacketWrite(lib) in calls <==> lib.receive(k).None?)
    ensures Writes(calls) == Successes(lib, k, Receives(calls))
  {
    calls := [Scale(k)];
    assert calls[..0] == [];
    if lib.scale(k).Some? {
      err := lib.scale(k);
      return;
    }
    AppendCall(lib, calls, SendFrame(k, pts, I));
    calls := calls + [SendFrame(k, pts, I)];
    if lib.send(k).Some? {
      err := lib.send(k);
      return;
    }
    AppendCall(lib, calls, ReceivePacket);
    calls := calls + [ReceivePacket];
    var received := ReceiveOutcome(lib.receive(k));
    if received.Err? {
      err := Some(received.error);
      return;
    }
    if received.value {
      AppendCall(lib, calls, PacketWrite(lib));
      calls := calls + [PacketWrite(lib)];
    }
    err := None;
  }

  /** The frames sent so far are `0, 1, ...` in order, each an I-frame stamped with its scheduled PTS. */
  predicate SendsStamped(lib: Library, rescale: RescaleFn, duration: Time, t: seq<Call>)
  {
    forall k | 0 <= k < |Sends(t)| :: Sends(t)[k] == SendFrame(k, FramePts(lib, rescale, duration, k), I)
  }

  /** Exactly one packet was written per receive call, numbered from 0, that yielded one. */
  predicate WritesMatchReceives(lib: Library, t: seq<Call>)
  {
    Writes(t) == Successes(lib, 0, Receives(t))
  }

  /**
    One turn of the frame loop over a trace holding frames `0` to `k - 1`:
    frame `k` is stamped from `position` and handed to `EncodeFrame`, whose
    calls extend the trace.
   */
  method FrameTurn(lib: Library, rescale: RescaleFn, duration: Time, k: nat, position: Time, trace: seq<Call>)
    returns (err: Option<FfmpegError>, next: seq<Call>)
    requires position == Position(rescale, duration, k)
    requires |Sends(trace)| == k && Receives(trace) == k
    requires SendsStamped(lib, rescale, duration, trace)
    requires WritesMatchReceives(lib, trace) && PacketsWellAddressed(lib, trace)
    requires WriteTrailer !in trace
    ensures err.None? <==> !FrameStepFails(lib, k)
    ensures err.Some? ==> err.value == FrameStepError(lib, k)
    ensures err.None? ==> |Sends(next)| == k + 1 && Receives(next) == k + 1
    ensures k <= |Sends(next)| <= k + 1 && Receives(next) <= |Sends(next)|
    ensures WriteTrailer !in next
    ensures SendsStamped(lib, rescale, duration, next)
    ensures WritesMatchReceives(lib, next) && PacketsWellAddressed(lib, next)
  {
    var pts := IntoValue(AlignedWithRational(rescale, position, EncoderBase(lib)));
    var calls;
    err, calls := EncodeFrame(lib, k, pts);
    TraceConcat(trace, calls);
    WellAddressedConcat(lib, trace, calls);
    SuccessesSplit(lib, 0, k, Receives(calls));
    next := trace + calls;
  }

  /**
    `receive_and_process_decoded_frames` for `n` frames: frame `k` is
    stamped with its position, handled by `EncodeFrame`, and the position
    then advances by `duration`. After the last frame the encoder is
    finished. The first failing call ends everything with its error.
    Every packet a receive call yields is written out, and nothing else is.
    `duration` is the frame duration as a `Time` (the `f64` conversion from
    nanoseconds is not modelled).
   */
  method ReceiveAndProcess(lib: Library, rescale: RescaleFn, duration: Time, n: nat)
    returns (res: Result<(), FfmpegError>, trace: seq<Call>)
    ensures |Sends(trace)| <= n
    ensures forall k | 0 <= k < |Sends(trace)| :: Sends(trace)[k] == SendFrame(k, FramePts(lib, rescale, duration, k), I)
    ensures res.Ok? ==> |Sends(trace)| == n
    ensures res.Ok? <==> (forall k | 0 <= k < n :: !FrameStepFails(lib, k)) && lib.eof.None? && lib.trailer.None?
    ensures Receives(trace) <= |Sends(trace)| + MaxDrainIterations
    ensures PacketsWellAddressed(lib, trace)
    ensures Writes(trace) == Successes(lib, 0, Receives(trace))
    ensures res.Ok? ==> |trace| > 0 && trace[|trace| - 1] == WriteTrailer
    ensures forall k: nat | FirstFailure(lib, n, k) ::
      res == Err(FrameStepError(lib, k)) && k <= |Sends(trace)| <= k + 1 && WriteTrailer !in trace
    ensures (forall k | 0 <= k < n :: !FrameStepFails(lib, k)) ==>
      && (lib.eof.Some? ==> res == Err(lib.eof.value))
      && (lib.eof.None? && lib.trailer.Some? ==> res == Err(lib.trailer.value))
  {
    var position := Zero();
    trace := [];
    var k := 0;
    while k < n
      invariant k <= n
      invariant position == Position(rescale, duration, k)
      invariant |Sends(trace)| == k && Receives(trace) == k
      invariant SendsStamped(lib, rescale, duration, trace)
      invariant WritesMatchReceives(lib, trace) && PacketsWellAddressed(lib, trace)
      invariant forall j | 0 <= j < k :: !FrameStepFails(lib, j)
      invariant WriteTrailer !in trace
    {
      var err;
      err, trace := FrameTurn(lib, rescale, duration, k, position, trace);
      if err.Some? {
        res := Err(err.value);
        return;
      }
      position := Add(AlignedWith(rescale, position, duration));
      k := k + 1;
    }
    res, trace := FinishTurn(lib, rescale, duration, n, trace);
  }

  /** After the last of `n` frames: `finish`, whose calls extend the trace. */
  method FinishTurn(lib: Library, rescale: RescaleFn, duration: Time, n: nat, trace: seq<Call>)
    returns (res: Result<(), FfmpegError>, next: seq<Call>)
    requires |Sends(trace)| == n && Receives(trace) == n
    requires SendsStamped(lib, rescale, duration, trace)
    requires WritesMatchReceives(lib, trace) && PacketsWellAddressed(lib, trace)
    ensures res.Ok? <==> lib.eof.None? && lib.trailer.None?
    ensures lib.eof.Some? ==> res == Err(lib.eof.value)
    ensures lib.eof.None? && lib.trailer.Some? ==> res == Err(lib.trailer.value)
    ensures res.Ok? ==> |next| > 0 && next[|next| - 1] == WriteTrailer
    ensures Sends(next) == Sends(trace)
    ensures Receives(next) <= n + MaxDrainIterations
    ensures WritesMatchReceives(lib, next) && PacketsWellAddressed(lib, next)
  {
    var tail, drained;
    res, tail, drained := Finish(lib, n);
    TraceConcat(trace, tail);
    WellAddressedConcat(lib, trace, tail);
    SuccessesSplit(lib, 0, n, drained);
    next := trace + tail;
    if res.Ok? {
      assert next[|next| - 1] == tail[|tail| - 1];
    }
  }
}

=== FILE: framestore.dfy ===
// The host functions of the video plugin (`lib.rs`) over the shared frame
// store: logging set-up, loading a decoded video, handing frames to the
// guest, taking processed frames back, and assembling them into a video.
// Guest memory is reduced to whether it can be reached; a panic while the
// store is locked poisons it, after which every call fails with
// `Runtime(1)`. Decoding and encoding are parameters.

module FrameStore {
  import opened Wrappers
  import opened MediaTime
  import opened Encoder
  import opened Machine

  // ----- logging -----

  datatype Level = Off | Error | Warn | Info | Debug | Trace

  /** The level `init_plugin_logging` installs for the `u32` it reads: 0 to 4 name a level, anything else means `Trace`. */
  function LogLevel(raw: nat): (l: Level)
    ensures l == Trace <==> raw > 4
  {
    match raw
    case 0 => Off
    case 1 => Error
    case 2 => Warn
    case 3 => Info
    case 4 => Debug
    case _ => Trace
  }

  /** The code a guest passes to ask for each level. */
  function LevelCode(l: Level): (code: nat)
    ensures code <= 5
  {
    match l
    case Off => 0
    case Error => 1
    case Warn => 2
    case Info => 3
    case Debug => 4
    case Trace => 5
  }

  /** Every level can be asked for, and codes 0 to 4 name distinct levels. */
  lemma LogLevelRoundTrip(l: Level, raw: nat)
    ensures LogLevel(LevelCode(l)) == l
    ensures raw <= 4 ==> LevelCode(LogLevel(raw)) == raw
  {
  }

  /** Whether guest memory 0 exists and the pointers handed over lie inside it. */
  datatype Memory = Missing | OutOfBounds | Available

  /** `HostFuncError`. */
  datatype HostError = User(code: int) | Runtime(code: int)

  /** What a host function does: return a status, return an error, or panic. */
  datatype Reply = Status(code: int) | Fail(error: HostError) | Panic

  /**
    `init_plugin_logging`: the level read from guest memory, or `User(1)`
    when that memory cannot be reached. A logger that cannot be installed
    is only reported, so a reachable level always gives status 0.
   */
  function InitPluginLogging(mem: Memory, raw: nat): (r: (Reply, Option<Level>))
    ensures r.0 == Status(0) <==> mem == Available
    ensures r.0 != Status(0) ==> r.0 == Fail(User(1)) && r.1 == None
    ensures r.0 == Status(0) ==> r.1 == Some(LogLevel(raw))
  {
    if mem == Available then (Status(0), Some(LogLevel(raw))) else (Fail(User(1)), None)
  }

  // ----- the store -----

  /** A decoded RGB picture. */
  datatype Picture = Picture(width: nat, height: nat, data: seq<Byte>)

  /** `FrameMap`: a decoded frame, its picture type and timestamp, and the processed frame once the guest wrote it. */
  datatype FrameMap = FrameMap(input: Picture, kind: PictureType, timestamp: Option<int>, output: Option<seq<Byte>>)

  /** The parts of `VideoInfo` the host functions use. */
  datatype VideoInfo = VideoInfo(width: nat, height: nat, frameRate: Option<Rational>)

  /** `FramesMap` behind its mutex, and whether a panic poisoned the mutex. */
  datatype Store = Store(frames: seq<FrameMap>, info: Option<VideoInfo>, poisoned: bool)

  /** The store the plugin module starts with. */
  const Initial: Store := Store([], None, false)

  /** The decoder's result: frames not yet processed, and the video's information. */
  datatype Decoded = Decoded(frames: seq<FrameMap>, info: VideoInfo)

  /** A panic while the store is locked: nothing changes except that the mutex is poisoned. */
  function Poison(s: Store): Store
  {
    Store(s.frames, s.info, true)
  }

  /** The values `load_video_to_host_memory` writes back to the guest: width, height and frame count. */
  datatype LoadedSizes = LoadedSizes(width: nat, height: nat, count: nat)

  /**
    `load_video_to_host_memory` as written. The emptiness test is inverted:
    a video with frames is refused with `User(1)`, and a video without
    frames reaches `frames[0]` and panics. A decoding error is `User(1)`.
   */
  function Load(s: Store, mem: Memory, decoded: Result<Decoded, int>): (r: (Reply, Store, Option<LoadedSizes>))
    ensures r.0 == Fail(Runtime(1)) <==> s.poisoned
    ensures r.0 == Fail(User(1)) <==>
      !s.poisoned && (mem != Available || decoded.Err? || |decoded.value.frames| > 0)
    ensures r.0 == Panic ==> r.1 == Poison(s)
    ensures r.0 != Panic ==> r.1 == s
    ensures r.2 == None
  {
    if s.poisoned then (Fail(Runtime(1)), s, None)
    else if mem != Available then (Fail(User(1)), s, None)
    else match decoded
      case Err(_) => (Fail(User(1)), s, None)
      case Ok(d) =>
        if |d.frames| == 0 then (Panic, Poison(s), None)
        else (Fail(User(1)), s, None)
  }

  /** As written no load ever succeeds: the frames and the video information are never replaced. */
  lemma LoadNeverSucceeds(s: Store, mem: Memory, decoded: Result<Decoded, int>)
    ensures !Load(s, mem, decoded).0.Status?
    ensures Load(s, mem, decoded).1.frames == s.frames && Load(s, mem, decoded).1.info == s.info
    ensures Load(s, mem, decoded).2 == None
    ensures Load(s, mem, decoded).0 == Panic <==>
      !s.poisoned && mem == Available && decoded.Ok? && |decoded.value.frames| == 0
  {
  }

  /**
    `load_video_to_host_memory` with the emptiness test the error message
    describes: an empty video is refused with `User(1)`; otherwise the store
    takes the frames and the information, and the guest learns the first
    frame's size and the frame count.
   */
  function LoadIntended(s: Store, mem: Memory, decoded: Result<Decoded, int>): (r: (Reply, Store, Option<LoadedSizes>))
    ensures r.0 == Status(0) <==> !s.poisoned && mem == Available && decoded.Ok? && |decoded.value.frames| > 0
    ensures r.0 == Status(0) ==>
      && r.1 == Store(decoded.value.frames, Some(decoded.value.info), false)
      && r.2 == Some(LoadedSizes(decoded.value.frames[0].input.width, decoded.value.frames[0].input.height, |decoded.value.frames|))
    ensures r.0 != Status(0) ==> r.1 == s && r.2 == None
    ensures r.0 != Panic
  {
    if s.poisoned then (Fail(Runtime(1)), s, None)
    else if mem != Available then (Fail(User(1)), s, None)
    else match decoded
      case Err(_) => (Fail(User(1)), s, None)
      case Ok(d) =>
        if |d.frames| == 0 then (Fail(User(1)), s, None)
        else
          var first := d.frames[0].input;
          (Status(0), Store(d.frames, Some(d.info), false), Some(LoadedSizes(first.width, first.height, |d.frames|)))
  }

  /** `idx as usize` of an `i32` index: a negative index becomes a huge one and never names a frame. */
  predicate InRange(s: Store, idx: I32)
  {
    0 <= idx < |s.frames|
  }

  /**
    `get_frame`: copies the input picture of frame `idx` into the guest's
    buffer and returns 0; an index without a frame leaves the buffer alone
    and also returns 0. A buffer of the wrong length, or one outside guest
    memory, panics.
   */
  function GetFrame(s: Store, mem: Memory, idx: I32, buffer: seq<Byte>): (r: (Reply, Store, seq<Byte>))
    ensures r.1.frames == s.frames && r.1.info == s.info
    ensures r.0 == Status(0) && InRange(s, idx) ==> r.2 == s.frames[idx].input.data
    ensures r.0 == Status(0) && !InRange(s, idx) ==> r.2 == buffer
    ensures r.0 != Status(0) ==> r.2 == buffer
    ensures r.0 == Panic <==> !s.poisoned && r.1.poisoned
    ensures r.0 == Panic ==> r.1 == Poison(s)
    ensures r.0 == Status(0) <==>
      !s.poisoned && mem == Available && (!InRange(s, idx) || |buffer| == |s.frames[idx].input.data|)
  {
    if s.poisoned then (Fail(Runtime(1)), s, buffer)
    else if mem == Missing then (Fail(User(1)), s, buffer)
    else if mem != Available then (Panic, Poison(s), buffer)
    else if !InRange(s, idx) then (Status(0), s, buffer)
    else if |buffer| != |s.frames[idx].input.data| then (Panic, Poison(s), buffer)
    else (Status(0), s, s.frames[idx].input.data)
  }

  /** The byte length of one RGB frame of the video. */
  function FrameBytes(info: VideoInfo): nat
  {
    info.width * info.height * 3
  }

  /**
    `write_frame`: stores the guest's buffer as the processed picture of
    frame `idx` and returns 0, or returns 1 with the store unchanged when no
    frame has that index. Missing video information, a buffer outside guest
    memory, or a buffer not of the video's frame size panic.
   */
  function WriteFrame(s: Store, mem: Memory, idx: I32, buffer: seq<Byte>): (r: (Reply, Store))
    ensures r.0 == Status(0) ==> (
      && InRange(s, idx)
      && |r.1.frames| == |s.frames| && r.1.info == s.info && !r.1.poisoned
      && r.1.frames[idx] == s.frames[idx].(output := Some(buffer))
      && forall j | 0 <= j < |s.frames| && j != idx :: r.1.frames[j] == s.frames[j])
    ensures r.0 == Status(1) ==> !InRange(s, idx) && r.1 == s
    ensures r.0 == Panic <==> !s.poisoned && mem != Missing && (s.info.None? || mem == OutOfBounds || |buffer| != FrameBytes(s.info.value))
    ensures r.0 == Panic ==> r.1 == Poison(s)
    ensures r.0.Fail? ==> r.1 == s
    ensures s.info.Some? && mem == Available && !s.poisoned && |buffer| == FrameBytes(s.info.value) ==>
      r.0 == (if InRange(s, idx) then Status(0) else Status(1))
  {
    if s.poisoned then (Fail(Runtime(1)), s)
    else if mem == Missing then (Fail(User(1)), s)
    else if s.info.None? || mem == OutOfBounds then (Panic, Poison(s))
    else if |buffer| != FrameBytes(s.info.value) then (Panic, Poison(s))
    else if !InRange(s, idx) then (Status(1), s)
    else (Status(0), s.(frames := s.frames[idx := s.frames[idx].(output := Some(buffer))]))
  }

  // ----- assembling -----

  /** A processed frame as handed to the encoder: picture, picture type and timestamp. */
  datatype Written = Written(picture: seq<Byte>, kind: PictureType, timestamp: Option<int>)

  /**
    The fold in `assemble_output_frames_to_video`: frames in index order go
    either to the written list (those with a processed picture) or, by
    index, to the missing list.
   */
  function Partition(frames: seq<FrameMap>): (r: (seq<Written>, seq<nat>))
    ensures |r.0| + |r.1| == |frames|
  {
    if |frames| == 0 then ([], [])
    else
      var p := Partition(frames[..|frames| - 1]);
      var f := frames[|frames| - 1];
      match f.output
      case Some(o) => (p.0 + [Written(o, f.kind, f.timestamp)], p.1)
      case None => (p.0, p.1 + [|frames| - 1])
  }

  /** The processed frames, front to back: an independent statement of what the fold collects. */
  function WrittenInOrder(frames: seq<FrameMap>): seq<Written>
  {
    if |frames| == 0 then []
    else
      (if frames[0].output.Some? then [Written(frames[0].output.value, frames[0].kind, frames[0].timestamp)] else [])
      + WrittenInOrder(frames[1..])
  }

  lemma {:induction false} WrittenInOrderAppend(a: seq<FrameMap>, b: seq<FrameMap>)
    ensures WrittenInOrder(a + b) == WrittenInOrder(a) + WrittenInOrder(b)
    decreases |a|
  {
    if |a| == 0 {
      assert a + b == b;
    } else {
      assert (a + b)[0] == a[0];
      assert (a + b)[1..] == a[1..] + b;
      WrittenInOrderAppend(a[1..], b);
    }
  }

  /**
    The two lists of the fold split the frames: their sizes add up to the
    frame count, an index is missing exactly when its frame has no processed
    picture, missing indices ascend, and the written list holds the
    processed frames in index order.
   */
  lemma {:induction false} PartitionSplitsFrames(frames: seq<FrameMap>)
    ensures |Partition(frames).0| + |Partition(frames).1| == |frames|
    ensures forall i :: i in Partition(frames).1 <==> 0 <= i < |frames| && frames[i].output.None?
    ensures forall a, b | 0 <= a < b < |Partition(frames).1| :: Partition(frames).1[a] < Partition(frames).1[b]
    ensures Partition(frames).0 == WrittenInOrder(frames)
    decreases |frames|
  {
    if |frames| > 0 {
      var init := frames[..|frames| - 1];
      var last := frames[|frames| - 1];
      PartitionSplitsFrames(init);
      forall a | 0 <= a < |Partition(init).1|
        ensures Partition(init).1[a] < |init|
      {
        assert Partition(init).1[a] in Partition(init).1;
      }
      assert frames == init + [last];
      WrittenInOrderAppend(init, [last]);
      assert WrittenInOrder([last]) == (if last.output.Some? then [Written(last.output.value, last.kind, last.timestamp)] else []) by {
        assert [last][1..] == [];
      }
      forall i
        ensures i in Partition(frames).1 <==> 0 <= i < |frames| && frames[i].output.None?
      {
        if 0 <= i < |frames| - 1 {
          assert frames[i] == init[i];
        }
      }
    }
  }

  /** With every frame processed nothing is missing, and the encoder gets every frame in order. */
  /** The fold's missing list is empty exactly when every frame was written back. */
  lemma NothingMissingIffComplete(frames: seq<FrameMap>)
    ensures |Partition(frames).1| == 0 <==> forall i | 0 <= i < |frames| :: frames[i].output.Some?
  {
    PartitionSplitsFrames(frames);
    if forall i | 0 <= i < |frames| :: frames[i].output.Some? {
      PartitionAllWritten(frames);
    } else {
      var i :| 0 <= i < |frames| && frames[i].output.None?;
      assert i in Partition(frames).1;
    }
  }

  lemma PartitionAllWritten(frames: seq<FrameMap>)
    requires forall i | 0 <= i < |frames| :: frames[i].output.Some?
    ensures Partition(frames).1 == []
    ensures |Partition(frames).0| == |frames|
    ensures forall i | 0 <= i < |frames| ::
      Partition(frames).0[i] == Written(frames[i].output.value, frames[i].kind, frames[i].timestamp)
  {
    PartitionSplitsFrames(frames);
    if |Partition(frames).1| > 0 {
      assert Partition(frames).1[0] in Partition(frames).1;
    }
    AllWrittenInOrder(frames);
  }

  lemma {:induction false} AllWrittenInOrder(frames: seq<FrameMap>)
    requires forall i | 0 <= i < |frames| :: frames[i].output.Some?
    ensures |WrittenInOrder(frames)| == |frames|
    ensures forall i | 0 <= i < |frames| ::
      WrittenInOrder(frames)[i] == Written(frames[i].output.value, frames[i].kind, frames[i].timestamp)
    decreases |frames|
  {
    if |frames| > 0 {
      AllWrittenInOrder(frames[1..]);
    }
  }

  /**
    `assemble_output_frames_to_video` as written, with `opens` telling
    whether `VideoEncoder::new` succeeds. The completeness test is inverted:
    a store whose every frame was processed is refused with `User(1)`, and
    encoding only starts when some frame is missing. Encoding errors are
    only logged; a frame rate of 0 divides by zero and panics. The written
    frames handed to the encoder are returned alongside.
   */
  function Assemble(s: Store, mem: Memory, opens: bool): (r: (Reply, Store, seq<Written>))
    ensures r.0 == Fail(Runtime(1)) <==> s.poisoned || mem == Missing
    ensures !s.poisoned && mem != Missing && (mem == OutOfBounds || s.info.None?) ==> r.0 == Fail(User(1))
    ensures !s.poisoned && mem != Missing && !opens ==> r.0 == Fail(User(1))
    ensures r.0 == Panic ==> r.1 == Poison(s)
    ensures r.0 != Panic ==> r.1 == s
    ensures r.0 == Status(0) ==> r.2 == WrittenInOrder(s.frames)
    ensures r.0 != Status(0) ==> r.2 == []
  {
    PartitionSplitsFrames(s.frames);
    if s.poisoned || mem == Missing then (Fail(Runtime(1)), s, [])
    else if mem == OutOfBounds then (Fail(User(1)), s, [])
    else match s.info
      case None => (Fail(User(1)), s, [])
      case Some(info) =>
        var p := Partition(s.frames);
        if |p.1| == 0 then (Fail(User(1)), s, [])
        else if !opens then (Fail(User(1)), s, [])
        else if NanosPerFrame(StoredFrameRate(info.frameRate)).None? then (Panic, Poison(s), [])
        else (Status(0), s, p.0)
  }

  /**
    As written, assembling succeeds exactly for a usable store in which some
    frame was never written back, whose encoder opens and whose frame rate is
    not 0; with every frame processed it is refused with `User(1)`. The same
    store with a frame rate of 0 panics instead, and an encoder that does not
    open is `User(1)`.
   */
  lemma AssembleNeedsMissingFrame(s: Store, mem: Memory, opens: bool)
    ensures Assemble(s, mem, opens).0 == Status(0) <==>
      && !s.poisoned && mem == Available && s.info.Some? && opens
      && (exists i | 0 <= i < |s.frames| :: s.frames[i].output.None?)
      && StoredFrameRate(s.info.value.frameRate) != 0
    ensures Assemble(s, mem, opens).0 == Panic <==>
      && !s.poisoned && mem == Available && s.info.Some? && opens
      && (exists i | 0 <= i < |s.frames| :: s.frames[i].output.None?)
      && StoredFrameRate(s.info.value.frameRate) == 0
    ensures !s.poisoned && mem != Missing && !opens ==> Assemble(s, mem, opens).0 == Fail(User(1))
    ensures Assemble(s, mem, opens).0 == Status(0) ==> exists i | 0 <= i < |s.frames| :: s.frames[i].output.None?
    ensures (forall i | 0 <= i < |s.frames| :: s.frames[i].output.Some?) ==> Assemble(s, mem, opens).0 != Status(0)
    ensures s.info.Some? && mem == Available && !s.poisoned && (forall i | 0 <= i < |s.frames| :: s.frames[i].output.Some?) ==>
      Assemble(s, mem, opens).0 == Fail(User(1))
  {
    PartitionSplitsFrames(s.frames);
    if forall i | 0 <= i < |s.frames| :: s.frames[i].output.Some? {
      PartitionAllWritten(s.frames);
    } else {
      var i :| 0 <= i < |s.frames| && s.frames[i].output.None?;
      assert i in Partition(s.frames).1;
    }
  }

  /** `assemble_output_frames_to_video` with the completeness test the error message describes. */
  function AssembleIntended(s: Store, mem: Memory, opens: bool): (r: (Reply, Store, seq<Written>))
    ensures r.0 == Fail(Runtime(1)) <==> s.poisoned || mem == Missing
    ensures !s.poisoned && mem != Missing && (mem == OutOfBounds || s.info.None?) ==> r.0 == Fail(User(1))
    ensures !s.poisoned && mem != Missing && !opens ==> r.0 == Fail(User(1))
    ensures r.0 == Panic ==> r.1 == Poison(s)
    ensures r.0 != Panic ==> r.1 == s
    ensures r.0 == Status(0) ==> r.2 == WrittenInOrder(s.frames)
    ensures r.0 != Status(0) ==> r.2 == []
  {
    PartitionSplitsFrames(s.frames);
    if s.poisoned || mem == Missing then (Fail(Runtime(1)), s, [])
    else if mem == OutOfBounds then (Fail(User(1)), s, [])
    else match s.info
      case None => (Fail(User(1)), s, [])
      case Some(info) =>
        var p := Partition(s.frames);
        if |p.1| > 0 then (Fail(User(1)), s, [])
        else if !opens then (Fail(User(1)), s, [])
        else if NanosPerFrame(StoredFrameRate(info.frameRate)).None? then (Panic, Poison(s), [])
        else (Status(0), s, p.0)
  }

  /**
    The intended assembly succeeds exactly for a complete store whose
    encoder opens and whose frame rate is not 0, and then encodes every
    frame, in index order. The same store with a frame rate of 0 panics,
    and an encoder that does not open is `User(1)`.
   */
  lemma AssembleIntendedEncodesEveryFrame(s: Store, mem: Memory, opens: bool)
    ensures AssembleIntended(s, mem, opens).0 == Status(0) <==>
      && !s.poisoned && mem == Available && s.info.Some? && opens
      && (forall i | 0 <= i < |s.frames| :: s.frames[i].output.Some?)
      && StoredFrameRate(s.info.value.frameRate) != 0
    ensures AssembleIntended(s, mem, opens).0 == Panic <==>
      && !s.poisoned && mem == Available && s.info.Some? && opens
      && (forall i | 0 <= i < |s.frames| :: s.frames[i].output.Some?)
      && StoredFrameRate(s.info.value.frameRate) == 0
    ensures !s.poisoned && mem != Missing && !opens ==> AssembleIntended(s, mem, opens).0 == Fail(User(1))
    ensures AssembleIntended(s, mem, opens).0 == Status(0) ==>
      |AssembleIntended(s, mem, opens).2| == |s.frames|
      && forall i | 0 <= i < |s.frames| ::
        AssembleIntended(s, mem, opens).2[i] == Written(s.frames[i].output.value, s.frames[i].kind, s.frames[i].timestamp)
  {
    NothingMissingIffComplete(s.frames);
    if forall i | 0 <= i < |s.frames| :: s.frames[i].output.Some? {
      PartitionAllWritten(s.frames);
    }
  }

  // ----- properties across calls -----

  /** Once poisoned, every host function fails with `Runtime(1)` and leaves the store alone. */
  lemma PoisonIsPermanent(s: Store, mem: Memory, decoded: Result<Decoded, int>, idx: I32, buffer: seq<Byte>, opens: bool)
    requires s.poisoned
    ensures Load(s, mem, decoded).0 == Fail(Runtime(1)) && Load(s, mem, decoded).1 == s
    ensures GetFrame(s, mem, idx, buffer).0 == Fail(Runtime(1)) && GetFrame(s, mem, idx, buffer).1 == s
    ensures WriteFrame(s, mem, idx, buffer).0 == Fail(Runtime(1)) && WriteFrame(s, mem, idx, buffer).1 == s
    ensures Assemble(s, mem, opens).0 == Fail(Runtime(1)) && Assemble(s, mem, opens).1 == s
  {
  }

  /** Writing a processed frame does not change what `get_frame` hands out for any index. */
  lemma WriteKeepsInputs(s: Store, mem: Memory, idx: I32, buffer: seq<Byte>, j: I32, out: seq<Byte>)
    requires WriteFrame(s, mem, idx, buffer).0.Status?
    ensures GetFrame(WriteFrame(s, mem, idx, buffer).1, mem, j, out).0 == GetFrame(s, mem, j, out).0
    ensures GetFrame(WriteFrame(s, mem, idx, buffer).1, mem, j, out).2 == GetFrame(s, mem, j, out).2
  {
  }

  /**
    After the intended load, `get_frame` hands out frame `i`'s decoded
    picture into a buffer of its size, and every frame still awaits its
    processed picture.
   */
  lemma LoadThenGetFrame(s: Store, mem: Memory, d: Decoded, i: I32, buffer: seq<Byte>)
    requires LoadIntended(s, mem, Ok(d)).0 == Status(0)
    requires forall k | 0 <= k < |d.frames| :: d.frames[k].output.None?
    requires 0 <= i < |d.frames| && |buffer| == |d.frames[i].input.data|
    ensures GetFrame(LoadIntended(s, mem, Ok(d)).1, mem, i, buffer) == (Status(0), LoadIntended(s, mem, Ok(d)).1, d.frames[i].input.data)
    ensures Partition(LoadIntended(s, mem, Ok(d)).1.frames).1 == Indices(|d.frames|)
  {
    MissingAfterLoad(d.frames);
  }

  /** `0, 1, ..., n - 1`. */
  function Indices(n: nat): (r: seq<nat>)
    ensures |r| == n && forall k | 0 <= k < n :: r[k] == k
  {
    if n == 0 then [] else Indices(n - 1) + [n - 1]
  }

  lemma {:induction false} MissingAfterLoad(frames: seq<FrameMap>)
    requires forall k | 0 <= k < |frames| :: frames[k].output.None?
    ensures Partition(frames).1 == Indices(|frames|)
    ensures Partition(frames).0 == []
    decreases |frames|
  {
    if |frames| > 0 {
      MissingAfterLoad(frames[..|frames| - 1]);
    }
  }
}

=== FILE: iou.dfy ===
/**
  Intersection over union (`iou`, `bboxes_to_ndarray` and `vectorized_iou` in
  yolo-rs-wasm/src/process.rs).

  The scalar form works on imageproc rectangles and returns 1.0 when they do not
  intersect. The matrix form works on `[left, top, right, bottom]` corner rows and
  multiplies the raw `min(right/bottom) - max(left/top)` differences without
  clamping them at zero. Both are modelled as written; clamped and zero-on-disjoint
  variants sit alongside.
 */
module Iou {
  import opened Wrappers
  import opened Detection
  import opened Machine

  function Min(a: int, b: int): int { if a <= b then a else b }
  function Max(a: int, b: int): int { if a >= b then a else b }

  lemma MulLe(a: nat, b: nat, c: nat, d: nat)
    requires a <= c && b <= d
    ensures a * b <= c * d
  {
    assert a * b <= c * b;
    assert c * b <= c * d;
  }

  lemma MulPos(a: int, b: int)
    requires a > 0 && b > 0
    ensures a * b > 0
  {}

  /** A quotient `n / d` with `0 < n <= d` lies in (0, 1]. */
  lemma RatioInUnit(n: int, d: int)
    requires 0 < n <= d
    ensures 0.0 < n as real / d as real <= 1.0
  {}

  /** A quotient `n / d` with `0 <= n <= d` and `d > 0` lies in [0, 1]. */
  lemma RatioInClosedUnit(n: int, d: int)
    requires 0 <= n <= d && d > 0
    ensures 0.0 <= n as real / d as real <= 1.0
  {}

  // ----- scalar IOU over imageproc rectangles -----

  /** Area of a rectangle: width times height. */
  function Area(r: Rect): nat
  {
    r.width * r.height
  }

  /** imageproc `Rect::right`: the greatest x inside the rectangle (inclusive). */
  function Right(r: Rect): int
  {
    r.left + r.width - 1
  }

  /** imageproc `Rect::bottom`: the greatest y inside the rectangle (inclusive). */
  function Bottom(r: Rect): int
  {
    r.top + r.height - 1
  }

  /** Length shared by the half-open extents `[a, a + la)` and `[b, b + lb)`; not positive when they are apart. */
  function Overlap(a: int, la: int, b: int, lb: int): int
  {
    Min(a + la, b + lb) - Max(a, b)
  }

  function OverlapW(a: Rect, b: Rect): int { Overlap(a.left, a.width, b.left, b.width) }
  function OverlapH(a: Rect, b: Rect): int { Overlap(a.top, a.height, b.top, b.height) }

  /**
    imageproc `Rect::intersect`: the rectangles intersect exactly when they share a
    positive length on both axes, and the intersection has those lengths as its size.
   */
  function Intersect(a: Rect, b: Rect): (r: Option<Rect>)
    ensures r.Some? <==> OverlapW(a, b) > 0 && OverlapH(a, b) > 0
    ensures r.Some? ==> r.value.width == OverlapW(a, b) && r.value.height == OverlapH(a, b)
    ensures r.Some? ==> r.value.width <= Min(a.width, b.width) && r.value.height <= Min(a.height, b.height)
  {
    var left := Max(a.left, b.left);
    var top := Max(a.top, b.top);
    var right := Min(Right(a), Right(b));
    var bottom := Min(Bottom(a), Bottom(b));
    if right < left || bottom < top then None
    else Some(Rect(left, top, right - left + 1, bottom - top + 1))
  }

  /** Size of the intersection, 0 when there is none. */
  function IntersectionArea(a: Rect, b: Rect): nat
  {
    if OverlapW(a, b) > 0 && OverlapH(a, b) > 0 then OverlapW(a, b) * OverlapH(a, b) else 0
  }

  /** The intersection is never larger than either rectangle. */
  lemma IntersectionAreaBounded(a: Rect, b: Rect)
    ensures IntersectionArea(a, b) <= Area(a) && IntersectionArea(a, b) <= Area(b)
  {
    if OverlapW(a, b) > 0 && OverlapH(a, b) > 0 {
      MulLe(OverlapW(a, b), OverlapH(a, b), a.width, a.height);
      MulLe(OverlapW(a, b), OverlapH(a, b), b.width, b.height);
    }
  }

  /**
    `iou`: for intersecting rectangles the intersection area over the union area,
    a value in (0, 1]; for rectangles that do not intersect, 1.0.
   */
  function ScalarIou(a: Rect, b: Rect): (v: real)
    ensures Intersect(a, b).None? ==> v == 1.0
    ensures Intersect(a, b).Some? ==>
      && Area(a) + Area(b) - IntersectionArea(a, b) > 0
      && v == IntersectionArea(a, b) as real / (Area(a) + Area(b) - IntersectionArea(a, b)) as real
      && 0.0 < v <= 1.0
  {
    var area1 := Area(a);
    var area2 := Area(b);
    var areaBoxes := area1 + area2;
    match Intersect(a, b)
    case Some(intersection) =>
      ScalarIouIntersecting(a, b, intersection);
      Area(intersection) as real / (areaBoxes - Area(intersection)) as real
    case None => 1.0
  }

  lemma ScalarIouIntersecting(a: Rect, b: Rect, intersection: Rect)
    requires Intersect(a, b) == Some(intersection)
    ensures Area(intersection) == IntersectionArea(a, b)
    ensures Area(a) + Area(b) - IntersectionArea(a, b) > 0
    ensures 0.0 < Area(intersection) as real / (Area(a) + Area(b) - Area(intersection)) as real <= 1.0
  {
    IntersectionAreaBounded(a, b);
    MulPos(intersection.width, intersection.height);
    MulPos(b.width, b.height);
    RatioInUnit(Area(intersection), Area(a) + Area(b) - Area(intersection));
  }

  /** The two rectangle pairs of the source's unit test give 0.25 and 4/14 (printed as 0.2857143 in f32). */
  lemma ScalarIouTestValues()
    ensures ScalarIou(Rect(1, 1, 2, 2), Rect(2, 2, 1, 1)) == 0.25
    ensures ScalarIou(Rect(1, 1, 3, 3), Rect(2, 2, 3, 3)) == 4.0 / 14.0
  {}

  /** As written, rectangles that are apart score the maximum IOU of 1.0. */
  lemma ScalarIouDisjointIsOne()
    ensures ScalarIou(Rect(0, 0, 1, 1), Rect(5, 5, 1, 1)) == 1.0
    ensures forall a: Rect, b: Rect | OverlapW(a, b) <= 0 :: ScalarIou(a, b) == 1.0
  {}

  /** Intended scalar IOU: 0.0, not 1.0, when the rectangles do not intersect. */
  function ScalarIouIntended(a: Rect, b: Rect): (v: real)
    ensures Intersect(a, b).None? ==> v == 0.0
    ensures Intersect(a, b).Some? ==> v == ScalarIou(a, b)
  {
    if Intersect(a, b).Some? then ScalarIou(a, b) else 0.0
  }

  /** The intended scalar IOU lies in [0, 1] and is 0 exactly for rectangles that do not intersect. */
  lemma ScalarIouIntendedBounds(a: Rect, b: Rect)
    ensures 0.0 <= ScalarIouIntended(a, b) <= 1.0
    ensures ScalarIouIntended(a, b) == 0.0 <==> OverlapW(a, b) <= 0 || OverlapH(a, b) <= 0
    ensures ScalarIouIntended(a, a) == 1.0
  {
    SelfScalarIouIsOne(a);
    if Intersect(a, b).Some? {
      MulPos(OverlapW(a, b), OverlapH(a, b));
      assert IntersectionArea(a, b) > 0;
      assert ScalarIouIntended(a, b) == ScalarIou(a, b);
    } else {
      assert ScalarIouIntended(a, b) == 0.0;
    }
  }

  lemma SelfScalarIouIsOne(a: Rect)
    ensures ScalarIou(a, a) == 1.0
  {
    assert OverlapW(a, a) == a.width && OverlapH(a, a) == a.height;
    assert Intersect(a, a).Some?;
    var area := Area(a);
    assert IntersectionArea(a, a) == area;
    MulPos(a.width, a.height);
    assert area + area - area == area;
    assert area as real / area as real == 1.0;
  }

  /**
    `iou` with its `u32` arithmetic as a release build runs it: each area,
    their sum and the union wrap modulo 2^32, and the f32 division by a
    union that wrapped to 0 gives an infinity or NaN.
   */
  function ScalarIouU32(a: Rect, b: Rect): (v: F64)
    ensures Intersect(a, b).None? ==> v == Finite(1.0)
    ensures Area(a) + Area(b) < TwoTo32 ==> v == Finite(ScalarIou(a, b))
  {
    match Intersect(a, b)
    case Some(intersection) =>
      ScalarIouIntersecting(a, b, intersection);
      IntersectionAreaBounded(a, b);
      U32UnionExact(Area(a), Area(b), Area(intersection));
      Quotient(Wrap32(Area(intersection)), U32Union(Area(a), Area(b), Area(intersection)))
    case None => Finite(1.0)
  }

  /** `area1 + area2 - area(intersection)` in `u32`: every step wraps modulo 2^32. */
  function U32Union(areaA: nat, areaB: nat, inter: nat): int
  {
    (Wrap32(Wrap32(areaA) + Wrap32(areaB)) - Wrap32(inter)) % TwoTo32
  }

  /** Without overflow the wrapped union is the exact one. */
  lemma U32UnionExact(areaA: nat, areaB: nat, inter: nat)
    ensures areaA + areaB < TwoTo32 && inter <= areaA ==> U32Union(areaA, areaB, inter) == areaA + areaB - inter
  {
  }

  /**
    Two equal 65536 x 65536 rectangles: every area is 2^32 and wraps to 0,
    so the wrapped IOU is 0 / 0, NaN, where the exact one is 1.
   */
  lemma ScalarIouU32HugeSquares()
    ensures ScalarIouU32(Rect(0, 0, 65536, 65536), Rect(0, 0, 65536, 65536)) == NaN
    ensures ScalarIou(Rect(0, 0, 65536, 65536), Rect(0, 0, 65536, 65536)) == 1.0
  {
    SelfScalarIouIsOne(Rect(0, 0, 65536, 65536));
    HugeSquareUnionWraps(Rect(0, 0, 65536, 65536));
  }

  lemma HugeSquareUnionWraps(r: Rect)
    requires r.width == 65536 && r.height == 65536
    ensures ScalarIouU32(r, r) == NaN
  {
    assert Area(r) == TwoTo32;
    assert Intersect(r, r) == Some(r);
    assert Wrap32(TwoTo32) == 0;
    assert U32Union(TwoTo32, TwoTo32, TwoTo32) == 0;
  }

  // ----- matrix IOU over corner rows -----

  /** One row of the `N x 4` box matrix: `[x1, y1, x2, y2]` (left, top, right, bottom). */
  datatype Corners = Corners(x1: int, y1: int, x2: int, y2: int)

  /** The corner row built for a rectangle from imageproc's `left`, `top`, `right`, `bottom`. */
  function RectCorners(r: Rect): Corners
  {
    Corners(r.left, r.top, Right(r), Bottom(r))
  }

  /** An f64 quotient: finite, an infinity or NaN (division by zero). */
  datatype F64 = Finite(v: real) | PosInf | NegInf | NaN

  /** f64 division of exact values; the zero denominators that arise here are +0.0. */
  function Quotient(n: int, d: int): F64
  {
    if d != 0 then Finite(n as real / d as real)
    else if n > 0 then PosInf
    else if n < 0 then NegInf
    else NaN
  }

  /** `iou > thresh` on an f64: false for NaN and negative infinity. */
  predicate Exceeds(x: F64, thresh: real)
  {
    match x
    case Finite(v) => v > thresh
    case PosInf => true
    case NegInf => false
    case NaN => false
  }

  /** `(x2 - x1) * (y2 - y1)`. */
  function CornerArea(c: Corners): int
  {
    (c.x2 - c.x1) * (c.y2 - c.y1)
  }

  function DiffX(a: Corners, b: Corners): int { Min(a.x2, b.x2) - Max(a.x1, b.x1) }
  function DiffY(a: Corners, b: Corners): int { Min(a.y2, b.y2) - Max(a.y1, b.y1) }

  /** As written: the product of the raw differences, with no clamping at zero. */
  function RawIntersection(a: Corners, b: Corners): int
  {
    DiffX(a, b) * DiffY(a, b)
  }

  /** One entry of the as-written IOU matrix. */
  function IouEntry(a: Corners, b: Corners): F64
  {
    var inter := RawIntersection(a, b);
    Quotient(inter, CornerArea(a) + CornerArea(b) - inter)
  }

  /**
    `vectorized_iou`: entry `(i, j)` is the as-written IOU of row `i` of `boxesA`
    and row `j` of `boxesB`. Only equally long inputs are modelled (the one call
    passes the same matrix twice).
   */
  function VectorizedIou(boxesA: seq<Corners>, boxesB: seq<Corners>): (m: seq<seq<F64>>)
    requires |boxesA| == |boxesB|
    ensures |m| == |boxesA|
    ensures forall i | 0 <= i < |m| :: |m[i]| == |boxesB|
    ensures forall i, j | 0 <= i < |m| && 0 <= j < |m[i]| :: m[i][j] == IouEntry(boxesA[i], boxesB[j])
  {
    seq(|boxesA|, i requires 0 <= i < |boxesA| =>
      seq(|boxesB|, j requires 0 <= j < |boxesB| => IouEntry(boxesA[i], boxesB[j])))
  }

  /**
    The entry is the raw intersection over the union the areas give: a finite
    value that, times a non-zero union, is the intersection; an infinity or NaN
    when the union is 0.
   */
  lemma IouEntryIsRatio(a: Corners, b: Corners)
    ensures var union := CornerArea(a) + CornerArea(b) - RawIntersection(a, b);
      && (union != 0 ==> IouEntry(a, b).Finite? && IouEntry(a, b).v * union as real == RawIntersection(a, b) as real)
      && (union == 0 ==> !IouEntry(a, b).Finite?)
  {
  }

  /** The entry is symmetric in its two boxes. */
  lemma IouEntrySymmetric(a: Corners, b: Corners)
    ensures IouEntry(a, b) == IouEntry(b, a)
  {
    assert RawIntersection(a, b) == RawIntersection(b, a);
  }

  /** The self-IOU matrix is symmetric. */
  lemma VectorizedIouSymmetric(boxes: seq<Corners>, i: nat, j: nat)
    requires i < |boxes| && j < |boxes|
    ensures VectorizedIou(boxes, boxes)[i][j] == VectorizedIou(boxes, boxes)[j][i]
  {
    IouEntrySymmetric(boxes[i], boxes[j]);
  }

  /** A box of positive area has IOU exactly 1 with itself, so the self-IOU diagonal is 1 for such boxes. */
  lemma VectorizedIouDiagonal(boxes: seq<Corners>, i: nat)
    requires i < |boxes| && CornerArea(boxes[i]) > 0
    ensures VectorizedIou(boxes, boxes)[i][i] == Finite(1.0)
  {
    SelfEntryIsOne(boxes[i]);
  }

  lemma SelfEntryIsOne(b: Corners)
    requires CornerArea(b) > 0
    ensures IouEntry(b, b) == Finite(1.0)
  {
    var area := CornerArea(b);
    assert DiffX(b, b) == b.x2 - b.x1 && DiffY(b, b) == b.y2 - b.y1;
    assert RawIntersection(b, b) == area;
    assert area + area - area == area;
    assert area as real / area as real == 1.0;
  }

  /** The source's two-box and three-box unit tests. */
  lemma VectorizedIouTestValues()
    ensures VectorizedIou([Corners(1, 1, 3, 3), Corners(2, 2, 3, 3)], [Corners(1, 1, 3, 3), Corners(2, 2, 3, 3)])
         == [[Finite(1.0), Finite(0.25)], [Finite(0.25), Finite(1.0)]]
    ensures VectorizedIou([Corners(1, 1, 3, 3), Corners(2, 2, 3, 3), Corners(3, 3, 4, 4)],
                          [Corners(1, 1, 3, 3), Corners(2, 2, 3, 3), Corners(3, 3, 4, 4)])
         == [[Finite(1.0), Finite(0.25), Finite(0.0)],
             [Finite(0.25), Finite(1.0), Finite(0.0)],
             [Finite(0.0), Finite(0.0), Finite(1.0)]]
  {
    var a, b, c := Corners(1, 1, 3, 3), Corners(2, 2, 3, 3), Corners(3, 3, 4, 4);
    TestBoxesSelfEntries(a, b, c);
    TestBoxesOverlapEntries(a, b);
    TestBoxesApartEntries(a, b, c);
    var m2 := VectorizedIou([a, b], [a, b]);
    assert m2[0] == [Finite(1.0), Finite(0.25)];
    assert m2[1] == [Finite(0.25), Finite(1.0)];
    var m3 := VectorizedIou([a, b, c], [a, b, c]);
    assert m3[0] == [Finite(1.0), Finite(0.25), Finite(0.0)];
    assert m3[1] == [Finite(0.25), Finite(1.0), Finite(0.0)];
    assert m3[2] == [Finite(0.0), Finite(0.0), Finite(1.0)];
  }

  /** Each test box against itself: intersection equal to its area. */
  lemma TestBoxesSelfEntries(a: Corners, b: Corners, c: Corners)
    requires a == Corners(1, 1, 3, 3) && b == Corners(2, 2, 3, 3) && c == Corners(3, 3, 4, 4)
    ensures IouEntry(a, a) == Finite(1.0) && IouEntry(b, b) == Finite(1.0) && IouEntry(c, c) == Finite(1.0)
  {
    EntryFromParts(a, a, 2, 2, 2, 2, 2, 2);
    assert Quotient(2 * 2, 2 * 2 + 2 * 2 - 2 * 2) == Quotient(4, 4);
    EntryFromParts(b, b, 1, 1, 1, 1, 1, 1);
    assert Quotient(1 * 1, 1 * 1 + 1 * 1 - 1 * 1) == Quotient(1, 1);
    EntryFromParts(c, c, 1, 1, 1, 1, 1, 1);
  }

  /** The two overlapping test boxes: intersection 1 over union 4. */
  lemma TestBoxesOverlapEntries(a: Corners, b: Corners)
    requires a == Corners(1, 1, 3, 3) && b == Corners(2, 2, 3, 3)
    ensures IouEntry(a, b) == Finite(0.25) && IouEntry(b, a) == Finite(0.25)
  {
    EntryFromParts(a, b, 1, 1, 2, 2, 1, 1);
    assert Quotient(1 * 1, 2 * 2 + 1 * 1 - 1 * 1) == Quotient(1, 4);
    EntryFromParts(b, a, 1, 1, 1, 1, 2, 2);
    assert Quotient(1 * 1, 1 * 1 + 2 * 2 - 1 * 1) == Quotient(1, 4);
  }

  /** The third test box only touches the others at a corner: intersection 0. */
  lemma TestBoxesApartEntries(a: Corners, b: Corners, c: Corners)
    requires a == Corners(1, 1, 3, 3) && b == Corners(2, 2, 3, 3) && c == Corners(3, 3, 4, 4)
    ensures IouEntry(a, c) == Finite(0.0) && IouEntry(c, a) == Finite(0.0)
    ensures IouEntry(b, c) == Finite(0.0) && IouEntry(c, b) == Finite(0.0)
  {
    EntryFromParts(a, c, 0, 0, 2, 2, 1, 1);
    assert Quotient(0 * 0, 2 * 2 + 1 * 1 - 0 * 0) == Quotient(0, 5);
    EntryFromParts(c, a, 0, 0, 1, 1, 2, 2);
    assert Quotient(0 * 0, 1 * 1 + 2 * 2 - 0 * 0) == Quotient(0, 5);
    EntryFromParts(b, c, 0, 0, 1, 1, 1, 1);
    assert Quotient(0 * 0, 1 * 1 + 1 * 1 - 0 * 0) == Quotient(0, 2);
    EntryFromParts(c, b, 0, 0, 1, 1, 1, 1);
  }

  // ----- the missing clamp -----

  /** Intended intersection: both differences clamped at zero before multiplying. */
  function ClampedIntersection(a: Corners, b: Corners): nat
  {
    Max(0, DiffX(a, b)) * Max(0, DiffY(a, b))
  }

  function ClampedEntry(a: Corners, b: Corners): F64
  {
    var inter := ClampedIntersection(a, b);
    Quotient(inter, CornerArea(a) + CornerArea(b) - inter)
  }

  /** Boxes apart on both axes get a positive as-written intersection: `[0,0,1,1]` against `[2,2,3,3]` scores IOU 1.0 where the clamped form gives 0. */
  lemma UnclampedDisjointCounterexample()
    ensures RawIntersection(Corners(0, 0, 1, 1), Corners(2, 2, 3, 3)) == 1
    ensures IouEntry(Corners(0, 0, 1, 1), Corners(2, 2, 3, 3)) == Finite(1.0)
    ensures ClampedEntry(Corners(0, 0, 1, 1), Corners(2, 2, 3, 3)) == Finite(0.0)
  {}

  /** Whenever both raw differences are non-negative the as-written and clamped entries agree. */
  lemma ClampedAgreesWhenOverlapping(a: Corners, b: Corners)
    requires DiffX(a, b) >= 0 && DiffY(a, b) >= 0
    ensures IouEntry(a, b) == ClampedEntry(a, b)
  {}

  /** Corners in order: the box has positive width and height. */
  predicate Ordered(c: Corners)
  {
    c.x1 < c.x2 && c.y1 < c.y2
  }

  /**
    For ordered boxes the clamped IOU is a finite value in [0, 1]; it is 0 when the
    boxes are apart on either axis and 1 for a box against itself.
   */
  lemma ClampedEntryBounds(a: Corners, b: Corners)
    requires Ordered(a) && Ordered(b)
    ensures ClampedEntry(a, b).Finite?
    ensures 0.0 <= ClampedEntry(a, b).v <= 1.0
    ensures DiffX(a, b) <= 0 || DiffY(a, b) <= 0 ==> ClampedEntry(a, b) == Finite(0.0)
    ensures ClampedEntry(a, a) == Finite(1.0)
  {
    ClampedEntryInUnit(a, b);
    if DiffX(a, b) <= 0 || DiffY(a, b) <= 0 {
      ClampedEntryApart(a, b);
    }
    SelfClampedIsOne(a);
  }

  lemma ClampedEntryInUnit(a: Corners, b: Corners)
    requires Ordered(a) && Ordered(b)
    ensures ClampedEntry(a, b).Finite?
    ensures 0.0 <= ClampedEntry(a, b).v <= 1.0
  {
    ClampedIntersectionBounded(a, b);
    ClampedIntersectionBounded(b, a);
    assert ClampedIntersection(b, a) == ClampedIntersection(a, b);
    MulPos(b.x2 - b.x1, b.y2 - b.y1);
    QuotientInUnit(ClampedIntersection(a, b), CornerArea(a), CornerArea(b));
  }

  /** An intersection no larger than either area, over the union with a positive second area, is a finite ratio in `[0, 1]`. */
  lemma QuotientInUnit(inter: int, areaA: int, areaB: int)
    requires 0 <= inter <= areaA && inter <= areaB && areaB > 0
    ensures Quotient(inter, areaA + areaB - inter).Finite?
    ensures 0.0 <= Quotient(inter, areaA + areaB - inter).v <= 1.0
  {
    RatioInClosedUnit(inter, areaA + areaB - inter);
  }

  lemma ClampedEntryApart(a: Corners, b: Corners)
    requires Ordered(a) && Ordered(b)
    requires DiffX(a, b) <= 0 || DiffY(a, b) <= 0
    ensures ClampedEntry(a, b) == Finite(0.0)
  {
    assert Max(0, DiffX(a, b)) == 0 || Max(0, DiffY(a, b)) == 0;
    assert ClampedIntersection(a, b) == 0;
    var areaB := CornerArea(b);
    assert areaB > 0 by { MulPos(b.x2 - b.x1, b.y2 - b.y1); }
    assert CornerArea(a) > 0 by { MulPos(a.x2 - a.x1, a.y2 - a.y1); }
  }

  lemma ClampedIntersectionBounded(a: Corners, b: Corners)
    requires Ordered(a)
    ensures ClampedIntersection(a, b) <= CornerArea(a)
  {
    var wa, ha := a.x2 - a.x1, a.y2 - a.y1;
    assert Max(0, DiffX(a, b)) <= wa && Max(0, DiffY(a, b)) <= ha;
    MulLe(Max(0, DiffX(a, b)), Max(0, DiffY(a, b)), wa, ha);
  }

  lemma SelfClampedIsOne(a: Corners)
    requires Ordered(a)
    ensures ClampedEntry(a, a) == Finite(1.0)
  {
    var wa, ha := a.x2 - a.x1, a.y2 - a.y1;
    MulPos(wa, ha);
    EntryFromParts(a, a, wa, ha, wa, ha, wa, ha);
    assert Max(0, wa) == wa && Max(0, ha) == ha;
    SelfQuotient(wa * ha);
  }

  lemma SelfQuotient(n: int)
    requires n > 0
    ensures Quotient(n, n + n - n) == Finite(1.0)
  {
  }

  /**
    imageproc's inclusive right/bottom fed into the matrix's half-open area formula
    shrinks every rectangle by one pixel per axis: on the scalar test pair the
    matrix entry is 0 while the scalar IOU is 0.25.
   */
  lemma MatrixDisagreesWithScalarOnRects()
    ensures ScalarIou(Rect(1, 1, 2, 2), Rect(2, 2, 1, 1)) == 0.25
    ensures IouEntry(RectCorners(Rect(1, 1, 2, 2)), RectCorners(Rect(2, 2, 1, 1))) == Finite(0.0)
  {
    ScalarIouTestValues();
    TouchingCornersEntry(RectCorners(Rect(1, 1, 2, 2)), RectCorners(Rect(2, 2, 1, 1)));
  }

  /** The corner rows of the scalar test pair meet in a single point: intersection 0. */
  lemma TouchingCornersEntry(a: Corners, b: Corners)
    requires a == Corners(1, 1, 2, 2) && b == Corners(2, 2, 2, 2)
    ensures IouEntry(a, b) == Finite(0.0)
  {
    EntryFromParts(a, b, 0, 0, 1, 1, 0, 0);
    assert Quotient(0 * 0, 1 * 1 + 0 * 0 - 0 * 0) == Quotient(0, 1);
  }

  // ----- entries for the boxes of the suppression scenarios -----

  /** The entry in terms of the two differences and the side lengths of both boxes. */
  lemma EntryFromParts(a: Corners, b: Corners, dx: int, dy: int, wa: int, ha: int, wb: int, hb: int)
    requires DiffX(a, b) == dx && DiffY(a, b) == dy
    requires a.x2 - a.x1 == wa && a.y2 - a.y1 == ha && b.x2 - b.x1 == wb && b.y2 - b.y1 == hb
    ensures IouEntry(a, b) == Quotient(dx * dy, wa * ha + wb * hb - dx * dy)
    ensures ClampedEntry(a, b) == Quotient(Max(0, dx) * Max(0, dy), wa * ha + wb * hb - Max(0, dx) * Max(0, dy))
  {}

  /** A 10 by 10 box and one shifted right by 2: IOU 80 / 120. */
  lemma ScenarioOverlapping(a: Corners, b: Corners)
    requires a == Corners(0, 0, 10, 10) && b == Corners(2, 0, 12, 10)
    ensures IouEntry(a, b) == Finite(2.0 / 3.0)
  {
    OverlappingParts(a, b);
    EntryFromParts(a, b, 8, 10, 10, 10, 10, 10);
    TwoThirds();
  }

  lemma OverlappingParts(a: Corners, b: Corners)
    requires a == Corners(0, 0, 10, 10) && b == Corners(2, 0, 12, 10)
    ensures DiffX(a, b) == 8 && DiffY(a, b) == 10
    ensures a.x2 - a.x1 == 10 && a.y2 - a.y1 == 10 && b.x2 - b.x1 == 10 && b.y2 - b.y1 == 10
  {}

  lemma TwoThirds()
    ensures Quotient(8 * 10, 10 * 10 + 10 * 10 - 8 * 10) == Finite(2.0 / 3.0)
  {
    assert Quotient(8 * 10, 10 * 10 + 10 * 10 - 8 * 10) == Quotient(80, 120);
  }

  /** A box overlapping a 10 by 10 box in a 2 by 2 corner: IOU 4 / 196. */
  lemma ScenarioCorner(a: Corners, c: Corners)
    requires a == Corners(0, 0, 10, 10) && c == Corners(8, 8, 18, 18)
    ensures IouEntry(a, c) == Finite(4.0 / 196.0)
  {
    EntryFromParts(a, c, 2, 2, 10, 10, 10, 10);
    assert Quotient(2 * 2, 10 * 10 + 10 * 10 - 2 * 2) == Quotient(4, 196);
  }

  /** The shifted box against the corner box: IOU 8 / 192. */
  lemma ScenarioShiftedCorner(b: Corners, c: Corners)
    requires b == Corners(2, 0, 12, 10) && c == Corners(8, 8, 18, 18)
    ensures IouEntry(b, c) == Finite(8.0 / 192.0)
  {
    EntryFromParts(b, c, 4, 2, 10, 10, 10, 10);
    assert Quotient(4 * 2, 10 * 10 + 10 * 10 - 4 * 2) == Quotient(8, 192);
  }

  /** Boxes 10 apart on both axes: as written IOU 1.0, clamped 0. */
  lemma ScenarioDistant(a: Corners, d: Corners)
    requires a == Corners(0, 0, 10, 10) && d == Corners(20, 20, 30, 30)
    ensures IouEntry(a, d) == Finite(1.0)
    ensures ClampedEntry(a, d) == Finite(0.0)
  {
    EntryFromParts(a, d, -10, -10, 10, 10, 10, 10);
    assert Quotient(-10 * -10, 10 * 10 + 10 * 10 - -10 * -10) == Quotient(100, 100);
    assert Quotient(Max(0, -10) * Max(0, -10), 10 * 10 + 10 * 10 - Max(0, -10) * Max(0, -10)) == Quotient(0, 200);
  }
}

=== FILE: legacy.dfy ===
/**
  The earlier, unfiltered decoder (`post_process_results` in src/process.rs).

  It cuts the buffer into 8400-long columns, transposes them and turns every row
  into one result: no confidence threshold, no centre shift and no scaling. The
  class list is a parameter here; that revision names a `YOLO_CLASSES` table it
  does not define.
 */
module LegacyDecode {
  import opened Tensor
  import opened Detection

  /** The earlier `InferenceResult`: raw rounded box fields, the best score and its class. */
  datatype LegacyResult = LegacyResult(x: U32, y: U32, width: U32, height: U32, probability: real, className: string)

  /** No row panics: each has a class score and a class name at its first best index. */
  predicate LegacyDecodable(rows: seq<seq<real>>, classes: seq<string>)
  {
    forall i | 0 <= i < |rows| :: |rows[i]| > 4 && ClassIndex(rows[i]) < |classes|
  }

  /** One row's result: its first four fields rounded as they are, its best score, and the class at its first index. */
  function LegacyRow(row: seq<real>, classes: seq<string>, round: RoundFn): (r: LegacyResult)
    requires |row| > 4 && ClassIndex(row) < |classes|
    ensures r.x == round(row[0]) && r.y == round(row[1]) && r.width == round(row[2]) && r.height == round(row[3])
    ensures r.probability in Scores(row)
    ensures forall p | p in Scores(row) :: p <= r.probability
    ensures exists k | 0 <= k < |Scores(row)| && k < |classes| ::
      && Scores(row)[k] == r.probability
      && r.className == classes[k]
      && forall j | 0 <= j < k :: Scores(row)[j] < r.probability
  {
    var k := ClassIndex(row);
    assert forall j | 0 <= j < k :: Scores(row)[j] < BestScore(row) by {
      forall j | 0 <= j < k ensures Scores(row)[j] < BestScore(row) {
        assert Scores(row)[j] in Scores(row);
      }
    }
    LegacyResult(round(row[0]), round(row[1]), round(row[2]), round(row[3]),
                 BestScore(row), classes[ClassIndex(row)])
  }

  /** One result per row, in row order. */
  function DecodeRows(rows: seq<seq<real>>, classes: seq<string>, round: RoundFn): (r: seq<LegacyResult>)
    requires LegacyDecodable(rows, classes)
    ensures |r| == |rows|
    ensures forall i | 0 <= i < |r| :: r[i] == LegacyRow(rows[i], classes, round)
  {
    seq(|rows|, i requires 0 <= i < |rows| => LegacyRow(rows[i], classes, round))
  }

  /**
    How result `i` relates to the flat buffer: x, y, width and height are the first
    four columns at position `i`, rounded but neither shifted nor scaled; the
    probability is the best of the remaining columns at position `i`, and the class
    is named by the first column attaining it.
   */
  predicate MatchesBuffer(buffer: seq<real>, i: nat, res: LegacyResult, classes: seq<string>, round: RoundFn)
  {
    && 4 * ObjectCount <= |buffer|
    && i < ObjectCount
    && res.x == round(buffer[i])
    && res.y == round(buffer[ObjectCount + i])
    && res.width == round(buffer[2 * ObjectCount + i])
    && res.height == round(buffer[3 * ObjectCount + i])
    && (forall k | 4 <= k < |buffer| / ObjectCount :: buffer[k * ObjectCount + i] <= res.probability)
    && (exists k | 4 <= k < |buffer| / ObjectCount ::
          && buffer[k * ObjectCount + i] == res.probability
          && k - 4 < |classes| && res.className == classes[k - 4]
          && forall j | 4 <= j < k :: buffer[j * ObjectCount + i] < res.probability)
  }

  /**
    `post_process_results`: no confidence filtering, so with at least one whole
    column there are exactly 8400 results, result `i` describing candidate `i`.
   */
  function PostProcessResults(buffer: seq<real>, classes: seq<string>, round: RoundFn): (r: seq<LegacyResult>)
    requires LegacyDecodable(ProcessOutputBuffer(buffer), classes)
    ensures |buffer| < ObjectCount ==> r == []
    ensures |buffer| >= ObjectCount ==> |r| == ObjectCount
    ensures forall i | 0 <= i < |r| :: MatchesBuffer(buffer, i, r[i], classes, round)
  {
    var rows := ProcessOutputBuffer(buffer);
    var r := DecodeRows(rows, classes, round);
    assert forall i | 0 <= i < |r| :: MatchesBuffer(buffer, i, r[i], classes, round) by {
      forall i | 0 <= i < |r|
        ensures MatchesBuffer(buffer, i, r[i], classes, round)
      {
        LegacyRowFromBuffer(buffer, rows, classes, round, i);
      }
    }
    r
  }

  lemma LegacyRowFromBuffer(buffer: seq<real>, rows: seq<seq<real>>, classes: seq<string>, round: RoundFn, i: nat)
    requires rows == ProcessOutputBuffer(buffer) && LegacyDecodable(rows, classes) && i < |rows|
    ensures MatchesBuffer(buffer, i, LegacyRow(rows[i], classes, round), classes, round)
  {
    var row := rows[i];
    var s := Scores(row);
    var m := BestScore(row);
    assert row[0] == buffer[i] && row[1] == buffer[ObjectCount + i];
    assert row[2] == buffer[2 * ObjectCount + i] && row[3] == buffer[3 * ObjectCount + i];
    forall k | 4 <= k < |buffer| / ObjectCount
      ensures buffer[k * ObjectCount + i] <= m
    {
      assert buffer[k * ObjectCount + i] == row[k] == s[k - 4];
      assert s[k - 4] in s;
    }
    var c := ClassIndex(row);
    var k := c + 4;
    assert buffer[k * ObjectCount + i] == row[k] == s[c] == m;
    forall j | 4 <= j < k
      ensures buffer[j * ObjectCount + i] < m
    {
      assert buffer[j * ObjectCount + i] == row[j] == s[j - 4];
      assert s[j - 4] in s;
    }
  }
}

=== FILE: machine.dfy ===
// Machine integer widths shared by the guest and the plugin, and how unsigned
// division rounds.

module Machine {
  const TwoTo32: nat := 0x1_0000_0000
  const TwoTo64: nat := 0x1_0000_0000_0000_0000

  /** Values of an `i32` (ffmpeg's C `int` as well). */
  type I32 = x: int | -0x8000_0000 <= x < 0x8000_0000

  /** Values of a `u8`. */
  type Byte = x: int | 0 <= x < 256

  /** Unsigned 32-bit wrap-around of a non-negative value, as release builds do on `u32` overflow. */
  function Wrap32(x: nat): (r: nat)
    ensures r < TwoTo32
    ensures (x - r) % TwoTo32 == 0
    ensures r <= x
    ensures x < TwoTo32 ==> r == x
  {
    x % TwoTo32
  }

  /** Unsigned division rounds down: the quotient is the largest `q` with `q * d <= n`. */
  lemma DivisionBounds(n: nat, d: nat)
    requires d > 0
    ensures (n / d) * d <= n < (n / d + 1) * d
    ensures n < d ==> n / d == 0
  {
    var q, r := n / d, n % d;
    assert n == q * d + r && 0 <= r < d;
    assert (q + 1) * d == q * d + d;
  }
}

=== FILE: mediatime.dfy ===
// Timestamps of the video plugin (`time.rs`): an optional tick count in a
// time base, alignment of one timestamp to another's base, and addition.
// ffmpeg's `rescale` is a parameter; its rounding is not modelled.

module MediaTime {
  import opened Wrappers
  import opened Machine

  /** A time base (or a frame rate) of `num / den`; ffmpeg's `Rational` holds two C `int`s. */
  datatype Rational = Rational(num: I32, den: I32)

  /** `value.rescale(from, to)`: a tick count in base `from` converted to base `to`. */
  type RescaleFn = (int, Rational, Rational) -> int

  /** `Time`: a tick count that may be absent, and the base it counts in. */
  datatype Time = Time(value: Option<int>, base: Rational)

  /** `Aligned`: two tick counts brought to one common base. */
  datatype Aligned = Aligned(lhs: Option<int>, rhs: Option<int>, base: Rational)

  /** The base of `Time::zero`: 90 kHz ticks. */
  const ZeroBase: Rational := Rational(1, 90000)

  /** `Time::zero`. */
  function Zero(): (t: Time)
    ensures t.value == Some(0) && t.base == ZeroBase
  {
    Time(Some(0), ZeroBase)
  }

  /** `Option::map` of a rescale. */
  function RescaleOption(rescale: RescaleFn, v: Option<int>, from: Rational, to: Rational): (r: Option<int>)
    ensures r.Some? <==> v.Some?
    ensures v.Some? ==> r.value == rescale(v.value, from, to)
  {
    match v
    case None => None
    case Some(x) => Some(rescale(x, from, to))
  }

  /** `Time::aligned_with`: the left value and base are kept, the right value is rescaled into the left base. */
  function AlignedWith(rescale: RescaleFn, t: Time, rhs: Time): (a: Aligned)
    ensures a.lhs == t.value && a.base == t.base
    ensures a.rhs.Some? <==> rhs.value.Some?
    ensures rhs.value.Some? ==> a.rhs.value == rescale(rhs.value.value, rhs.base, t.base)
  {
    Aligned(t.value, RescaleOption(rescale, rhs.value, rhs.base, t.base), t.base)
  }

  /** `Time::aligned_with_rational`: the value rescaled into `base`, which becomes the new base. */
  function AlignedWithRational(rescale: RescaleFn, t: Time, base: Rational): (r: Time)
    ensures r.base == base
    ensures r.value.Some? <==> t.value.Some?
    ensures t.value.Some? ==> r.value.value == rescale(t.value.value, t.base, base)
  {
    Time(RescaleOption(rescale, t.value, t.base, base), base)
  }

  /** `Time::into_value`. */
  function IntoValue(t: Time): (v: Option<int>)
    ensures v.Some? <==> t.value.Some?
    ensures v.Some? ==> v.value == t.value.value
  {
    t.value
  }

  /** `Aligned::add`: the sum when both sides are present, otherwise no value; the base is the aligned one. */
  function Add(a: Aligned): (r: Time)
    ensures r.base == a.base
    ensures r.value.Some? <==> a.lhs.Some? && a.rhs.Some?
    ensures r.value.Some? ==> r.value.value == a.lhs.value + a.rhs.value
  {
    match (a.lhs, a.rhs)
    case (Some(l), Some(r)) => Time(Some(l + r), a.base)
    case _ => Time(None, a.base)
  }

  // ----- properties -----

  /** A rescale that leaves a count alone when the two bases are the same. */
  ghost predicate FixesEqualBases(rescale: RescaleFn)
  {
    forall v: int, b: Rational :: rescale(v, b, b) == v
  }

  /** With such a rescale, aligning a timestamp to its own base changes nothing. */
  lemma AlignToOwnBase(rescale: RescaleFn, t: Time)
    requires FixesEqualBases(rescale)
    ensures AlignedWithRational(rescale, t, t.base) == t
  {
    if t.value.Some? {
      assert rescale(t.value.value, t.base, t.base) == t.value.value;
    }
  }

  /** The sum of two timestamps in the same base is the plain sum of their counts, in either order. */
  lemma AddSameBase(rescale: RescaleFn, t: Time, u: Time)
    requires FixesEqualBases(rescale)
    requires t.base == u.base
    ensures Add(AlignedWith(rescale, t, u)) == Add(AlignedWith(rescale, u, t))
    ensures t.value.Some? && u.value.Some? ==>
      IntoValue(Add(AlignedWith(rescale, t, u))) == Some(t.value.value + u.value.value)
  {
    if u.value.Some? {
      assert rescale(u.value.value, u.base, t.base) == u.value.value;
    }
    if t.value.Some? {
      assert rescale(t.value.value, t.base, u.base) == t.value.value;
    }
  }

  /** Adding a timestamp to `Time::zero` is the same as aligning it to the 90 kHz base. */
  lemma AddToZeroIsAlignment(rescale: RescaleFn, u: Time)
    ensures Add(AlignedWith(rescale, Zero(), u)) == AlignedWithRational(rescale, u, ZeroBase)
  {
  }

  /** A missing value on either side makes the sum missing, whatever the other side holds. */
  lemma MissingValueAbsorbs(rescale: RescaleFn, t: Time, u: Time)
    requires t.value.None? || u.value.None?
    ensures IntoValue(Add(AlignedWith(rescale, t, u))) == None
    ensures Add(AlignedWith(rescale, t, u)).base == t.base
  {
  }
}

=== FILE: nms.dfy ===
// Non-maximum suppression over decoded detections (`non_maximum_supression`):
// sort by confidence, build the pairwise IOU matrix, drop every detection that
// an earlier same-class detection overlaps by more than the threshold, and
// return the survivors in hash-set order.

module Nms {
  import opened Detection
  import opened Iou
  import opened ConfidenceSort

  /** One entry of a pairwise IOU matrix, as a function of the two boxes' corners. */
  type EntryFn = (Corners, Corners) -> F64

  ghost predicate Symmetric(entry: EntryFn)
  {
    forall a, b :: entry(a, b) == entry(b, a)
  }

  /** `[left, top, right, bottom]` of every detection, in order (`bboxes_to_ndarray`). */
  function Boxes(s: seq<InferenceResult>): (b: seq<Corners>)
    ensures |b| == |s|
    ensures forall i | 0 <= i < |s| :: b[i] == RectCorners(s[i].bbox)
  {
    seq(|s|, i requires 0 <= i < |s| => RectCorners(s[i].bbox))
  }

  /** Two detections may both survive: different classes, or an IOU entry not above the threshold. */
  predicate Compatible(entry: EntryFn, u: real, x: InferenceResult, y: InferenceResult)
  {
    x.className != y.className || !Exceeds(entry(RectCorners(x.bbox), RectCorners(y.bbox)), u)
  }

  /** Detection `i` removes detection `j`: same class and entry `(i, j)` strictly above the threshold. */
  predicate Suppresses(entry: EntryFn, u: real, s: seq<InferenceResult>, i: nat, j: nat)
    requires i < |s| && j < |s|
  {
    !Compatible(entry, u, s[i], s[j])
  }

  /** Some detection with index below both `bound` and `j` removes `j`. */
  predicate SuppressedBefore(entry: EntryFn, u: real, s: seq<InferenceResult>, j: nat, bound: nat)
    requires j < |s| && bound <= |s|
  {
    exists i | 0 <= i < bound && i < j :: Suppresses(entry, u, s, i, j)
  }

  /**
    Indices that survive: no earlier detection, whether itself kept or not,
    suppresses them. Removal is not greedy: a detection already removed still
    removes later ones.
   */
  function KeepSet(entry: EntryFn, u: real, s: seq<InferenceResult>): set<nat>
  {
    set j: nat | j < |s| && !SuppressedBefore(entry, u, s, j, j)
  }

  /** The indices `0 .. n - 1`, as the keep set starts out. */
  function Below(n: nat): (r: set<nat>)
    ensures forall k: nat :: k in r <==> k < n
  {
    if n == 0 then {} else Below(n - 1) + {n - 1}
  }

  /** The members of `K` below `n`, in increasing order. */
  function Ascending(K: set<nat>, n: nat): (idx: seq<nat>)
    ensures forall a | 0 <= a < |idx| :: idx[a] < n && idx[a] in K
    ensures forall a, b | 0 <= a < b < |idx| :: idx[a] < idx[b]
    ensures forall i: nat | i < n && i in K :: i in idx
  {
    if n == 0 then []
    else Ascending(K, n - 1) + (if n - 1 in K then [n - 1] else [])
  }

  /** The elements of `s[..n]` whose indices lie in `K`, in index order. */
  function Select(s: seq<InferenceResult>, K: set<nat>, n: nat): seq<InferenceResult>
    requires n <= |s|
  {
    if n == 0 then []
    else Select(s, K, n - 1) + (if n - 1 in K then [s[n - 1]] else [])
  }

  /** Position `a` of the selection holds the element at the `a`-th smallest selected index. */
  lemma {:induction false} SelectIndices(s: seq<InferenceResult>, K: set<nat>, n: nat)
    requires n <= |s|
    ensures |Select(s, K, n)| == |Ascending(K, n)|
    ensures forall a | 0 <= a < |Select(s, K, n)| :: Select(s, K, n)[a] == s[Ascending(K, n)[a]]
  {
    if n > 0 {
      SelectIndices(s, K, n - 1);
    }
  }

  /** What suppression returns, as a multiset: the iteration order of the keep set is unspecified. */
  function NmsReference(entry: EntryFn, u: real, results: seq<InferenceResult>): multiset<InferenceResult>
  {
    var sorted := SortByConfidence(results);
    multiset(Select(sorted, KeepSet(entry, u, sorted), |sorted|))
  }

  // ----- facts about the index helpers -----

  lemma {:induction false} SelectAgree(s: seq<InferenceResult>, K1: set<nat>, K2: set<nat>, n: nat)
    requires n <= |s|
    requires forall i: nat | i < n :: i in K1 <==> i in K2
    ensures Select(s, K1, n) == Select(s, K2, n)
  {
    if n > 0 {
      SelectAgree(s, K1, K2, n - 1);
    }
  }

  lemma {:induction false} SelectRemove(s: seq<InferenceResult>, K: set<nat>, e: nat, n: nat)
    requires e < n <= |s| && e in K
    ensures multiset(Select(s, K, n)) == multiset(Select(s, K - {e}, n)) + multiset{s[e]}
  {
    if e == n - 1 {
      SelectAgree(s, K, K - {e}, n - 1);
      SelectExtend(s, K, n, [s[e]]);
      SelectExtend(s, K - {e}, n, []);
    } else {
      var t := if n - 1 in K then [s[n - 1]] else [];
      assert n - 1 in K <==> n - 1 in K - {e};
      SelectRemoveStep(s, K, e, n, t);
    }
  }

  lemma {:induction false} SelectRemoveStep(s: seq<InferenceResult>, K: set<nat>, e: nat, n: nat, t: seq<InferenceResult>)
    requires e < n - 1 && n <= |s| && e in K
    requires t == if n - 1 in K then [s[n - 1]] else []
    requires t == if n - 1 in K - {e} then [s[n - 1]] else []
    ensures multiset(Select(s, K, n)) == multiset(Select(s, K - {e}, n)) + multiset{s[e]}
  {
    SelectRemove(s, K, e, n - 1);
    SelectExtend(s, K, n, t);
    SelectExtend(s, K - {e}, n, t);
    MultisetShuffle(multiset(Select(s, K, n - 1)), multiset(Select(s, K - {e}, n - 1)), multiset(t), s[e]);
  }

  lemma MultisetShuffle(a: multiset<InferenceResult>, b: multiset<InferenceResult>, t: multiset<InferenceResult>, x: InferenceResult)
    requires a == b + multiset{x}
    ensures a + t == (b + t) + multiset{x}
  {
  }

  /** The multiset of a selection grows by the element at index `n - 1` when that index is selected. */
  lemma SelectExtend(s: seq<InferenceResult>, K: set<nat>, n: nat, t: seq<InferenceResult>)
    requires 0 < n <= |s|
    requires t == if n - 1 in K then [s[n - 1]] else []
    ensures multiset(Select(s, K, n)) == multiset(Select(s, K, n - 1)) + multiset(t)
  {
    assert Select(s, K, n) == Select(s, K, n - 1) + t;
  }

  lemma {:induction false} SelectAll(s: seq<InferenceResult>, K: set<nat>, n: nat)
    requires n <= |s|
    requires forall i: nat | i < n :: i in K
    ensures Select(s, K, n) == s[..n]
  {
    if n > 0 {
      SelectAll(s, K, n - 1);
      assert s[..n] == s[..n - 1] + [s[n - 1]];
    }
  }

  lemma {:induction false} SelectWithin(s: seq<InferenceResult>, K: set<nat>, n: nat)
    requires n <= |s|
    ensures multiset(Select(s, K, n)) <= multiset(s[..n])
  {
    if n > 0 {
      SelectWithin(s, K, n - 1);
      assert s[..n] == s[..n - 1] + [s[n - 1]];
    }
  }

  /** Two elements of a multiset built from a sequence sit at two different positions. */
  lemma TwoPositions(t: seq<InferenceResult>, x: InferenceResult, y: InferenceResult)
    requires multiset{x, y} <= multiset(t)
    ensures exists p, q | 0 <= p < |t| && 0 <= q < |t| :: p != q && t[p] == x && t[q] == y
  {
    assert x in multiset(t);
    var p :| 0 <= p < |t| && t[p] == x;
    assert t == t[..p] + [t[p]] + t[p + 1..];
    var rest := t[..p] + t[p + 1..];
    assert multiset(t) == multiset(t[..p]) + multiset{x} + multiset(t[p + 1..]);
    assert multiset(rest) == multiset(t[..p]) + multiset(t[p + 1..]);
    assert multiset(rest) == multiset(t) - multiset{x};
    assert y in multiset(rest);
    var q' :| 0 <= q' < |rest| && rest[q'] == y;
    var q := if q' < p then q' else q' + 1;
    assert t[q] == y;
  }

  /** Two different positions of a sequence contribute both their elements to its multiset. */
  lemma PairInMultiset(t: seq<InferenceResult>, p: nat, q: nat)
    requires p < q < |t|
    ensures multiset{t[p], t[q]} <= multiset(t)
    ensures multiset{t[q], t[p]} <= multiset(t)
  {
    assert t == t[..p] + [t[p]] + t[p + 1..q] + [t[q]] + t[q + 1..];
  }

  lemma SuppressedBeforeBound(entry: EntryFn, u: real, s: seq<InferenceResult>, j: nat, bound: nat)
    requires j <= bound <= |s| && j < |s|
    ensures SuppressedBefore(entry, u, s, j, bound) == SuppressedBefore(entry, u, s, j, j)
  {
    if SuppressedBefore(entry, u, s, j, bound) {
      var i :| 0 <= i < bound && i < j && Suppresses(entry, u, s, i, j);
      assert 0 <= i < j && i < j;
    }
  }

  lemma SuppressedBeforeStep(entry: EntryFn, u: real, s: seq<InferenceResult>, j: nat, i: nat)
    requires j < |s| && i < |s|
    ensures SuppressedBefore(entry, u, s, j, i + 1)
      <==> SuppressedBefore(entry, u, s, j, i) || (i < j && Suppresses(entry, u, s, i, j))
  {
    if SuppressedBefore(entry, u, s, j, i + 1) {
      var w :| 0 <= w < i + 1 && w < j && Suppresses(entry, u, s, w, j);
      if w < i {
        assert SuppressedBefore(entry, u, s, j, i);
      }
    }
  }

  // ----- the source's loops -----

  /**
    `non_maximum_supression`: stable sort by descending confidence, the IOU
    matrix of the sorted boxes, one pass over the index pairs `(i, j)`,
    `i < j`, in the order `combinations(2)` yields them, removing `j` from the
    keep set when the classes match and entry `(i, j)` exceeds the threshold;
    then one element per index left in the keep set, in an unspecified order.
   */
  method NonMaximumSuppression(u: real, results: seq<InferenceResult>) returns (keepers: seq<InferenceResult>)
    ensures multiset(keepers) == NmsReference(IouEntry, u, results)
    ensures |results| == 0 ==> keepers == []
  {
    var sorted := SortByConfidence(results);
    var boxes := Boxes(sorted);
    if |boxes| == 0 {
      return [];
    }
    var m := VectorizedIou(boxes, boxes);
    var keep := SuppressionPass(u, sorted, m);
    keepers := CollectKept(sorted, keep);
  }

  /** The pass over all pairs `(i, j)`, `i < j`, that removes suppressed indices from the keep set. */
  method SuppressionPass(u: real, sorted: seq<InferenceResult>, m: seq<seq<F64>>) returns (keep: set<nat>)
    requires |m| == |sorted|
    requires forall i | 0 <= i < |m| :: |m[i]| == |sorted|
    requires forall i, j | 0 <= i < |m| && 0 <= j < |m[i]| :: m[i][j] == IouEntry(RectCorners(sorted[i].bbox), RectCorners(sorted[j].bbox))
    ensures keep == KeepSet(IouEntry, u, sorted)
  {
    var n := |sorted|;
    keep := Below(n);
    var i := 0;
    while i < n
      invariant 0 <= i <= n
      invariant forall k :: k in keep ==> k < n
      invariant forall k: nat | k < n :: k in keep <==> !SuppressedBefore(IouEntry, u, sorted, k, i)
    {
      var j := i + 1;
      while j < n
        invariant i + 1 <= j <= n
        invariant forall k :: k in keep ==> k < n
        invariant forall k: nat | k < n :: k in keep <==>
          !(SuppressedBefore(IouEntry, u, sorted, k, i) || (i < k < j && Suppresses(IouEntry, u, sorted, i, k)))
      {
        // The pairs never repeat an index, so the source's `idx_1 == idx_2` test never fires.
        if sorted[i].className == sorted[j].className && Exceeds(m[i][j], u) {
          keep := keep - {j};
        }
        j := j + 1;
      }
      forall k: nat | k < n
        ensures SuppressedBefore(IouEntry, u, sorted, k, i + 1)
          <==> SuppressedBefore(IouEntry, u, sorted, k, i) || (i < k && Suppresses(IouEntry, u, sorted, i, k))
      {
        SuppressedBeforeStep(IouEntry, u, sorted, k, i);
      }
      i := i + 1;
    }
    forall k: nat | k < n
      ensures k in keep <==> k in KeepSet(IouEntry, u, sorted)
    {
      SuppressedBeforeBound(IouEntry, u, sorted, k, n);
    }
  }

  /** `for elem in keep { keepers.push(results[elem]) }`, visiting the keep set in an arbitrary order. */
  method CollectKept(sorted: seq<InferenceResult>, keep: set<nat>) returns (keepers: seq<InferenceResult>)
    requires forall k :: k in keep ==> k < |sorted|
    ensures multiset(keepers) == multiset(Select(sorted, keep, |sorted|))
    ensures |keepers| == |keep|
  {
    var n := |sorted|;
    keepers := [];
    var rest := keep;
    while rest != {}
      invariant rest <= keep
      invariant multiset(keepers) + multiset(Select(sorted, rest, n)) == multiset(Select(sorted, keep, n))
      invariant |keepers| + |rest| == |keep|
      decreases |rest|
    {
      var e :| e in rest;
      SelectRemove(sorted, rest, e, n);
      assert |rest - {e}| == |rest| - 1;
      keepers := keepers + [sorted[e]];
      rest := rest - {e};
    }
    SelectNone(sorted, n);
  }

  /** Nothing is selected by the empty index set. */
  lemma {:induction false} SelectNone(s: seq<InferenceResult>, n: nat)
    requires n <= |s|
    ensures Select(s, {}, n) == []
  {
    if n > 0 {
      SelectNone(s, n - 1);
    }
  }

  // ----- properties of the reference -----

  /** Suppression only removes: its output is a sub-multiset of its input. */
  lemma NmsWithinInput(entry: EntryFn, u: real, results: seq<InferenceResult>)
    ensures NmsReference(entry, u, results) <= multiset(results)
  {
    var sorted := SortByConfidence(results);
    SelectWithin(sorted, KeepSet(entry, u, sorted), |sorted|);
    assert sorted[..|sorted|] == sorted;
  }

  /** The most confident detection always survives, and no input detection is more confident. */
  lemma NmsKeepsMostConfident(entry: EntryFn, u: real, results: seq<InferenceResult>)
    requires |results| > 0
    ensures SortByConfidence(results)[0] in NmsReference(entry, u, results)
    ensures forall k | 0 <= k < |results| :: SortByConfidence(results)[0].confidence >= results[k].confidence
  {
    var sorted := SortByConfidence(results);
    var K := KeepSet(entry, u, sorted);
    assert 0 in K;
    var idx := Ascending(K, |sorted|);
    SelectIndices(sorted, K, |sorted|);
    assert 0 in idx;
    var a :| 0 <= a < |idx| && idx[a] == 0;
    assert Select(sorted, K, |sorted|)[a] == sorted[0];
    forall k | 0 <= k < |results|
      ensures sorted[0].confidence >= results[k].confidence
    {
      SortHeadIsMaximal(results, k);
    }
  }

  /**
    Any two survivors (two occurrences, if they are equal) are compatible in
    both orders, provided the entry function is symmetric.
   */
  lemma NmsSurvivorsCompatible(entry: EntryFn, u: real, results: seq<InferenceResult>, x: InferenceResult, y: InferenceResult)
    requires Symmetric(entry)
    requires multiset{x, y} <= NmsReference(entry, u, results)
    ensures Compatible(entry, u, x, y)
  {
    var sorted := SortByConfidence(results);
    var K := KeepSet(entry, u, sorted);
    var r := Select(sorted, K, |sorted|);
    TwoPositions(r, x, y);
    SelectIndices(sorted, K, |sorted|);
    var p, q :| 0 <= p < |r| && 0 <= q < |r| && p != q && r[p] == x && r[q] == y;
    var idx := Ascending(K, |sorted|);
    assert x == sorted[idx[p]] && y == sorted[idx[q]];
    assert idx[p] in K && idx[q] in K;
    assert idx[p] != idx[q] by {
      if p < q { assert idx[p] < idx[q]; } else { assert idx[q] < idx[p]; }
    }
    KeptPairCompatible(entry, u, sorted, idx[p], idx[q]);
  }

  /** Two distinct kept indices are compatible, in both orders when the entry function is symmetric. */
  lemma KeptPairCompatible(entry: EntryFn, u: real, sorted: seq<InferenceResult>, ip: nat, iq: nat)
    requires Symmetric(entry)
    requires ip in KeepSet(entry, u, sorted) && iq in KeepSet(entry, u, sorted) && ip != iq
    ensures ip < |sorted| && iq < |sorted|
    ensures Compatible(entry, u, sorted[ip], sorted[iq])
  {
    var x, y := sorted[ip], sorted[iq];
    if ip < iq {
      assert !SuppressedBefore(entry, u, sorted, iq, iq);
      assert !Suppresses(entry, u, sorted, ip, iq);
    } else {
      assert !SuppressedBefore(entry, u, sorted, ip, ip);
      assert !Suppresses(entry, u, sorted, iq, ip);
      assert entry(RectCorners(y.bbox), RectCorners(x.bbox)) == entry(RectCorners(x.bbox), RectCorners(y.bbox));
    }
  }

  /** When every two input detections are compatible, suppression removes nothing. */
  lemma NmsKeepsAllCompatible(entry: EntryFn, u: real, results: seq<InferenceResult>)
    requires forall i, j | 0 <= i < |results| && 0 <= j < |results| && i != j :: Compatible(entry, u, results[i], results[j])
    ensures NmsReference(entry, u, results) == multiset(results)
  {
    var sorted := SortByConfidence(results);
    var K := KeepSet(entry, u, sorted);
    forall j: nat | j < |sorted|
      ensures j in K
    {
      forall i | 0 <= i < j
        ensures !Suppresses(entry, u, sorted, i, j)
      {
        PairInMultiset(sorted, i, j);
        TwoPositions(results, sorted[i], sorted[j]);
      }
    }
    SelectAll(sorted, K, |sorted|);
    assert sorted[..|sorted|] == sorted;
  }

  /** Detections of pairwise different classes all survive. */
  lemma NmsKeepsDistinctClasses(entry: EntryFn, u: real, results: seq<InferenceResult>)
    requires forall i, j | 0 <= i < |results| && 0 <= j < |results| && i != j :: results[i].className != results[j].className
    ensures NmsReference(entry, u, results) == multiset(results)
  {
    NmsKeepsAllCompatible(entry, u, results);
  }

  /**
    Running suppression again on its own output, in whatever order the keep set
    was iterated, removes nothing more.
   */
  lemma NmsIdempotent(entry: EntryFn, u: real, results: seq<InferenceResult>, output: seq<InferenceResult>)
    requires Symmetric(entry)
    requires multiset(output) == NmsReference(entry, u, results)
    ensures NmsReference(entry, u, output) == multiset(output)
  {
    forall i, j | 0 <= i < |output| && 0 <= j < |output| && i != j
      ensures Compatible(entry, u, output[i], output[j])
    {
      if i < j {
        PairInMultiset(output, i, j);
      } else {
        PairInMultiset(output, j, i);
      }
      NmsSurvivorsCompatible(entry, u, results, output[i], output[j]);
    }
    NmsKeepsAllCompatible(entry, u, output);
  }

  lemma IouEntryIsSymmetric()
    ensures Symmetric(IouEntry)
  {
    forall a, b
      ensures IouEntry(a, b) == IouEntry(b, a)
    {
      IouEntrySymmetric(a, b);
    }
  }

  lemma ClampedEntryIsSymmetric()
    ensures Symmetric(ClampedEntry)
  {
    forall a, b
      ensures ClampedEntry(a, b) == ClampedEntry(b, a)
    {
      assert ClampedIntersection(a, b) == ClampedIntersection(b, a);
    }
  }

  /** With the clamped entry and a non-negative threshold, boxes apart on either axis never remove each other. */
  lemma ClampedApartCompatible(u: real, x: InferenceResult, y: InferenceResult)
    requires u >= 0.0
    requires DiffX(RectCorners(x.bbox), RectCorners(y.bbox)) <= 0 || DiffY(RectCorners(x.bbox), RectCorners(y.bbox)) <= 0
    ensures Compatible(ClampedEntry, u, x, y)
  {
    var a, b := RectCorners(x.bbox), RectCorners(y.bbox);
    assert Max(0, DiffX(a, b)) == 0 || Max(0, DiffY(a, b)) == 0;
    assert ClampedIntersection(a, b) == 0;
  }

  lemma SelectOfTwo(s: seq<InferenceResult>, K: set<nat>)
    requires |s| == 2
    ensures Select(s, K, 2) == (if 0 in K then [s[0]] else []) + (if 1 in K then [s[1]] else [])
  {
    assert Select(s, K, 1) == Select(s, K, 0) + (if 0 in K then [s[0]] else []);
  }

  lemma SelectOfThree(s: seq<InferenceResult>, K: set<nat>)
    requires |s| == 3
    ensures Select(s, K, 3) == (if 0 in K then [s[0]] else []) + (if 1 in K then [s[1]] else []) + (if 2 in K then [s[2]] else [])
  {
    assert Select(s, K, 1) == Select(s, K, 0) + (if 0 in K then [s[0]] else []);
    assert Select(s, K, 2) == Select(s, K, 1) + (if 1 in K then [s[1]] else []);
  }

  lemma KeepSetOfTwo(entry: EntryFn, u: real, s: seq<InferenceResult>)
    requires |s| == 2
    ensures 0 in KeepSet(entry, u, s)
    ensures 1 in KeepSet(entry, u, s) <==> !Suppresses(entry, u, s, 0, 1)
  {
    if !Suppresses(entry, u, s, 0, 1) {
      assert !SuppressedBefore(entry, u, s, 1, 1);
    }
  }

  lemma KeepSetOfThree(entry: EntryFn, u: real, s: seq<InferenceResult>)
    requires |s| == 3
    ensures 0 in KeepSet(entry, u, s)
    ensures 1 in KeepSet(entry, u, s) <==> !Suppresses(entry, u, s, 0, 1)
    ensures 2 in KeepSet(entry, u, s) <==> !Suppresses(entry, u, s, 0, 2) && !Suppresses(entry, u, s, 1, 2)
  {
    if !Suppresses(entry, u, s, 0, 1) {
      assert !SuppressedBefore(entry, u, s, 1, 1);
    }
    if !Suppresses(entry, u, s, 0, 2) && !Suppresses(entry, u, s, 1, 2) {
      assert !SuppressedBefore(entry, u, s, 2, 2);
    }
  }

  /** Of three same-class detections, the first removes the second and neither earlier one removes the third. */
  lemma KeepFirstAndThird(entry: EntryFn, u: real, s: seq<InferenceResult>)
    requires |s| == 3
    requires s[0].className == s[1].className
    requires Exceeds(entry(RectCorners(s[0].bbox), RectCorners(s[1].bbox)), u)
    requires !Exceeds(entry(RectCorners(s[0].bbox), RectCorners(s[2].bbox)), u)
    requires !Exceeds(entry(RectCorners(s[1].bbox), RectCorners(s[2].bbox)), u)
    ensures Select(s, KeepSet(entry, u, s), 3) == [s[0], s[2]]
  {
    KeepSetOfThree(entry, u, s);
    SelectOfThree(s, KeepSet(entry, u, s));
  }

  /**
    Three detections of one class, most confident first, where only the first
    two overlap above the threshold: the second is removed and the first and
    third survive. The boxes `[0,0,10,10]`, `[2,0,12,10]`, `[8,8,18,18]` at
    threshold 0.5 are such a triple (`Iou.ScenarioOverlapping`,
    `Iou.ScenarioCorner`, `Iou.ScenarioShiftedCorner`).
   */
  lemma NmsThreeBoxScenario(entry: EntryFn, u: real, a: InferenceResult, b: InferenceResult, c: InferenceResult)
    requires a.confidence >= b.confidence >= c.confidence
    requires a.className == b.className == c.className
    requires Exceeds(entry(RectCorners(a.bbox), RectCorners(b.bbox)), u)
    requires !Exceeds(entry(RectCorners(a.bbox), RectCorners(c.bbox)), u)
    requires !Exceeds(entry(RectCorners(b.bbox), RectCorners(c.bbox)), u)
    ensures NmsReference(entry, u, [a, b, c]) == multiset{a, c}
  {
    var s := [a, b, c];
    ThreeSortedUnchanged(a, b, c);
    KeepFirstAndThird(entry, u, s);
    assert multiset([a, c]) == multiset{a, c};
  }

  /** Three detections already in descending order are left as they are by the sort. */
  lemma ThreeSortedUnchanged(a: InferenceResult, b: InferenceResult, c: InferenceResult)
    requires a.confidence >= b.confidence >= c.confidence
    ensures SortByConfidence([a, b, c]) == [a, b, c]
  {
    assert SortedDesc([a, b, c]);
    SortedSequenceUnchanged([a, b, c]);
  }

  /**
    Two detections of one class whose boxes lie apart on both axes: the
    as-written matrix gives entry 1.0 and the second is removed; the clamped
    entry gives 0 and both survive.
   */
  lemma NmsDistantBoxScenario(a: InferenceResult, d: InferenceResult)
    requires a == InferenceResult(Rect(0, 0, 11, 11), "person", 0.9)
    requires d == InferenceResult(Rect(20, 20, 11, 11), "person", 0.8)
    ensures NmsReference(IouEntry, 0.5, [a, d]) == multiset{a}
    ensures NmsReference(ClampedEntry, 0.5, [a, d]) == multiset{a, d}
  {
    var s := [a, d];
    SortedSequenceUnchanged(s);
    ScenarioDistant(RectCorners(a.bbox), RectCorners(d.bbox));
    KeepSetOfTwo(IouEntry, 0.5, s);
    SelectOfTwo(s, KeepSet(IouEntry, 0.5, s));
    KeepSetOfTwo(ClampedEntry, 0.5, s);
    SelectOfTwo(s, KeepSet(ClampedEntry, 0.5, s));
  }
}

=== FILE: prepare.dfy ===
// Image pre-processing for the network (`pre_process_image`): scale the longer
// side to 640 keeping the aspect ratio, paste the resized image at (0, 0) on a
// black 640x640 canvas, and split the canvas into red, green and blue planes
// of values in [0, 1], each indexed `[y][x]`.

module Prepare {
  import opened Machine

  /** Side of the square network input. */
  const Size: nat := 640

  /** Number of values in one 640x640 plane. */
  const PlaneSize: nat := 409600

  datatype Pixel = Pixel(r: Byte, g: Byte, b: Byte)

  const Black: Pixel := Pixel(0, 0, 0)

  /** An RGB image; `pixels[y][x]` is the pixel in column `x` of row `y`. */
  datatype Image = Image(width: nat, height: nat, pixels: seq<seq<Pixel>>)

  predicate WellFormed(img: Image)
  {
    && |img.pixels| == img.height
    && forall y | 0 <= y < |img.pixels| :: |img.pixels[y]| == img.width
  }

  /**
    Target size of the resize, as the source computes it in `u32`: the longer
    side becomes 640 and the shorter one `640 * short / long`, rounded down.
    Both sides stay within 640, wrap-around or not, so the paste at (0, 0)
    always fits the canvas. An image with both sides zero divides by zero.
   */
  function ResizedDims(width: nat, height: nat): (dims: (nat, nat))
    requires width > 0 || height > 0
    ensures width > height ==> dims.0 == Size && dims.1 == ShortSide(height, width)
    ensures width <= height ==> dims.1 == Size && dims.0 == ShortSide(width, height)
    ensures dims.0 <= Size && dims.1 <= Size
  {
    if width > height then (Size, ShortSide(height, width)) else (ShortSide(width, height), Size)
  }

  /** `SIZE_U32 * short / long` in `u32`: the product wraps, the division rounds down. */
  function ShortSide(short: nat, long: nat): (side: nat)
    requires long > 0
    ensures short <= long ==> side <= Size
    ensures side * long <= Wrap32(Size * short) < (side + 1) * long
  {
    DivisionBounds(Wrap32(Size * short), long);
    if short <= long then
      ShortSideBelow(short, long);
      Wrap32(Size * short) / long
    else
      Wrap32(Size * short) / long
  }

  lemma ShortSideBelow(short: nat, long: nat)
    requires 0 < long && short <= long
    ensures Wrap32(Size * short) / long <= Size
  {
    assert Size * short <= Size * long;
    DivBelow(Wrap32(Size * short), long, Size * short);
  }

  /** `ResizeScale`: the longer input side over 640, the factor that maps network coordinates back to the image. */
  function ResizeScale(width: nat, height: nat): (s: real)
    ensures s * (Size as real) == (if width >= height then width else height) as real
  {
    (if width >= height then width else height) as real / Size as real
  }

  /** The 640x640 canvas after `copy_from(&resized, 0, 0)`: the resized image in the top-left corner, black elsewhere. */
  function CanvasPixel(resized: Image, x: nat, y: nat): Pixel
    requires WellFormed(resized)
  {
    if x < resized.width && y < resized.height then resized.pixels[y][x] else Black
  }

  /** Channel `c` of a pixel: 0 red, 1 green, 2 blue. */
  function Component(p: Pixel, c: nat): Byte
    requires c < 3
  {
    if c == 0 then p.r else if c == 1 then p.g else p.b
  }

  /** Plane `c` of the canvas: every byte divided by 255, indexed `[y][x]`. */
  function Plane(resized: Image, c: nat): (plane: seq<seq<real>>)
    requires WellFormed(resized) && c < 3
    ensures |plane| == Size
    ensures forall y | 0 <= y < Size :: |plane[y]| == Size
    ensures forall y, x | 0 <= y < Size && 0 <= x < Size ::
      plane[y][x] == Component(CanvasPixel(resized, x, y), c) as real / 255.0
  {
    seq(Size, y requires 0 <= y < Size =>
      seq(Size, x requires 0 <= x < Size => Component(CanvasPixel(resized, x, y), c) as real / 255.0))
  }

  /**
    `pre_process_image`: the three planes `[red, green, blue]` of the canvas
    and the resize scale. `resized` is what the image library's resize returns
    for the target size; only its dimensions are fixed here.
   */
  function PreProcess(image: Image, resized: Image): (out: (seq<seq<seq<real>>>, real))
    requires image.width > 0 || image.height > 0
    requires WellFormed(resized)
    requires (resized.width, resized.height) == ResizedDims(image.width, image.height)
    ensures |out.0| == 3
    ensures forall c | 0 <= c < 3 :: |out.0[c]| == Size && forall y | 0 <= y < Size :: |out.0[c][y]| == Size
    ensures out.1 == ResizeScale(image.width, image.height)
  {
    ([Plane(resized, 0), Plane(resized, 1), Plane(resized, 2)], ResizeScale(image.width, image.height))
  }

  // ----- properties -----

  /** `n / d <= 640` whenever `n <= 640 * short` and `short <= d`. */
  lemma DivBelow(n: nat, d: nat, bound: nat)
    requires d > 0 && n <= bound && bound <= Size * d
    ensures n / d <= Size
  {
    assert (n / d) * d <= n <= Size * d;
  }

  /** Without wrap-around the shorter side is the floor of `640 * short / long`: the aspect ratio is kept up to rounding. */
  lemma ResizedDimsKeepAspect(width: nat, height: nat)
    requires width > 0 || height > 0
    requires Size * width < TwoTo32 && Size * height < TwoTo32
    ensures width > height ==>
      var short := ResizedDims(width, height).1;
      short * width <= Size * height < (short + 1) * width
    ensures width <= height ==>
      var short := ResizedDims(width, height).0;
      short * height <= Size * width < (short + 1) * height
  {
  }

  /** A square input of side below 2^32 / 640 becomes exactly 640x640. */
  lemma SquareBecomesFull(side: nat)
    requires 0 < side && Size * side < TwoTo32
    ensures ResizedDims(side, side) == (Size, Size)
  {
    assert Wrap32(Size * side) == Size * side;
    ExactQuotient(Size, side);
  }

  /** `(q * d) / d == q`. */
  lemma ExactQuotient(q: nat, d: nat)
    requires d > 0
    ensures (q * d) / d == q
  {
    var p := (q * d) / d;
    DivisionBounds(q * d, d);
    assert (q + 1) * d == q * d + d;
    MulCancel(p, q + 1, d);
    MulCancel(q, p + 1, d);
  }

  /** A positive factor can be cancelled from a strict inequality. */
  lemma MulCancel(a: nat, b: nat, d: nat)
    requires d > 0 && a * d < b * d
    ensures a < b
  {
    if b <= a {
      MulMonotone(b, a, d);
    }
  }

  lemma MulMonotone(a: nat, b: nat, d: nat)
    requires a <= b
    ensures a * d <= b * d
  {
    assert b * d == a * d + (b - a) * d;
  }

  /** For a square input of side 6710887 the 32-bit product wraps and the width collapses to 0. */
  lemma HugeSquareWraps()
    ensures ResizedDims(6710887, 6710887) == (0, Size)
  {
    assert Size * 6710887 == 4294967680;
    assert Wrap32(4294967680) == 384;
  }

  /** Inside the pasted region the canvas shows the resized image; everywhere else it is black. */
  lemma CanvasRegions(resized: Image, x: nat, y: nat)
    requires WellFormed(resized)
    ensures x < resized.width && y < resized.height ==> CanvasPixel(resized, x, y) == resized.pixels[y][x]
    ensures !(x < resized.width && y < resized.height) ==> CanvasPixel(resized, x, y) == Black
  {
  }

  /** Planes come in the order red, green, blue, and every value lies in [0, 1]. */
  lemma PlanesNormalised(image: Image, resized: Image, y: nat, x: nat)
    requires image.width > 0 || image.height > 0
    requires WellFormed(resized)
    requires (resized.width, resized.height) == ResizedDims(image.width, image.height)
    requires y < Size && x < Size
    ensures var planes := PreProcess(image, resized).0;
      && planes[0][y][x] == CanvasPixel(resized, x, y).r as real / 255.0
      && planes[1][y][x] == CanvasPixel(resized, x, y).g as real / 255.0
      && planes[2][y][x] == CanvasPixel(resized, x, y).b as real / 255.0
    ensures forall c | 0 <= c < 3 :: 0.0 <= PreProcess(image, resized).0[c][y][x] <= 1.0
  {
  }

  /** Outside the pasted region every plane holds 0. */
  lemma PlanesZeroOutsideImage(image: Image, resized: Image, y: nat, x: nat)
    requires image.width > 0 || image.height > 0
    requires WellFormed(resized)
    requires (resized.width, resized.height) == ResizedDims(image.width, image.height)
    requires y < Size && x < Size
    requires x >= resized.width || y >= resized.height
    ensures forall c | 0 <= c < 3 :: PreProcess(image, resized).0[c][y][x] == 0.0
  {
  }

  /**
    The flattening in `infer_image`: planes, then rows, then columns, giving
    the `[1, 3, 640, 640]` input tensor.
   */
  function Flatten(planes: seq<seq<seq<real>>>): (t: seq<real>)
    requires |planes| == 3
    requires forall c | 0 <= c < 3 :: |planes[c]| == Size && forall y | 0 <= y < Size :: |planes[c][y]| == Size
    ensures |t| == 3 * PlaneSize
  {
    seq(3 * PlaneSize, i requires 0 <= i < 3 * PlaneSize => planes[i / PlaneSize][(i % PlaneSize) / Size][i % Size])
  }

  /** Element `(c, y, x)` of the planes lands at offset `c * 640 * 640 + y * 640 + x` of the tensor. */
  lemma FlattenIndex(planes: seq<seq<seq<real>>>, c: nat, y: nat, x: nat)
    requires |planes| == 3
    requires forall c | 0 <= c < 3 :: |planes[c]| == Size && forall y | 0 <= y < Size :: |planes[c][y]| == Size
    requires c < 3 && y < Size && x < Size
    ensures Flatten(planes)[c * PlaneSize + y * Size + x] == planes[c][y][x]
  {
    var i := c * PlaneSize + y * Size + x;
    assert y * Size + x < PlaneSize;
    assert i / PlaneSize == c && i % PlaneSize == y * Size + x;
    assert (y * Size + x) / Size == y && (y * Size + x) % Size == x;
    assert i % Size == x;
  }
}

=== FILE: sorting.dfy ===
// Stable descending sort of detections by confidence, as done by
// `results.sort_by(|x, y| y.confidence.total_cmp(&x.confidence))` before
// non-maximum suppression.

module ConfidenceSort {
  import opened Detection

  /** Confidences never increase along the sequence. */
  predicate SortedDesc(s: seq<InferenceResult>)
  {
    forall i, j | 0 <= i < j < |s| :: s[i].confidence >= s[j].confidence
  }

  /** The detections of `s` whose confidence is exactly `c`, in their order in `s`. */
  function WithConfidence(s: seq<InferenceResult>, c: real): seq<InferenceResult>
  {
    if |s| == 0 then []
    else (if s[0].confidence == c then [s[0]] else []) + WithConfidence(s[1..], c)
  }

  /**
    Places `x` in a descending sequence just before the first element whose
    confidence does not exceed its own, so `x` precedes every equal element.
   */
  function Insert(x: InferenceResult, s: seq<InferenceResult>): (r: seq<InferenceResult>)
    requires SortedDesc(s)
    ensures SortedDesc(r)
    ensures multiset(r) == multiset(s) + multiset{x}
    ensures |r| == |s| + 1
  {
    if |s| == 0 then [x]
    else if s[0].confidence <= x.confidence then [x] + s
    else
      var rest := Insert(x, s[1..]);
      InsertBelowHead(x, s, rest);
      [s[0]] + rest
  }

  /** Everything inserted into the tail of a descending sequence stays below its head. */
  lemma InsertBelowHead(x: InferenceResult, s: seq<InferenceResult>, rest: seq<InferenceResult>)
    requires |s| > 0 && SortedDesc(s) && x.confidence < s[0].confidence
    requires SortedDesc(rest) && multiset(rest) == multiset(s[1..]) + multiset{x}
    ensures SortedDesc([s[0]] + rest)
    ensures multiset([s[0]] + rest) == multiset(s) + multiset{x}
  {
    assert s == [s[0]] + s[1..];
    forall k | 0 <= k < |rest|
      ensures rest[k].confidence <= s[0].confidence
    {
      assert rest[k] in multiset(rest);
      if rest[k] != x {
        assert rest[k] in s[1..];
      }
    }
  }

  lemma {:induction false} WithConfidenceAppend(a: seq<InferenceResult>, b: seq<InferenceResult>, c: real)
    ensures WithConfidence(a + b, c) == WithConfidence(a, c) + WithConfidence(b, c)
  {
    if |a| == 0 {
      assert a + b == b;
    } else {
      assert (a + b)[0] == a[0];
      assert (a + b)[1..] == a[1..] + b;
      WithConfidenceAppend(a[1..], b, c);
    }
  }

  /** Inserting `x` puts it first among the detections of its own confidence and moves no other group. */
  lemma {:induction false} InsertStable(x: InferenceResult, s: seq<InferenceResult>, c: real)
    requires SortedDesc(s)
    ensures c == x.confidence ==> WithConfidence(Insert(x, s), c) == [x] + WithConfidence(s, c)
    ensures c != x.confidence ==> WithConfidence(Insert(x, s), c) == WithConfidence(s, c)
  {
    if |s| == 0 {
    } else if s[0].confidence <= x.confidence {
      assert ([x] + s)[1..] == s;
    } else {
      var rest := Insert(x, s[1..]);
      InsertStable(x, s[1..], c);
      assert Insert(x, s) == [s[0]] + rest;
      assert ([s[0]] + rest)[0] == s[0] && ([s[0]] + rest)[1..] == rest;
    }
  }

  /**
    `sort_by` with the reversed `total_cmp`: a stable sort into descending
    confidence. Insertion of the head into the sorted tail keeps the head in
    front of every later element of equal confidence.
   */
  function SortByConfidence(s: seq<InferenceResult>): (r: seq<InferenceResult>)
    ensures SortedDesc(r)
    ensures multiset(r) == multiset(s)
    ensures |r| == |s|
    ensures forall c :: WithConfidence(r, c) == WithConfidence(s, c)
  {
    if |s| == 0 then []
    else
      var tail := SortByConfidence(s[1..]);
      assert s == [s[0]] + s[1..];
      assert forall c :: WithConfidence(Insert(s[0], tail), c) == WithConfidence(s, c) by {
        forall c
          ensures WithConfidence(Insert(s[0], tail), c) == WithConfidence(s, c)
        {
          InsertStable(s[0], tail, c);
          WithConfidenceAppend([s[0]], s[1..], c);
        }
      }
      Insert(s[0], tail)
  }

  /** Sorting an already descending sequence returns it unchanged. */
  lemma {:induction false} SortedSequenceUnchanged(s: seq<InferenceResult>)
    requires SortedDesc(s)
    ensures SortByConfidence(s) == s
  {
    if |s| > 0 {
      SortedSequenceUnchanged(s[1..]);
      assert SortByConfidence(s[1..]) == s[1..];
      if |s| > 1 {
        assert s[1].confidence <= s[0].confidence;
      }
    }
  }

  /** The first element after sorting carries the greatest confidence of the input. */
  lemma SortHeadIsMaximal(s: seq<InferenceResult>, k: nat)
    requires k < |s|
    ensures SortByConfidence(s)[0].confidence >= s[k].confidence
  {
    var r := SortByConfidence(s);
    assert s[k] in multiset(r);
    var p :| 0 <= p < |r| && r[p] == s[k];
  }
}

=== FILE: tensor.dfy ===
/**
  Reshaping of the detection head's flat output buffer
  (`process_output_buffer_to_tensor` and `transpose` in yolo-rs-wasm/src/process.rs).

  The buffer is attribute-major: the first 8400 entries are the x value of every
  candidate, the next 8400 the y value, and so on. It is cut into 8400-long columns
  and transposed, so that row i holds every attribute of candidate i.
 */
module Tensor {

  /** Number of candidate objects the detection head emits per inference. */
  const ObjectCount: nat := 8400

  /**
    `chunks_exact(8400)`: consecutive, non-overlapping 8400-long slices; a trailing
    remainder shorter than 8400 is dropped.
   */
  function Columns<T>(s: seq<T>): (r: seq<seq<T>>)
    ensures |r| == |s| / 8400
    ensures forall k | 0 <= k < |r| :: |r[k]| == 8400
    ensures forall k, i | 0 <= k < |r| && 0 <= i < 8400 :: k * 8400 + i < |s| && r[k][i] == s[k * 8400 + i]
  {
    seq(|s| / 8400, k requires 0 <= k < |s| / 8400 => s[k * 8400 .. k * 8400 + 8400])
  }

  /** `transpose` unwraps one element of every row per output row: each row must be at least as long as the first. */
  predicate TransposeDefined<T>(v: seq<seq<T>>)
  {
    |v| == 0 || forall j | 0 <= j < |v| :: |v[j]| >= |v[0]|
  }

  /** All rows have the same length. */
  predicate Rectangular<T>(v: seq<seq<T>>)
  {
    forall j | 0 <= j < |v| :: |v[j]| == |v[0]|
  }

  /**
    `transpose`: an empty input is returned as is; otherwise output row `i` collects
    element `i` of every input row, for `i` below the length of the first row.
   */
  function Transpose<T>(v: seq<seq<T>>): (r: seq<seq<T>>)
    requires TransposeDefined(v)
    ensures |v| == 0 ==> r == []
    ensures |v| > 0 ==> |r| == |v[0]|
    ensures forall i | 0 <= i < |r| :: |r[i]| == |v|
    ensures forall i, j | 0 <= i < |r| && 0 <= j < |r[i]| :: r[i][j] == v[j][i]
  {
    if |v| == 0 then v
    else
      seq(|v[0]|, i requires 0 <= i < |v[0]| =>
        seq(|v|, j requires 0 <= j < |v| => v[j][i]))
  }

  /** A rectangular transpose yields a rectangular result. */
  lemma TransposeRectangular<T>(v: seq<seq<T>>)
    requires Rectangular(v)
    ensures TransposeDefined(Transpose(v)) && Rectangular(Transpose(v))
  {}

  /** Transposing twice restores `R > 0` rows of equal length `C > 0`. */
  lemma TransposeTwice<T>(v: seq<seq<T>>)
    requires |v| > 0 && |v[0]| > 0 && Rectangular(v)
    ensures TransposeDefined(Transpose(v))
    ensures Transpose(Transpose(v)) == v
  {
    var t := Transpose(v);
    var tt := Transpose(t);
    assert |tt| == |v|;
    forall j | 0 <= j < |v|
      ensures tt[j] == v[j]
    {
      assert |tt[j]| == |t| == |v[j]|;
    }
  }

  /** Rows of length zero are not restored: the first transpose has no rows, the second returns nothing. */
  lemma TransposeLosesEmptyRows<T>(v: seq<seq<T>>)
    requires |v| > 0 && forall j | 0 <= j < |v| :: v[j] == []
    ensures Transpose(v) == []
    ensures Transpose(Transpose(v)) != v
  {}

  /**
    `process_output_buffer_to_tensor`: the buffer is cut into `ObjectCount`-long columns
    (a trailing partial column is dropped) and transposed. With at least one whole
    column the result has one row per candidate, and field `k` of row `i` is
    `buffer[k * ObjectCount + i]`.
   */
  function ProcessOutputBuffer(buffer: seq<real>): (rows: seq<seq<real>>)
    ensures |buffer| < ObjectCount ==> rows == []
    ensures |buffer| >= ObjectCount ==> |rows| == ObjectCount
    ensures forall i | 0 <= i < |rows| :: |rows[i]| == |buffer| / ObjectCount
    ensures forall i, k | 0 <= i < |rows| && 0 <= k < |rows[i]| ::
      k * ObjectCount + i < |buffer| && rows[i][k] == buffer[k * ObjectCount + i]
  {
    Transpose(Columns(buffer))
  }

  /** A trailing partial column does not change the decoded rows. */
  lemma TrailingPartialColumnIgnored(buffer: seq<real>, extra: seq<real>)
    requires |buffer| % ObjectCount == 0 && |extra| < ObjectCount
    ensures ProcessOutputBuffer(buffer + extra) == ProcessOutputBuffer(buffer)
  {
    var a := ProcessOutputBuffer(buffer + extra);
    var b := ProcessOutputBuffer(buffer);
    assert (|buffer| + |extra|) / ObjectCount == |buffer| / ObjectCount;
    assert |a| == |b|;
    forall i | 0 <= i < |a|
      ensures a[i] == b[i]
    {
      assert |a[i]| == |b[i]|;
      forall k | 0 <= k < |a[i]|
        ensures a[i][k] == b[i][k]
      {
        assert (buffer + extra)[k * ObjectCount + i] == buffer[k * ObjectCount + i];
      }
    }
  }

  /** Width of the class-score block the model head produces. */
  const ClassCount: nat := 80

  /**
    The caller allocates `ObjectCount * ClassCount` floats (8400 * 80), not
    `ObjectCount * (4 + ClassCount)`: decoded rows then carry 80 fields, i.e. only
    76 class scores after the four box fields.
   */
  lemma AllocatedBufferRowsHave80Fields(buffer: seq<real>)
    requires |buffer| == ObjectCount * ClassCount
    ensures |ProcessOutputBuffer(buffer)| == ObjectCount
    ensures forall i | 0 <= i < ObjectCount :: |ProcessOutputBuffer(buffer)[i]| == 4 + 76
  {}

  /** With the head's full `ObjectCount * (4 + ClassCount)` floats every row carries four box fields and all 80 class scores. */
  lemma FullBufferRowsCarryAllScores(buffer: seq<real>)
    requires |buffer| == ObjectCount * (4 + ClassCount)
    ensures |ProcessOutputBuffer(buffer)| == ObjectCount
    ensures forall i | 0 <= i < ObjectCount :: |ProcessOutputBuffer(buffer)[i]| == 4 + ClassCount
  {}
}

=== FILE: wrappers.dfy ===
/** Failure-carrying datatypes shared by the modules of this model. */
module Wrappers {

  /** An optional value, as Rust's `Option<T>`. */
  datatype Option<+T> = None | Some(value: T)

  /** A value or an error, as Rust's `Result<T, E>`. */
  datatype Result<+T, +E> = Ok(value: T) | Err(error: E)
}

=== FILE: yolo.dfy ===
// The guest side (`yolo-rs-wasm/src/lib.rs`): building a `Yolo` from its
// builder, the image pipeline of `infer_image` (pre-process, network,
// decode, suppression) and the frame loop of `infer_video`, which drives the
// video plugin through its host functions. The network and the plugin are
// parameters; only what the guest does with their answers is modelled.

module Yolo {
  import opened Wrappers
  import opened Tensor
  import opened Detection
  import opened Iou
  import opened Nms
  import opened Prepare
  import opened Machine
  import FrameStore

  /** `YoloRuntimeError`, with the library errors it wraps reduced to their codes. */
  datatype RuntimeError =
    | ImageError
    | FileNotFound
    | GraphError(code: int)
    | PostProcessingError
    | VideoLoad
    | VideoAssemble
    | VideoPluginImageWriteError

  // ----- building -----

  /** `BuildError`: no class list, or the graph library's error. */
  datatype BuildError = MissingClasses | GraphBuildError(code: int) | ClassesFileError

  /** The part of `YoloBuilder` the build step looks at. */
  datatype Builder = Builder(classes: Option<seq<string>>)

  /** A built detector; the graph and the font are not modelled. */
  datatype Yolo = Yolo(classes: seq<string>)

  /**
    The shared shape of `build_from_bytes` and `build_from_files`: without a
    class list the build fails with `MissingClasses` and the graph is never
    built; otherwise a graph error is passed on and a built graph yields a
    detector holding exactly the configured classes.
   */
  function Build(b: Builder, graph: Result<(), int>): (r: Result<Yolo, BuildError>)
    ensures r == Err(MissingClasses) <==> b.classes.None?
    ensures r.Ok? <==> b.classes.Some? && graph.Ok?
    ensures r.Ok? ==> r.value.classes == b.classes.value
    ensures b.classes.Some? && graph.Err? ==> r == Err(GraphBuildError(graph.error))
  {
    match b.classes
    case None => Err(MissingClasses)
    case Some(classes) =>
      match graph
      case Err(code) => Err(GraphBuildError(code))
      case Ok(_) => Ok(Yolo(classes))
  }

  /** `build_from_bytes`, where `graph` is what the graph library makes of the model bytes. */
  function BuildFromBytes(b: Builder, graph: Result<(), int>): (r: Result<Yolo, BuildError>)
    ensures r == Err(MissingClasses) <==> b.classes.None?
    ensures r.Ok? <==> b.classes.Some? && graph.Ok?
    ensures r.Ok? ==> r.value.classes == b.classes.value
  {
    Build(b, graph)
  }

  /** `build_from_files`, where `graph` is what the graph library makes of the model files. */
  function BuildFromFiles(b: Builder, graph: Result<(), int>): (r: Result<Yolo, BuildError>)
    ensures r == Err(MissingClasses) <==> b.classes.None?
    ensures r.Ok? <==> b.classes.Some? && graph.Ok?
    ensures r.Ok? ==> r.value.classes == b.classes.value
  {
    Build(b, graph)
  }

  /** Whatever the graph library answers, a builder without classes fails the same way from bytes and from files. */
  lemma MissingClassesBeforeGraph(graph1: Result<(), int>, graph2: Result<(), int>)
    ensures BuildFromBytes(Builder(None), graph1) == BuildFromFiles(Builder(None), graph2) == Err(MissingClasses)
  {
  }

  // ----- infer_image -----

  /** Floats `infer_image` allocates for the network output: `OUTPUT_OBJECTS * OUTPUT_CLASSES`. */
  const AllocatedOutputLen: nat := ObjectCount * ClassCount

  /** Floats the network head produces: four box fields and 80 class scores per candidate. */
  const FullOutputLen: nat := ObjectCount * (4 + ClassCount)

  /** A zeroed buffer of `len` floats after `get_output`: the network's values fill a prefix, the rest stay 0. */
  function FillTo(out: seq<real>, len: nat): (buffer: seq<real>)
    ensures |buffer| == len
    ensures forall i | 0 <= i < len :: buffer[i] == (if i < |out| then out[i] else 0.0)
  {
    seq(len, i requires 0 <= i < len => if i < |out| then out[i] else 0.0)
  }

  /** The rows decoded from network output `out` read through a buffer of `len` floats. */
  function OutputRows(out: seq<real>, len: nat): seq<seq<real>>
  {
    ProcessOutputBuffer(FillTo(out, len))
  }

  /**
    What the network answers for an input tensor: the values `get_output`
    writes, or the code of the first failing graph call (execution context,
    `set_input`, `compute`, `get_output`).
   */
  type NetworkFn = seq<real> -> Result<seq<real>, int>

  /** The image preconditions of `pre_process_image`; `resized` is the image library's resize of `image`. */
  predicate Preparable(image: Image, resized: Image)
  {
    && (image.width > 0 || image.height > 0)
    && WellFormed(resized)
    && (resized.width, resized.height) == ResizedDims(image.width, image.height)
  }

  /** The `[1, 3, 640, 640]` input tensor built from an image. */
  function InputTensor(image: Image, resized: Image): (t: seq<real>)
    requires Preparable(image, resized)
    ensures |t| == 3 * PlaneSize
  {
    Flatten(PreProcess(image, resized).0)
  }

  /** Detections before suppression, for network output `out` read through a buffer of `len` floats. */
  function Detections(yolo: Yolo, conf: real, out: seq<real>, len: nat, scale: real, round: RoundFn): seq<InferenceResult>
    requires AllDecodable(OutputRows(out, len), conf, yolo.classes, scale, round)
  {
    ApplyConfidenceAndScale(OutputRows(out, len), conf, yolo.classes, scale, round)
  }

  /**
    `apply_confidence_and_scale` does not panic on what the network answers:
    every kept row has a class name and a box of positive size.
   */
  predicate Inferable(yolo: Yolo, conf: real, image: Image, resized: Image, network: NetworkFn, round: RoundFn)
    requires Preparable(image, resized)
  {
    var out := network(InputTensor(image, resized));
    out.Ok? ==> AllDecodable(OutputRows(out.value, AllocatedOutputLen), conf, yolo.classes, ResizeScale(image.width, image.height), round)
  }

  /** A detection at or above the threshold that names one of the first 76 classes. */
  predicate AmongFirst76(d: InferenceResult, conf: real, classes: seq<string>)
  {
    && d.confidence >= conf
    && exists k | 0 <= k < 76 && k < |classes| :: d.className == classes[k]
  }

  /**
    `infer_image`: a graph error ends the call with `GraphError`; otherwise
    the detections that pass the confidence threshold are returned as they
    are when there are none, and put through suppression otherwise. Read
    through the 8400 * 80 buffer, every reported class is one of the first 76.
   */
  method InferImage(yolo: Yolo, conf: real, iouThresh: real, image: Image, resized: Image, network: NetworkFn, round: RoundFn)
    returns (r: Result<seq<InferenceResult>, RuntimeError>)
    requires Preparable(image, resized)
    requires Inferable(yolo, conf, image, resized, network, round)
    ensures r.Err? <==> network(InputTensor(image, resized)).Err?
    ensures r.Err? ==> r.error == GraphError(network(InputTensor(image, resized)).error)
    ensures r.Ok? ==>
      var dets := Detections(yolo, conf, network(InputTensor(image, resized)).value, AllocatedOutputLen,
                             ResizeScale(image.width, image.height), round);
      && multiset(r.value) == NmsReference(IouEntry, iouThresh, dets)
      && (|dets| == 0 ==> r.value == [])
    ensures r.Ok? ==> forall d | d in r.value :: AmongFirst76(d, conf, yolo.classes)
  {
    var out := network(InputTensor(image, resized));
    if out.Err? {
      return Err(GraphError(out.error));
    }
    var scale := ResizeScale(image.width, image.height);
    var dets := Detections(yolo, conf, out.value, AllocatedOutputLen, scale, round);
    AllocatedBufferUsesFirst76Classes(yolo, conf, out.value, scale, round);
    if |dets| == 0 {
      return Ok(dets);
    }
    var keepers := NonMaximumSuppression(iouThresh, dets);
    SuppressionKeepsFirst76(iouThresh, dets, keepers, conf, yolo.classes);
    return Ok(keepers);
  }

  /** Suppression only drops detections, so what holds of every input detection holds of every survivor. */
  lemma SuppressionKeepsFirst76(iouThresh: real, dets: seq<InferenceResult>, keepers: seq<InferenceResult>, conf: real, classes: seq<string>)
    requires multiset(keepers) == NmsReference(IouEntry, iouThresh, dets)
    requires forall d | d in dets :: AmongFirst76(d, conf, classes)
    ensures forall d | d in keepers :: AmongFirst76(d, conf, classes)
  {
    NmsWithinInput(IouEntry, iouThresh, dets);
    forall d | d in keepers
      ensures AmongFirst76(d, conf, classes)
    {
      assert d in multiset(keepers);
      assert d in multiset(dets);
    }
  }

  /** Through the buffer of 8400 * 80 floats every row has 76 class scores, so every detection names one of the first 76 classes. */
  lemma AllocatedBufferUsesFirst76Classes(yolo: Yolo, conf: real, out: seq<real>, scale: real, round: RoundFn)
    requires AllDecodable(OutputRows(out, AllocatedOutputLen), conf, yolo.classes, scale, round)
    ensures forall d | d in Detections(yolo, conf, out, AllocatedOutputLen, scale, round) ::
      AmongFirst76(d, conf, yolo.classes)
  {
    var rows := OutputRows(out, AllocatedOutputLen);
    var dets := Detections(yolo, conf, out, AllocatedOutputLen, scale, round);
    AllocatedBufferRowsHave80Fields(FillTo(out, AllocatedOutputLen));
    assert forall i | 0 <= i < |rows| :: |rows[i]| == 80;
    forall a | 0 <= a < |dets|
      ensures exists k | 0 <= k < 76 && k < |yolo.classes| :: dets[a].className == yolo.classes[k]
    {
      var i := KeptIndices(rows, conf)[a];
      assert dets[a] == DecodeRow(rows[i], yolo.classes, scale, round);
      assert |Scores(rows[i])| == 76;
    }
  }

  /** With 80 distinct class names, the last four are never reported through the 8400 * 80 buffer. */
  lemma LastFourClassesNeverReported(yolo: Yolo, conf: real, out: seq<real>, scale: real, round: RoundFn, c: nat)
    requires AllDecodable(OutputRows(out, AllocatedOutputLen), conf, yolo.classes, scale, round)
    requires |yolo.classes| == ClassCount && 76 <= c < ClassCount
    requires forall i, j | 0 <= i < j < ClassCount :: yolo.classes[i] != yolo.classes[j]
    ensures forall d | d in Detections(yolo, conf, out, AllocatedOutputLen, scale, round) :: d.className != yolo.classes[c]
  {
    AllocatedBufferUsesFirst76Classes(yolo, conf, out, scale, round);
  }

  /** A row whose class score `c` beats every other class score is attributed to class `c`. */
  lemma UniqueBestScoreWins(row: seq<real>, c: nat)
    requires 4 + c < |row|
    requires forall k | 4 <= k < |row| && k != 4 + c :: row[k] < row[4 + c]
    ensures ClassIndex(row) == c
  {
    var s := Scores(row);
    assert s[c] in s;
    assert forall j | 0 <= j < |s| && j != c :: s[j] < s[c];
    assert BestScore(row) == s[c];
  }

  /**
    With a buffer of the head's full 8400 * 84 floats every class can be
    reported: a candidate whose score for class `c < 80` beats its other
    scores decodes to `classes[c]`.
   */
  lemma FullBufferReachesEveryClass(yolo: Yolo, out: seq<real>, i: nat, c: nat, scale: real, round: RoundFn)
    requires i < ObjectCount && c < ClassCount && |yolo.classes| == ClassCount
    requires var row := OutputRows(out, FullOutputLen)[i];
      forall k | 4 <= k < 4 + ClassCount && k != 4 + c :: row[k] < row[4 + c]
    requires round(OutputRows(out, FullOutputLen)[i][2] * scale) > 0
    requires round(OutputRows(out, FullOutputLen)[i][3] * scale) > 0
    ensures Decodable(OutputRows(out, FullOutputLen)[i], yolo.classes, scale, round)
    ensures DecodeRow(OutputRows(out, FullOutputLen)[i], yolo.classes, scale, round).className == yolo.classes[c]
  {
    FullBufferRowsCarryAllScores(FillTo(out, FullOutputLen));
    var row := OutputRows(out, FullOutputLen)[i];
    UniqueBestScoreWins(row, c);
  }

  // ----- infer_video -----

  /** The `i32` the guest computes for a product, with two's-complement wrap-around. */
  function WrapI32(x: int): (r: int)
    ensures -0x8000_0000 <= r < 0x8000_0000
    ensures (r - x) % 0x1_0000_0000 == 0
  {
    (x + 0x8000_0000) % 0x1_0000_0000 - 0x8000_0000
  }

  /** `x as u32` for an `i32`. */
  function AsU32(x: int): (r: nat)
    requires -0x8000_0000 <= x < 0x8000_0000
    ensures r < 0x1_0000_0000
    ensures (r - x) % 0x1_0000_0000 == 0
  {
    if x < 0 then x + 0x1_0000_0000 else x
  }

  /** `LevelFilter::Info as i32`, the level the guest asks the plugin to log at. */
  const InfoCode: int := 3

  /**
    The video plugin as the guest sees it: the status of each host call, the
    sizes `load_video_to_host_memory` writes into the guest's `i32` slots, and
    the bytes `get_frame` leaves in a buffer for a frame index (a buffer it
    does not fill keeps its zeros).
   */
  datatype Plugin = Plugin(
    loadStatus: int,
    width: I32,
    height: I32,
    frameCount: I32,
    fetch: int -> seq<Byte>,
    assembleStatus: int)

  /** The host calls the guest makes, with the frame index and buffer length where there is one. */
  datatype PluginCall =
    | InitLogging(level: int)
    | LoadVideo
    | GetFrame(index: int, len: int)
    | WriteFrame(index: int, len: int)
    | AssembleVideo

  /** How `infer_video` ends: it returns a result, or the guest panics. */
  datatype Outcome = Returned(result: Result<seq<seq<InferenceResult>>, RuntimeError>) | Panicked

  /** What the guest does with one frame: `infer_image` on the frame as an image of the given size. */
  type FrameInferFn = (nat, nat, seq<Byte>) -> Result<seq<InferenceResult>, RuntimeError>

  /** The calls before the frame loop. */
  const Opening: seq<PluginCall> := [InitLogging(InfoCode), LoadVideo]

  /** `image_buf_size`: `width * height * 3` in `i32`. */
  function BufferSize(p: Plugin): int
  {
    WrapI32(p.width * p.height * 3)
  }

  /** Frames the loop `0..frame_count` visits. */
  function FrameTotal(p: Plugin): nat
  {
    if p.frameCount > 0 then p.frameCount else 0
  }

  /** `ImageBuffer::from_vec` accepts a buffer of `BufferSize` bytes for a `width x height` RGB image. */
  predicate ImageFits(p: Plugin)
  {
    && BufferSize(p) >= 0
    && AsU32(p.width) * AsU32(p.height) * 3 <= BufferSize(p)
  }

  function Zeros(n: nat): (z: seq<Byte>)
    ensures |z| == n
    ensures forall i | 0 <= i < n :: z[i] == 0
  {
    seq(n, i => 0)
  }

  /** The guest's buffer for frame `i` after `get_frame`. */
  function FrameBuffer(p: Plugin, i: int): seq<Byte>
    requires BufferSize(p) >= 0
  {
    var b := p.fetch(i);
    if |b| == BufferSize(p) then b else Zeros(BufferSize(p))
  }

  /** The guest's result for frame `i`. */
  function FrameResult(p: Plugin, infer: FrameInferFn, i: int): Result<seq<InferenceResult>, RuntimeError>
    requires BufferSize(p) >= 0
  {
    infer(AsU32(p.width), AsU32(p.height), FrameBuffer(p, i))
  }

  /** Frames `0..j` all infer without error. */
  predicate FramesOk(p: Plugin, infer: FrameInferFn, j: nat)
    requires BufferSize(p) >= 0
  {
    forall i | 0 <= i < j :: FrameResult(p, infer, i).Ok?
  }

  /** Reference call sequence of `n` completed frames: fetch then write back, frame by frame. */
  function FrameCalls(n: nat, size: int): (calls: seq<PluginCall>)
    ensures |calls| == 2 * n
    ensures forall i | 0 <= i < n :: calls[2 * i] == GetFrame(i, size) && calls[2 * i + 1] == WriteFrame(i, size)
    ensures forall c | c in calls :: c.GetFrame? || c.WriteFrame?
  {
    if n == 0 then [] else FrameCalls(n - 1, size) + [GetFrame(n - 1, size), WriteFrame(n - 1, size)]
  }

  /** Both paths exist and are valid UTF-8, so the plugin is reached. */
  predicate Started(inputExists: bool, inputUtf8: bool, outputUtf8: bool)
  {
    inputExists && inputUtf8 && outputUtf8
  }

  /** The frames all pass: the buffer fits the image and every frame infers without error. */
  predicate FramesPass(p: Plugin, infer: FrameInferFn)
  {
    FrameTotal(p) > 0 ==> ImageFits(p) && FramesOk(p, infer, FrameTotal(p))
  }

  /**
    The frame loop of `infer_video`, frames `0..frame_count` in order. It
    either stops early with the call's outcome (a panic allocating a
    buffer of negative size, a buffer that does not fit the image, or the
    first frame error) or passes every frame, collecting one result list
    per frame. Each frame is fetched before it is inferred and written back.
   */
  method VisitFrames(p: Plugin, infer: FrameInferFn)
    returns (stop: Option<Outcome>, results: seq<seq<InferenceResult>>, calls: seq<PluginCall>)
    ensures forall c | c in calls :: c.GetFrame? || c.WriteFrame?
    ensures stop.None? <==> FramesPass(p, infer)
    ensures stop.Some? ==> stop.value.Panicked? || stop.value.result.Err?
    ensures stop.None? ==>
      && |results| == FrameTotal(p)
      && (FrameTotal(p) > 0 ==> BufferSize(p) >= 0)
      && (forall i | 0 <= i < FrameTotal(p) :: FrameResult(p, infer, i) == Ok(results[i]))
      && calls == FrameCalls(FrameTotal(p), BufferSize(p))
    ensures stop == Some(Panicked) <==> FrameTotal(p) > 0 && BufferSize(p) < 0
    ensures stop == Some(Panicked) ==> calls == []
    ensures FrameTotal(p) > 0 && BufferSize(p) >= 0 && !ImageFits(p) ==>
      stop == Some(Returned(Err(VideoPluginImageWriteError))) && calls == [GetFrame(0, BufferSize(p))]
    ensures forall j | 0 <= j < FrameTotal(p) && ImageFits(p) && FramesOk(p, infer, j) && FrameResult(p, infer, j).Err? ::
      && stop == Some(Returned(Err(FrameResult(p, infer, j).error)))
      && calls == FrameCalls(j, BufferSize(p)) + [GetFrame(j, BufferSize(p))]
  {
    var size := BufferSize(p);
    var n := FrameTotal(p);
    results, calls := [], [];
    var idx: nat := 0;
    while idx < n
      invariant idx <= n
      invariant idx > 0 ==> size >= 0 && ImageFits(p)
      invariant idx > 0 ==> FramesOk(p, infer, idx)
      invariant |results| == idx
      invariant idx > 0 ==> forall i | 0 <= i < idx :: FrameResult(p, infer, i) == Ok(results[i])
      invariant calls == FrameCalls(idx, size)
    {
      if size < 0 {
        return Some(Panicked), results, calls;
      }
      calls := calls + [GetFrame(idx, size)];
      if !ImageFits(p) {
        return Some(Returned(Err(VideoPluginImageWriteError))), results, calls;
      }
      var r := FrameResult(p, infer, idx);
      if r.Err? {
        forall j | 0 <= j < n && FramesOk(p, infer, j) && FrameResult(p, infer, j).Err?
          ensures j == idx
        {
          FirstFailureUnique(p, infer, j, idx);
        }
        return Some(Returned(Err(r.error))), results, calls;
      }
      results := results + [r.value];
      calls := calls + [WriteFrame(idx, size)];
      idx := idx + 1;
    }
    return None, results, calls;
  }

  /** At most one frame can be the first to fail. */
  lemma FirstFailureUnique(p: Plugin, infer: FrameInferFn, j: nat, k: nat)
    requires BufferSize(p) >= 0
    requires FramesOk(p, infer, j) && FrameResult(p, infer, j).Err?
    requires FramesOk(p, infer, k) && FrameResult(p, infer, k).Err?
    ensures j == k
  {
  }

  /** `infer_video` returns the per-frame results exactly when every step along the way succeeds. */
  predicate VideoSucceeds(inputExists: bool, inputUtf8: bool, outputUtf8: bool, p: Plugin, infer: FrameInferFn)
  {
    && Started(inputExists, inputUtf8, outputUtf8)
    && p.loadStatus == 0
    && FramesPass(p, infer)
    && p.assembleStatus == 0
  }

  /**
    `infer_video`. A missing input path or a path that is not UTF-8 ends the
    call with `FileNotFound` before any plugin call. Otherwise logging is set
    up at level Info and the video is loaded; a nonzero load status maps to
    `VideoLoad`. Frames `0..frame_count` are then fetched, inferred and
    written back in order with a buffer of `width * height * 3` bytes, one
    result list per frame; the first frame error ends the call. Assembly
    comes once, last, and a nonzero status maps to `VideoAssemble`.
   */
  method InferVideo(inputExists: bool, inputUtf8: bool, outputUtf8: bool, p: Plugin, infer: FrameInferFn)
    returns (outcome: Outcome, calls: seq<PluginCall>)
    ensures !Started(inputExists, inputUtf8, outputUtf8) ==> outcome == Returned(Err(FileNotFound)) && calls == []
    ensures Started(inputExists, inputUtf8, outputUtf8) ==> |calls| >= 2 && calls[..2] == Opening
    ensures Started(inputExists, inputUtf8, outputUtf8) && p.loadStatus != 0 ==>
      outcome == Returned(Err(VideoLoad)) && calls == Opening
    ensures outcome.Returned? && outcome.result.Ok? <==> VideoSucceeds(inputExists, inputUtf8, outputUtf8, p, infer)
    ensures outcome.Returned? && outcome.result.Ok? ==>
      && (FrameTotal(p) > 0 ==> BufferSize(p) >= 0)
      && |outcome.result.value| == FrameTotal(p)
      && (forall i | 0 <= i < FrameTotal(p) :: FrameResult(p, infer, i) == Ok(outcome.result.value[i]))
      && calls == Opening + FrameCalls(FrameTotal(p), BufferSize(p)) + [AssembleVideo]
    ensures outcome == Panicked <==>
      Started(inputExists, inputUtf8, outputUtf8) && p.loadStatus == 0 && FrameTotal(p) > 0 && BufferSize(p) < 0
    ensures outcome == Panicked ==> calls == Opening
    ensures (Started(inputExists, inputUtf8, outputUtf8) && p.loadStatus == 0 && FrameTotal(p) > 0 &&
             BufferSize(p) >= 0 && !ImageFits(p)) ==>
      outcome == Returned(Err(VideoPluginImageWriteError)) && calls == Opening + [GetFrame(0, BufferSize(p))]
    ensures forall j | 0 <= j < FrameTotal(p) && Started(inputExists, inputUtf8, outputUtf8) && p.loadStatus == 0 && ImageFits(p) &&
        FramesOk(p, infer, j) && FrameResult(p, infer, j).Err? ::
      && outcome == Returned(Err(FrameResult(p, infer, j).error))
      && calls == Opening + FrameCalls(j, BufferSize(p)) + [GetFrame(j, BufferSize(p))]
    ensures AssembleVideo in calls <==>
      Started(inputExists, inputUtf8, outputUtf8) && p.loadStatus == 0 && FramesPass(p, infer)
    ensures AssembleVideo in calls && p.assembleStatus != 0 ==> outcome == Returned(Err(VideoAssemble))
  {
    if !inputExists || !(inputUtf8 && outputUtf8) {
      return Returned(Err(FileNotFound)), [];
    }
    if p.loadStatus != 0 {
      return Returned(Err(VideoLoad)), Opening;
    }
    var stop, results, frameCalls := VisitFrames(p, infer);
    assert forall c | c in Opening + frameCalls :: c != AssembleVideo;
    if stop.Some? {
      return stop.value, Opening + frameCalls;
    }
    calls := Opening + frameCalls + [AssembleVideo];
    if p.assembleStatus != 0 {
      return Returned(Err(VideoAssemble)), calls;
    }
    return Returned(Ok(results)), calls;
  }

  /** The level code the guest sends is the one the plugin reads as Info. */
  lemma GuestAsksForInfo()
    ensures FrameStore.LogLevel(InfoCode) == FrameStore.Info
    ensures FrameStore.LevelCode(FrameStore.Info) == InfoCode
  {
  }
}
